=== FILE: README.md ===
# School management API: access rules, validation and client state

This project models the authorization and validation layer of a school-management REST API (Express, Sequelize, Joi) and the Redux slices that mirror its user and document resources on the client. Every module is a pure function of its inputs. The database is a map from primary key to row. bcrypt, jsonwebtoken, Joi's `.email()`, the clock and the random suffix of stored file names are all parameters.

It covers the following parts of the system:

- **The request pipeline.**
  - The route tables of the user and document routers and their mounting under `/api`.
  - The `auth` and `checkRole(roles)` guards.
  - multer's `upload.single` with its file filter, size limit and error translation.
  - The `validate` middleware that joins Joi's messages into one 400 error.
  - Any request can be dispatched end to end (`Routes.Dispatch`). Lemmas state which guards stand in front of each handler.
- **The Joi schemas.**
  - `documentSchema`, `createUserSchema`, `updateUserSchema`, `loginSchema` and `changePasswordSchema`.
  - Each schema is stated twice: once directly as a predicate, and once as Joi's list of error details. The model proves the two agree.
  - The password policy is stated as character classes, next to a one-pass matcher for the regular expression.
  - The phone pattern is stated as a grammar, next to a matcher.
- **The controllers as store transitions.**
  - The document controller: upload, list, read, download, update and delete, with the read and write permissions.
  - The user controller: create, login, profile, password change, and the administrators' CRUD with soft delete.
  - The `User` model hooks that hash passwords on create and on a changed password.
  - The `Schedule` model's column rules and its two ordering validators.
- **The client.**
  - The `user` and `document` slice reducers, and the object `uploadDocument` builds.
  - The registration form's yup schema and the payload it posts.
  - That payload is followed through the API client's base URL into the server's router.

## Model

| member | source | states |
|---|---|---|
| Auth.Authenticate | backend/src/middleware/auth.js:5-42 | A missing header gives 401 "Authentification requise". Otherwise it passes exactly when the token verifies to the id of an existing, active user. Every other failure gives 401 "Veuillez vous authentifier". On success `req.user` is that row without its password, and only that row's `lastLogin` changes. |
| Auth.TokenOfBearer | backend/src/middleware/auth.js:15 | `Bearer <t>` yields `t`. |
| Auth.TokenNotAnchored | backend/src/middleware/auth.js:15 | The `"Bearer "` removal is not anchored. Text in front of the first occurrence is kept and the occurrence is cut out. |
| Auth.InactiveNeverPasses | backend/src/middleware/auth.js:18-25 | A deactivated account is refused with 401, even with a token that verifies to it. |
| Auth.SignedTokenPasses | backend/src/middleware/auth.js:15-34 | A token signed for an active user, sent as `Bearer <token>`, passes and identifies that user. |
| Auth.CheckRole | backend/src/middleware/auth.js:44-54 | The guard continues iff the user's role is in the list. Otherwise it answers 403 "Accès non autorisé". |
| Auth.AdminGuard | backend/src/middleware/auth.js:44-54 | `checkRole(['admin'])` admits exactly the administrators. |
| Common.ParseRole | backend/src/models/User.js:31-34 | A role name parses iff it is one of the four enum values, and it parses to the role of that name. |
| Common.RoleNameRoundTrip | backend/src/models/User.js:31-34 | Every role is in the enum list, and naming it then parsing the name gives the role back. |
| UserModel.View | backend/src/controllers/userController.js:51-53 | The response row keeps id, e-mail, role and active flag. |
| UserModel.ViewHidesPassword | backend/src/controllers/userController.js:51-53 | The response row does not depend on the stored password. |
| UserModel.BeforeCreate | backend/src/models/User.js:54-58 | A non-empty password is replaced by its hash. An empty one is left alone. |
| UserModel.Build | backend/src/models/User.js:43-46 | A new row is active, has never logged in, and stores the hash of a non-empty given password. |
| UserModel.BeforeUpdate | backend/src/models/User.js:60-65 | The password is re-hashed exactly when it differs from the stored one. |
| UserModel.PasswordChangeTakesEffect | backend/src/models/User.js:60-71 | After a change to `q`, `validatePassword(q)` holds. With an injective hash, the old password stops validating. |
| UserModel.ValidatePassword | backend/src/models/User.js:69-71 | A password validates iff its hash is the stored column. With an injective hash, at most one password validates. |
| UserModel.OtherUpdatesKeepHash | backend/src/models/User.js:60-71 | An update that leaves the password alone keeps the stored hash, and the same passwords validate. |
| UserModel.FindByEmail | backend/src/controllers/userController.js:17 | Finds the row holding the address iff some row holds it. |
| UserModel.Save | backend/src/models/User.js:11-18 | A write succeeds iff no other row holds the address and, when the row is new or its address changes, the address is e-mail shaped. An unchanged address is not validated again. The table then keeps its constraints. |
| UserController.CreateUserAsWritten | backend/src/controllers/userController.js:12-65 | Creation as written: the user row is written before the profile. For a student or teacher the profile write fails, because the profile tables need columns the handler never passes. |
| UserController.CreateUserAsWrittenStrandsAccount | backend/src/controllers/userController.js:23-46 | Creating a student or a teacher answers an error but leaves an active account with no profile. |
| UserController.CreateUser | backend/src/controllers/userController.js:12-65 | A taken address gives 400 and changes nothing. Otherwise the user is stored with the given e-mail and role, active, with a password that validates. A Student profile (`STD` + time) exists iff the role is student, and a Teacher profile (`TCH` + time) iff the role is teacher. No other row changes, and the store keeps its constraints. |
| UserController.WithProfile | backend/src/controllers/userController.js:34-46 | Adds exactly the profile the role calls for, with its number, and keeps every other profile. |
| UserController.Login | backend/src/controllers/userController.js:67-102 | Succeeds iff some row has the address, the password validates and the account is active. "Désactivé" is answered only after the credentials check. Success records `lastLogin` and returns that user with a token. A failure changes nothing. |
| UserController.LoginChecksCredentialsFirst | backend/src/controllers/userController.js:72-80 | A wrong password on any account, active or not, gets the generic 401. |
| UserController.ProfileOf | backend/src/controllers/userController.js:104-131 | The profile payload is the user without password. Its student part is present exactly when a student row exists, and is that stored row; likewise for the teacher part. |
| UserController.GetProfile | backend/src/controllers/userController.js:104-131 | The payload is present iff the authenticated user's row still exists. |
| UserController.GetProfileAfterUpdate | backend/src/controllers/userController.js:104-170 | After a successful `updateProfile`, `getProfile` shows the given columns with their new values and everything else as before. |
| UserController.ApplyProfile | backend/src/controllers/userController.js:147-154 | Each of e-mail, names, phone and address takes the given value, or keeps its own when absent. Id, password, role, active flag and last login are never touched. |
| UserController.UpdateProfileAsWritten | backend/src/controllers/userController.js:133-170 | As written: any request with a non-empty e-mail throws `ReferenceError` (`Op` is not imported). Other requests behave as intended. |
| UserController.UpdateProfileAsWrittenRejectsEveryEmail | backend/src/controllers/userController.js:138-141 | A free, valid address can never be set as written, while the intended handler sets it. |
| UserController.UpdateProfile | backend/src/controllers/userController.js:133-170 | An address held by another user gives 400. The update succeeds iff the resulting address is held by no other user and, when it changed, is e-mail shaped. Success changes only the caller's row, through the five profile columns, and keeps the constraints. |
| UserController.ChangePassword | backend/src/controllers/userController.js:172-193 | Succeeds iff the current password validates. A wrong one gives 401 and changes nothing. Success changes only the password of that row, and a new password validates afterwards. |
| UserController.OldPasswordStopsWorking | backend/src/controllers/userController.js:182-184 | After a successful change, and with an injective hash, the previous password is refused. |
| UserController.GetAllUsers | backend/src/controllers/userController.js:195-212 | The answer is exactly the password-less views of the rows the filter selects. |
| UserController.GetUser | backend/src/controllers/userController.js:214-245 | An unknown id gives 404. Otherwise the answer is the profile payload. |
| UserController.GetUserAfterCreate | backend/src/controllers/userController.js:12-65 | After a successful `createUser`, `getUser` finds the account with the given e-mail and role, active, and with the profile its role calls for. |
| UserController.ApplyUser | backend/src/controllers/userController.js:254 | `user.update(req.body)` keeps only the primary key. Every other column takes the given value, or keeps its own when absent; this includes the password, role, active flag and last login. |
| UserController.UpdateUser | backend/src/controllers/userController.js:247-269 | An unknown id gives 404 and changes nothing. For a known id, the update succeeds iff the resulting address is held by no other user and, when it changed, is e-mail shaped. Success changes only that row, which is the body applied to it (last login included), except the password. A changed password is re-hashed and validates. An absent one keeps the hash. |
| UserController.DeleteUser | backend/src/controllers/userController.js:271-287 | An unknown id gives 404. Otherwise the row and its profiles stay, and only `isActive` becomes false. |
| UserController.UnchangedAddressNotRevalidated | backend/src/controllers/userController.js:247-287 | On a row whose stored address is not e-mail shaped, an empty profile update succeeds. So does an administrator's `{ isActive: false }`, which stores the same row as `deleteUser`. |
| UserController.GetAllUsersAfterDelete | backend/src/controllers/userController.js:195-212 | After `deleteUser`, `getAllUsers` still lists the account when the filter selects it, now inactive, and no longer lists it as active. |
| UserController.DeletedUserCannotLogIn | backend/src/controllers/userController.js:278 | After a soft delete the row is still there, but logging in fails whatever the password. |
| DocumentController.WriteImpliesRead | backend/src/controllers/documentController.js:101-110 | Whoever may update or delete a document may read it, whatever its visibility. |
| DocumentController.CanRead | backend/src/controllers/documentController.js:101-110 | A public document is readable by all. A private one only by its uploader or an admin. A restricted one, for anyone else, only by the listed roles. |
| DocumentController.CanWrite | backend/src/controllers/documentController.js:164-166 | An admin may always write. Anyone else may iff they uploaded the document. Whoever may write may read. |
| DocumentController.ReadGuard | backend/src/controllers/documentController.js:101-110 | No refusal iff the document is public, or the requester is its uploader or an admin, or it is restricted to a role the requester has. A refusal is 403. |
| DocumentController.WriteGuard | backend/src/controllers/documentController.js:164-166 | No refusal iff the requester is the uploader or an admin. A refusal is 403. |
| DocumentController.Select | backend/src/controllers/documentController.js:62-78 | The kept rows are exactly the stored rows that match the query and that the requester may read. |
| DocumentController.Matches | backend/src/controllers/documentController.js:42-59 | An empty query matches every document. A given type or visibility must equal the document's, and given tags must share one with it. |
| DocumentController.ListFilter | backend/src/controllers/documentController.js:42-73 | The listing's `where` clause keeps a document iff it matches the query and the requester may read it by the rule `getDocument` applies. |
| DocumentController.InsertByDate | backend/src/controllers/documentController.js:77 | Inserting into a newest-first list keeps it newest first and adds exactly that document. |
| DocumentController.SortNewestFirst | backend/src/controllers/documentController.js:77 | The result is ordered newest first and is a permutation of the input. |
| DocumentController.ListDocuments | backend/src/controllers/documentController.js:40-90 | The listing holds exactly the matching documents the requester may read, each stored row at most once per occurrence, newest first. An admin sees every matching document. |
| DocumentController.ListDocumentsAsWritten | backend/src/controllers/documentController.js:55-73 | As written the listing throws `ReferenceError` iff the requester is not an admin or a tag filter is given. Otherwise it agrees with the intended listing. |
| DocumentController.ListAsWrittenFailsNonAdmins | backend/src/controllers/documentController.js:62-73 | A non-admin gets an error as written, even where the intended listing shows a public document. |
| DocumentController.ListAgreesWithGet | backend/src/controllers/documentController.js:40-121 | With no filter, a document is listed iff `getDocument` returns it to the same requester. |
| DocumentController.UploadDocument | backend/src/controllers/documentController.js:6-38 | Without a file the answer is 400 and nothing is stored. Otherwise exactly one document is added under the new id. It is owned by the requester and stores the given title, type and description. It carries the file's path, size and type, and the upload time. A given visibility, role list or tag list is stored; an absent one defaults to private, no roles or no tags. It has not been downloaded, and its uploader may read and write it. |
| DocumentController.UploadKeepsWellFormed | backend/src/controllers/documentController.js:12-23 | An upload of a body `documentSchema` accepts keeps the table well formed: every row is under its own id, and restricted rows have roles. |
| DocumentController.GetDocument | backend/src/controllers/documentController.js:92-121 | An unknown id gives 404 before any permission check. A known one is returned iff the read rule holds, otherwise 403. |
| DocumentController.DownloadDocument | backend/src/controllers/documentController.js:123-153 | It refuses exactly as `getDocument` does, and then changes nothing. A granted download returns the file path, raises only that document's count by one, and records the date. |
| DocumentController.ApplyFields | backend/src/controllers/documentController.js:168-175 | An update writes title and type. Description, visibility, roles and tags take the given value, or keep their column when absent. Id, uploader, file, size, type, counters and creation date are kept. |
| DocumentController.UpdateDocumentAsWritten | backend/src/controllers/documentController.js:155-186 | 404 for an unknown id, then 403 unless the requester may write. Otherwise the six content columns are written. |
| DocumentController.UpdateAsWrittenEmptiesRestriction | backend/src/controllers/documentController.js:168-175 | A body that `documentSchema` accepts can empty the roles of a restricted document, which is then restricted to nobody. |
| DocumentController.UpdateDocument | backend/src/controllers/documentController.js:155-186 | As written, except that an update leaving a restricted document without roles is refused with 400. A well-formed table stays well formed. |
| DocumentController.DeleteDocument | backend/src/controllers/documentController.js:188-214 | An unknown id gives 404. Deletion succeeds iff the requester may write, and removes exactly that row, reporting its file. A well-formed table stays well formed. |
| DocumentValidation.ParseDocType | backend/src/validations/documentValidation.js:3-12 | A type parses iff it is one of the eight listed, and to the type of that name. |
| DocumentValidation.DocTypeRoundTrip | backend/src/validations/documentValidation.js:3-12 | Every type is listed, and naming then parsing it gives it back. |
| DocumentValidation.ParseVisibility | backend/src/validations/documentValidation.js:14 | A visibility parses iff it is public, private or restricted. |
| DocumentValidation.VisibilityRoundTrip | backend/src/validations/documentValidation.js:14 | Every visibility is listed and round-trips. |
| DocumentValidation.DocumentField | backend/src/validations/documentValidation.js:16-54 | A key's Joi details are empty iff the key meets its rule: a non-empty title, a listed type, an optional string description, a listed visibility, listed roles (at least one and required when the body says restricted), and non-empty string tags. |
| DocumentValidation.DocumentDetails | backend/src/validations/documentValidation.js:16-57 | The details are empty iff the whole body is valid, and they report each key exactly when its rule fails. |
| DocumentValidation.DocumentMessageTable | backend/src/validations/documentValidation.js:16-54 | A detail gets the text of the first `documentSchema` entry for its key and code. With no entry for its key, it keeps Joi's own text. |
| DocumentValidation.ParseDocumentBody | backend/src/validations/documentValidation.js:16-54 | A body reads as typed fields iff the schema accepts it. The fields carry the body's title, type and visibility. The description is the body's string, absent otherwise. The role and tag lists are present iff the body gives an array, and then hold its items one for one. A restricted body yields a non-empty role list, and tags are non-empty strings. |
| UserValidation.Scan | backend/src/validations/userValidation.js:12 | One pass over a password finds a lower-case letter, an upper-case letter, a digit and a special character, each iff there is one, and knows whether every character is in the allowed class. |
| UserValidation.MatchesPasswordPattern | backend/src/validations/userValidation.js:11-12 | The password pattern matches iff the password has at least eight characters, one of each class, and nothing outside the class. |
| UserValidation.PasswordRules | backend/src/validations/userValidation.js:11-17 | The rules fail for no password meeting the policy. A password under eight characters fails both `string.min` and `string.pattern.base`. |
| UserValidation.MatchesPhonePattern | backend/src/validations/userValidation.js:31 | The phone pattern matches iff the number is 10 to 15 ASCII digits, optionally after one `+`. |
| UserValidation.CreateUserField | backend/src/validations/userValidation.js:5-36 | A key's details are empty iff it meets `createUserSchema`: required e-mail-shaped address, required strong password, required names, one of the four roles, a phone number of the pattern or null, and an address that is a string or null. |
| UserValidation.CreateUserDetails | backend/src/validations/userValidation.js:5-36 | No details iff the body is valid, and each key is reported iff its rule fails. |
| UserValidation.UpdateUserField | backend/src/validations/userValidation.js:38-56 | The same rules with every key optional, and no `role` key. |
| UserValidation.UpdateUserDetails | backend/src/validations/userValidation.js:38-56 | No details iff the body is valid, and each key is reported iff its rule fails. |
| UserValidation.LoginDetails | backend/src/validations/userValidation.js:58-68 | No details iff an e-mail-shaped address and some password are present. |
| UserValidation.ChangePasswordDetails | backend/src/validations/userValidation.js:70-82 | No details iff a current password is present and the new one meets the policy. |
| UserValidation.SamePolicyEverywhere | backend/src/validations/userValidation.js:11-12 | Creation, update and password change apply the same password policy. |
| UserValidation.LoginHasNoPolicy | backend/src/validations/userValidation.js:58-68 | Login accepts a password the policy refuses. |
| UserValidation.UserMessageTable | backend/src/validations/userValidation.js:5-68 | A detail gets the text of the first user-schema entry for its key and code, which the update and login schemas share. With no entry for its key, it keeps Joi's own text. |
| UserValidation.MissingRoleMessage | backend/src/validations/userValidation.js:26-30 | A missing role is reported as `Le rôle est requis`. |
| UserValidation.ChangePasswordMessageTable | backend/src/validations/userValidation.js:70-82 | A detail gets the text of the first `changePasswordSchema` entry for its key and code. With no entry for its key, it keeps Joi's own text. |
| Joi.CheckString | backend/src/validations/userValidation.js:5-36 | Joi's string checks report nothing iff the value is accepted. An absent required key gives exactly `any.required`. |
| Joi.CheckArray | backend/src/validations/documentValidation.js:39-54 | Joi's array checks report nothing iff the value is accepted: absence, the array type, the minimum length, and each item. |
| Joi.Collect | backend/src/middleware/validator.js:6 | With `abortEarly: false`, the details of all keys are gathered. They are empty iff every key passes, and each detail comes from some key. |
| Joi.CollectReportsEachFailingKey | backend/src/middleware/validator.js:6 | Every failing key of the schema is reported, not only the first. |
| Validator.Details | backend/src/middleware/validator.js:5 | A schema's details are empty iff the schema accepts the body. |
| Validator.Messages | backend/src/middleware/validator.js:12-14 | The messages are the details' messages, one for one, in order. |
| Validator.MessageBySchema | backend/src/middleware/validator.js:12-14 | `detail.message` is the document schema's text for the document schema and the password-change text for that schema. The create, update and login schemas share the user texts. |
| Joi.CustomMessage | backend/src/validations/userValidation.js:5-36 | `.messages({...})`: the first entry for the detail's key and code gives the text, and a detail with no entry keeps Joi's own text. |
| Validator.Check | backend/src/middleware/validator.js:3-21 | It calls `next()` iff the schema accepts the body. Otherwise it passes exactly one `AppError` with status 400 whose text contains every detail's message. |
| Validator.SourcesAgree | backend/src/middleware/validator.js:3-61 | `validateQuery` and `validateParams` give the verdict `validate` gives on a body equal to the query or the parameters, and `validate` reads only the body. |
| Validator.ErrorMessageIsJoin | backend/src/middleware/validator.js:11-17 | The error text is the messages joined by `", "`. A single detail yields its message alone. |
| Validator.EveryFailingDocumentKeyReported | backend/src/middleware/validator.js:5-17 | For a document body, every failing key has a detail whose message is in the error. |
| Validator.EveryFailingCreateUserKeyReported | backend/src/middleware/validator.js:5-17 | For a user-creation body, every failing key has a detail whose message is in the error. |
| Upload.FileFilter | backend/src/middleware/upload.js:26-43 | A file is accepted iff its type is one of the eight listed. A refusal is a 400 `AppError`. |
| Upload.SizeLimit | backend/src/middleware/upload.js:50 | The limit is `parseInt(MAX_FILE_SIZE)` megabytes in bytes, and none when `parseInt` gives NaN. |
| Upload.SizeLimitOfMegabytes | backend/src/middleware/upload.js:50 | A number followed by a unit reads as that many megabytes. |
| Upload.DefaultLimit | backend/src/middleware/upload.js:50 | The default `5mb` allows 5 242 880 bytes. |
| Upload.Single | backend/src/middleware/upload.js:14-52 | No file part means no file. A stored file came through the named field with an accepted type within the limit, and keeps the part's size and type. |
| Upload.SingleOutcome | backend/src/middleware/upload.js:14-52 | Checks run in order: another field gives `LIMIT_UNEXPECTED_FILE`, then a refused type gives the filter's 400, then an oversized part gives `LIMIT_FILE_SIZE`. A part passing all three is stored at `dir/` plus its `filename`. |
| Upload.HandleMulterErrorAsWritten | backend/src/middleware/upload.js:55-63 | As written: filter errors pass unchanged, and multer errors become 400s with their own message, except the size error. |
| Upload.SizeMessageAsWrittenRepeatsUnit | backend/src/middleware/upload.js:57-59 | With the default setting the message reads `(5mbMB)`, which differs from the corrected message. |
| Upload.SizeMessageEnds | backend/src/middleware/upload.js:57-59 | The size message ends with the setting followed by `MB)`. |
| Upload.SizeMessageInjective | backend/src/middleware/upload.js:57-59 | Different settings give different size messages. |
| Upload.HandleMulterError | backend/src/middleware/upload.js:55-63 | Errors that are not multer's pass unchanged. Every multer error becomes a 400, keeping its own message except the size error, whose message `Upload.SizeMessageNamesMegabytes` states. |
| Upload.SizeMessageNamesMegabytes | backend/src/middleware/upload.js:57-59 | For any setting of a number followed by a unit, the message names that number followed by `MB`. |
| Upload.SizeMessageOfDefault | backend/src/middleware/upload.js:57-59 | With the default setting the message reads `(5MB)`. |
| Upload.ExtName | backend/src/middleware/upload.js:21 | The extension is empty, or a dot followed by no dot and no slash. |
| Upload.ExtNameOfPlainName | backend/src/middleware/upload.js:21 | `name.ext` yields `.ext`. |
| Upload.ExtNameWithoutDot | backend/src/middleware/upload.js:21 | A name without a dot has no extension. |
| Upload.Filename | backend/src/middleware/upload.js:18-22 | The stored name starts with the field name and a dash, and ends with the original name's extension. |
| Upload.FilenameDeterminesSuffix | backend/src/middleware/upload.js:18-22 | For the same field and original name, equal stored names mean equal time and random suffix. |
| Routes.FirstIndex | backend/src/routes/userRoutes.js:13-34 | Express takes the first route line that answers the method and path. |
| Routes.Resolve | backend/src/routes/userRoutes.js:13-34 | When no route answers, the request meets exactly the router's `use` middlewares, in order. |
| Routes.ResolveAtFirstIndex | backend/src/routes/userRoutes.js:13-34 | A request meets the `use` middlewares above the first answering route, then that route's own middlewares and handler. With no answering route it meets every `use` middleware and no handler. |
| Routes.ResolveStagesFrom | backend/src/routes/documentRoutes.js:9-31 | Every middleware a request meets is a `use` line or belongs to a matching route. |
| Routes.Step | backend/src/routes/documentRoutes.js:18-23 | `auth` continues iff it passes and sets `req.user`. A role guard continues iff the role is listed. The validator continues iff the schema accepts. Only `upload.single` sets `req.file`. `handleMulterError` never stops a request without an error. |
| Routes.Run | backend/src/routes/documentRoutes.js:18-23 | Middlewares run in order before the handler. A request ends in a handler only when the router resolved one, and that handler. It falls through to the catch-all only when the router resolved none. |
| Routes.Mount | backend/src/server.js:38-39 | A path is mounted iff it starts with `api` then `users` or `documents`. The matching router gets the rest of the path. |
| Routes.Dispatch | backend/src/server.js:38-48 | A path outside both routers gets the catch-all 404. A handler is reached only under a mounted router. |
| Routes.DispatchReachesResolved | backend/src/server.js:38-48 | A handler that is reached is the one the mounted router resolved for the rest of the path. |
| Routes.GuardedRun | backend/src/routes/userRoutes.js:17-25 | Behind `auth` and a role guard, a handler is reached only by an active user of a listed role, who is `req.user`. |
| Routes.AuthenticatedRun | backend/src/routes/userRoutes.js:17 | Behind `auth`, a handler is reached only by an active user, who is `req.user`. |
| Routes.UserRouterUses | backend/src/routes/userRoutes.js:17-25 | The user router's `use` middlewares are `auth`, then the administrators' guard. |
| Routes.DocumentRouterLayers | backend/src/routes/documentRoutes.js:10 | The document router's only `use` middleware is `auth`, on its first line. |
| Routes.LoginIsPublic | backend/src/routes/userRoutes.js:14 | `POST /login` runs only `loginSchema`. A valid body reaches `login` with no token. |
| Routes.ProfileBeforeId | backend/src/routes/userRoutes.js:20-32 | `GET /profile` reaches `getProfile` behind `auth` alone. Any other single segment reaches `getUser` behind `auth` and the administrators' guard. |
| Routes.CreateUserPipeline | backend/src/routes/userRoutes.js:25-29 | `POST /` runs `auth`, the administrators' guard and `createUserSchema`, then `createUser`. |
| Routes.AdminRoutesGuarded | backend/src/routes/userRoutes.js:25-34 | Every route after the role guard runs `auth`, then the administrators' guard, and `auth` only once. |
| Routes.SelfRoutesAnyRole | backend/src/routes/userRoutes.js:17-22 | The profile and password routes run `auth` and no role guard. |
| Routes.AdminHandlersNeedAdmin | backend/src/routes/userRoutes.js:25-34 | End to end, an administrators' handler is reached only with the token of an active administrator, who is `req.user`. |
| Routes.SelfHandlersNeedToken | backend/src/routes/userRoutes.js:17-22 | End to end, the profile and password handlers are reached only by an active user of any role, who is `req.user`. |
| Routes.DocumentRoutesGuarded | backend/src/routes/documentRoutes.js:9-31 | Every document request meets `auth` first and once, and no role guard. |
| Routes.DocumentHandlersNeedToken | backend/src/routes/documentRoutes.js:9-31 | End to end, a document handler is reached only by an active user, who is `req.user`. |
| Routes.DocumentWritePipelines | backend/src/routes/documentRoutes.js:18-28 | `POST /` runs `auth`, `upload.single('file')`, `handleMulterError`, then `documentSchema`, in that order. `PATCH /:id` runs `auth` and the whole `documentSchema`. |
| Routes.UploadPipelineRuns | backend/src/routes/documentRoutes.js:18-23 | An active user with an accepted file and a valid body reaches `uploadDocument` with that user and that file. |
| Routes.ReadsAndDeletesUnvalidated | backend/src/routes/documentRoutes.js:13-15 | On both routers, reads and deletions meet no body validation. |
| Routes.UnknownDocumentPath | backend/src/server.js:38-48 | A document path no route answers gives 401 without a token, and the catch-all 404 with one. |
| Schedule.ParseDay | backend/src/models/Schedule.js:34-37 | A day parses iff it is lundi to samedi. |
| Schedule.DayRoundTrip | backend/src/models/Schedule.js:34-37 | Every day round-trips, and `dimanche` is not a day. |
| Schedule.MissingColumns | backend/src/models/Schedule.js:10-61 | No column is reported missing iff course, class, teacher, day, both times and both dates are given. |
| Schedule.Errors | backend/src/models/Schedule.js:10-89 | There is a not-null item for exactly the missing columns. The `timeOrder` item with its message is present iff both times are given and start >= end. The `dateOrder` item is present iff both dates are given and start > end. |
| Schedule.Create | backend/src/models/Schedule.js:4-90 | A schedule is created iff it is acceptable. The row then holds the given course, class, teacher, day, times, dates, room and notes, with recurrence and status defaulting to weekly and scheduled. Its start time is before its end time and its start date on or before its end date. Otherwise it throws a validation error. |
| Schedule.EqualTimesRejectedEqualDatesAccepted | backend/src/models/Schedule.js:79-88 | Equal times are refused, while equal dates are accepted. |
| SliceOps.RemoveAll | frontend/src/store/slices/userSlice.ts:141-144 | The filter keeps exactly the elements with another id. |
| SliceOps.RemoveAllAppend | frontend/src/store/slices/userSlice.ts:141-144 | Filtering a concatenation filters each part, so the kept elements keep their order. |
| SliceOps.RemoveAllIdempotent | frontend/src/store/slices/userSlice.ts:141-144 | Filtering twice by an id is filtering once. |
| SliceOps.FindIndex | frontend/src/store/slices/userSlice.ts:126 | `findIndex` gives the first element with the id, or none. |
| SliceOps.ReplaceFirst | frontend/src/store/slices/userSlice.ts:124-130 | Without a matching id the list is unchanged. Otherwise exactly the first match is replaced. |
| SliceOps.ReplaceFirstOnly | frontend/src/store/slices/userSlice.ts:126-128 | A later element with the same id is left as it was. |
| SliceOps.ReplaceFirstKeepsIds | frontend/src/store/slices/userSlice.ts:124-130 | Replacing by id keeps the id at every position of the list. |
| UserSlice.Reduce | frontend/src/store/slices/userSlice.ts:24-148 | `pending` sets loading and clears the error. `rejected` stores the payload as the error. Both keep the users. Fetch replaces, create appends, update replaces the first match, and delete keeps exactly the others. Each setter changes only its own field. |
| UserSlice.SuccessLeavesNoError | frontend/src/store/slices/userSlice.ts:92-144 | A request that succeeds ends not loading and with no error. |
| UserSlice.CreateThenDelete | frontend/src/store/slices/userSlice.ts:110-144 | Creating a user with a new id, then deleting it, gives the list back. |
| UserSlice.DeleteKeepsOrder | frontend/src/store/slices/userSlice.ts:141-144 | A deletion keeps the order of the others. |
| UserSlice.UpdateKeepsIds | frontend/src/store/slices/userSlice.ts:124-130 | An update keeps the list's length and the id at each position. |
| DocumentSlice.MergeUpload | frontend/src/store/slices/documentSlice.ts:52-55 | The stored object has the keys of both. The metadata's value wins, and the server's value is kept elsewhere. |
| DocumentSlice.MergeUploadLaws | frontend/src/store/slices/documentSlice.ts:52-55 | Empty metadata keeps the server's object, and merging the same metadata again changes nothing. |
| DocumentSlice.MergeUploadId | frontend/src/store/slices/documentSlice.ts:52-55 | Metadata with an `id` decides the stored document's id. |
| DocumentSlice.Reduce | frontend/src/store/slices/documentSlice.ts:23-128 | `pending` and `rejected` behave as on the user slice. Fetch replaces. Upload appends, keeping the prefix. Delete keeps exactly the documents with another id. Each setter changes only its own field. |
| DocumentSlice.NoInPlaceEdit | frontend/src/store/slices/documentSlice.ts:79-128 | Every document held after an action was held before or came with the action. |
| DocumentSlice.UploadThenDelete | frontend/src/store/slices/documentSlice.ts:107-124 | Uploading a document with a new id, then deleting it, gives the list back. |
| DocumentSlice.DeleteKeepsOrder | frontend/src/store/slices/documentSlice.ts:121-124 | A deletion keeps the order of the others. |
| DocumentSlice.SuccessLeavesNoError | frontend/src/store/slices/documentSlice.ts:89-124 | A request that succeeds ends not loading and with no error. |
| DocumentSlice.UploadUrlAsWrittenMissesRoute | frontend/src/store/slices/documentSlice.ts:46 | `POST /api/documents/upload` never reaches a handler: 401 without a token, the catch-all 404 with one. |
| DocumentSlice.UploadUrlReachesHandler | frontend/src/store/slices/documentSlice.ts:42-57 | Posted to `/api/documents`, an upload by an active user with an accepted file and a valid body reaches `uploadDocument` with that user and file. |
| ApiClient.ServerPath | frontend/src/utils/axios.ts:5-10 | Every client path is served under `/api`. |
| ApiClient.ServerPathOfResource | frontend/src/utils/axios.ts:5-10 | A resource path lands under `/api/<resource>`. |
| Register.FieldError | frontend/src/pages/auth/Register.tsx:20-44 | A field shows no message iff it meets its rule. A non-empty short password shows the length message, and a non-empty mismatched confirmation shows the mismatch message. |
| Register.FormErrors | frontend/src/pages/auth/Register.tsx:20-44 | A field has an error iff it fails its rule, and the form has no errors iff it is valid. |
| Register.Payload | frontend/src/pages/auth/Register.tsx:61-64 | The posted body has exactly the five form fields: no `confirmPassword` and no `role`. |
| Register.PayloadLacksRole | frontend/src/pages/auth/Register.tsx:61-64 | `createUserSchema` reports the missing `role` for every form, so no payload of the form is accepted. |
| Register.EmptyPhoneRejectedByServer | frontend/src/pages/auth/Register.tsx:39-43 | An empty phone number passes the form, but the server's schema rejects it. |
| Register.FormPasswordWeakerThanServer | frontend/src/pages/auth/Register.tsx:31-34 | The form accepts `abcdef`, which the server's policy refuses. |
| Register.FormPhoneWeakerThanServer | frontend/src/pages/auth/Register.tsx:39-43 | The form accepts 16 digits, which the server's pattern refuses. |
| Register.ServerStricterThanForm | frontend/src/pages/auth/Register.tsx:31-43 | A password and a `+`-less phone number the server accepts also pass the form. |
| Register.SubmitNeedsAdmin | frontend/src/pages/auth/Register.tsx:61-64 | The submit goes to `POST /api/users`. Without a token it gets 401, and it reaches `createUser` only with an active administrator's token. |
| Register.SubmitRuns | backend/src/routes/userRoutes.js:25-29 | The submit's `POST /api/users` runs `auth`, the administrators' guard and `createUserSchema` in front of `createUser`. |
| Text.IndexOf | backend/src/middleware/auth.js:15 | The first occurrence, or none iff the pattern does not occur. |
| Text.ReplaceFirst | backend/src/middleware/auth.js:15 | String `replace` with a string pattern changes nothing when the pattern is absent. Otherwise the length changes by one occurrence's worth; `Text.ReplaceAt` states that it is the first occurrence that is replaced. |
| Text.ReplaceAt | backend/src/middleware/auth.js:15 | The replaced occurrence is the first one: the result is the text before it, the replacement, and the text after it. |
| Text.JoinContainsEach | backend/src/middleware/validator.js:12-14 | Every joined part appears in the joined text. |
| Text.JoinConcat | backend/src/middleware/validator.js:12-14 | Joining a concatenation joins the halves around one separator. |
| Text.NatToStringRoundTrip | backend/src/controllers/userController.js:37 | The printed number reads back as the number. |
| Text.ParseInt | backend/src/middleware/upload.js:50 | `parseInt` gives NaN iff no digit follows the white space and sign. A number without a minus sign is non-negative. |
| Text.ParseIntOfPrinted | backend/src/middleware/upload.js:50 | A printed number followed by a non-digit unit reads back as that number. |

The registration form cannot create an account. Its payload has no `role`, which `createUserSchema` requires (`Register.PayloadLacksRole`). The route it posts to is behind the administrators' guard (`Register.SubmitNeedsAdmin`). An empty phone number, which the form allows, is refused by the server (`Register.EmptyPhoneRejectedByServer`). These facts are modelled as they stand; there is no corrected form, because the intended registration flow is not evident from the code.

## Findings

| source | as written | input that shows it | evidently intended | confidence | as-written member | corrected member |
|---|---|---|---|---|---|---|
| backend/src/controllers/documentController.js:55-73 | `Op` is used but never imported, so the `Op.or` and `Op.overlap` clauses throw `ReferenceError` | a teacher listing documents with no filter | non-admins see the documents they may read; tags filter by overlap | not executed | DocumentController.ListDocumentsAsWritten (DocumentController.ListAsWrittenFailsNonAdmins) | DocumentController.ListDocuments (DocumentController.ListAgreesWithGet) |
| backend/src/controllers/userController.js:138-141 | `Op.ne` without the import, so setting one's own e-mail throws `ReferenceError` | `PATCH /api/users/profile` with `{ "email": "new@x.fr" }` | the address is changed when no other user holds it | not executed | UserController.UpdateProfileAsWritten (UserController.UpdateProfileAsWrittenRejectsEveryEmail) | UserController.UpdateProfile |
| backend/src/controllers/userController.js:23-46 | the user row is written, then `Student.create`/`Teacher.create` omit the profile tables' required columns and fail | `POST /api/users` with role `student` | the account and its profile are created together, or neither is | not executed | UserController.CreateUserAsWritten (UserController.CreateUserAsWrittenStrandsAccount) | UserController.CreateUser |
| backend/src/controllers/documentController.js:168-175 | the roles rule of `documentSchema` looks only at the body's visibility | `PATCH` of a restricted document with `accessRoles: []` and no `visibility` | a restricted document always lists at least one role | not executed | DocumentController.UpdateDocumentAsWritten (DocumentController.UpdateAsWrittenEmptiesRestriction) | DocumentController.UpdateDocument |
| backend/src/middleware/upload.js:57-59 | the message interpolates the raw setting before `MB` | the default `5mb` and a file over the limit: `(5mbMB)` | `(5MB)` | not executed | Upload.HandleMulterErrorAsWritten (Upload.SizeMessageAsWrittenRepeatsUnit) | Upload.HandleMulterError (Upload.SizeMessageOfDefault) |
| frontend/src/store/slices/documentSlice.ts:46 | the upload posts to `/documents/upload`, which the document router does not declare | any upload from the client | post to `/documents`, where `uploadDocument` is served | not executed | DocumentSlice.UploadUrlAsWrittenMissesRoute | DocumentSlice.UploadUrlReachesHandler |

## Left out

- I/O and other effects are parameters or absent. This covers the database engine, the disk (multer's storage, `deleteFile`, `res.download`), `Date.now()`, `new Date()` and `Math.random()`. bcrypt and jsonwebtoken are the functions `hash`, `sign` and `verify`. Joi's and yup's e-mail syntax is the predicate `isEmail`.
- Express's path matching is reduced to exact segments. Case-insensitive matching, trailing slashes, URL decoding and query strings are not modelled.
- The body parser and the application error handler are left out. Failures are given as the `Failure` a middleware hands to `next`. backend/src/middleware/error.js and backend/src/models/Document.js are not part of this model.
- Joi's built-in English messages are not reproduced. A detail without a custom French message keeps its rule code (`Joi.DefaultMessage`).
- JSON values other than strings, null and arrays of strings collapse into one `Other` value, and lengths count characters rather than UTF-16 units.
- Routes.Dispatch: the `lastLogin` write that `auth` performs is not threaded into the handlers' store. `Auth.Authenticate` states it, and the controllers take the store as given.
- Text.ParseInt: only decimal digits are read. `parseInt`'s `0x` prefix is not modelled.
- Text.Join: states only the empty and one-part cases about its own result. The properties the validator needs are in the lemmas `Text.JoinConcat` and `Text.JoinContainsEach`.
- Upload.Single handles one file part; multipart requests with several parts are left out. A negative size setting is not given multer's meaning.
- UserController.GetAllUsers: the `where: req.query` filter is a predicate on rows, so Sequelize's handling of unknown columns is not modelled.
- UserController.CreateUser: the student and employee numbers come from the clock and are not unique when two creations share a millisecond. Email uniqueness under concurrent requests is the database's concern.
- DocumentController.ListDocuments: documents created at the same instant are kept in their stored order, where the database may order ties differently.
- Enum columns that receive a value outside the enum raise database errors, which are not modelled beyond the schemas that exclude them.
- Schedule: a `null` time or date is read as absent. The source's validators run before any query, and with both times null `null >= null` holds, so `timeOrder` also raises its item then. That extra item is not modelled. The other models (Class, Course, Student, Teacher, Message) only declare columns.
- Schedule: times and dates are numbers, compared numerically. `timeOrder` and `dateOrder` compare the values they are given, which are strings, in lexicographic order. The two agree only for zero-padded, fixed-width values: `"8:00" >= "10:00"` holds, so the source refuses a slot that the model accepts.
- The seed script is left out. It hashes passwords before `User.create`, whose `beforeCreate` hook hashes them again, so seeded users cannot log in with their listed passwords.
- The registration form relies on Formik turning `''` into `undefined` and on yup running its tests in declaration order. Both are taken as given.
- The UI, the store setup and the axios interceptors are left out.

=== FILE: api_client.dfy ===
/** The client's view of the server's address (frontend/src/utils/axios.ts):
    every request the thunks send goes to the `baseURL`, which ends in
    `/api`, followed by the thunk's own path. Host and port are left out;
    paths are lists of segments. */
module ApiClient {

  /** The server path of a request the thunks send to `url`. */
  function ServerPath(url: seq<string>): (p: seq<string>)
    ensures |p| == |url| + 1 && p[0] == "api" && p[1..] == url
  {
    ["api"] + url
  }

  /** The two resources the client talks to sit under the two routers
      `server.js` mounts. */
  lemma ServerPathOfResource(resource: string, rest: seq<string>)
    ensures ServerPath([resource] + rest) == ["api", resource] + rest
  {
  }
}

=== FILE: auth.dfy ===
/** The two guards of backend/src/middleware/auth.js. `auth` reads the
    `Authorization` header, verifies the token (jsonwebtoken's `verify`,
    given as a parameter that yields the `id` of the payload or fails) and
    loads the active user; `checkRole` compares that user's role with a list. */
module Auth {
  import opened Common
  import Text
  import opened UserModel

  /** What `auth` does: hand over to the next handler with `req.user`,
      `req.token` and the table after the `lastLogin` write, or answer 401
      itself without calling `next`. */
  datatype AuthOutcome = Pass(user: UserView, token: string, users: Users) | Deny(status: nat, message: string)

  const MissingHeader := "Authentification requise"
  const BadToken := "Veuillez vous authentifier"

  /** `authHeader.replace('Bearer ', '')`: the first occurrence of the
      prefix is removed wherever it stands. */
  function Token(header: string): string {
    Text.ReplaceFirst(header, "Bearer ", "")
  }

  /** The usual header yields the bare token. */
  lemma TokenOfBearer(t: string)
    ensures Token("Bearer " + t) == t
  {
    Text.ReplaceLeading("Bearer ", t);
  }

  /** The removal is not anchored: a prefix that follows other text is cut
      out just the same, and that text is kept. */
  lemma TokenNotAnchored(lead: string, t: string)
    requires forall j :: 0 <= j < |lead| ==> lead[j] != 'B'
    ensures Token(lead + "Bearer " + t) == lead + t
  {
    Text.ReplaceAfterLead(lead, "Bearer ", "", t);
    assert lead + "" + t == lead + t;
  }

  /** `auth`. A missing or empty header is answered before anything else;
      every later failure (a token that does not verify, an unknown or
      inactive user) lands in the same `catch` and the same answer. On
      success `req.user` is the row as loaded, without its password, and the
      table records `now` as that user's `lastLogin`. */
  function Authenticate(users: Users, header: Option<string>, verify: string -> Option<Id>, now: nat): (r: AuthOutcome)
    ensures header.None? || header.value == "" ==> r == Deny(401, MissingHeader)
    ensures r.Deny? ==> r.status == 401 && (r.message == MissingHeader || r.message == BadToken)
    ensures r.Pass? <==>
      && header.Some? && header.value != ""
      && verify(Token(header.value)).Some?
      && verify(Token(header.value)).value in users
      && users[verify(Token(header.value)).value].isActive
    ensures r.Pass? ==>
      && r.token == Token(header.value)
      && var id := verify(r.token).value;
      && r.user == View(users[id])
      && r.users.Keys == users.Keys
      && r.users[id] == users[id].(lastLogin := Some(now))
      && forall k :: k in users && k != id ==> r.users[k] == users[k]
  {
    if header.None? || header.value == "" then Deny(401, MissingHeader)
    else
      var token := Token(header.value);
      match verify(token)
      case None => Deny(401, BadToken)
      case Some(id) =>
        if id !in users || !users[id].isActive then Deny(401, BadToken)
        else
          var u := users[id];
          Pass(View(u), token, users[id := u.(lastLogin := Some(now))])
  }

  /** A deactivated account never gets past `auth`, whatever token it holds. */
  lemma InactiveNeverPasses(users: Users, header: Option<string>, verify: string -> Option<Id>, now: nat, id: Id)
    requires id in users && !users[id].isActive
    requires header.Some? && header.value != "" && verify(Token(header.value)) == Some(id)
    ensures Authenticate(users, header, verify, now) == Deny(401, BadToken)
  {
  }

  /** A token signed for an active user, sent in the usual form, passes and
      identifies that user. */
  lemma SignedTokenPasses(users: Users, sign: Id -> string, verify: string -> Option<Id>, now: nat, id: Id)
    requires id in users && users[id].isActive
    requires verify(sign(id)) == Some(id)
    ensures Authenticate(users, Some("Bearer " + sign(id)), verify, now).Pass?
    ensures Authenticate(users, Some("Bearer " + sign(id)), verify, now).user == View(users[id])
  {
    TokenOfBearer(sign(id));
  }

  /** What a role guard does: continue, or answer by itself. */
  datatype Gate = Continue | Respond(status: nat, message: string)

  const Forbidden := "Accès non autorisé"

  /** `checkRole(roles)`. */
  function CheckRole(roles: seq<Role>, user: UserView): (r: Gate)
    ensures r == Continue <==> user.role in roles
    ensures r != Continue ==> r == Respond(403, Forbidden)
  {
    if user.role in roles then Continue else Respond(403, Forbidden)
  }

  /** `checkRole(['admin'])` admits administrators and nobody else. */
  lemma AdminGuard(user: UserView)
    ensures CheckRole([Admin], user) == Continue <==> user.role == Admin
  {
  }
}

=== FILE: common.dfy ===
/** Vocabulary shared by the back end and the front end: optional values,
    roles, the errors a handler hands to `next(err)`, and partial updates. */
module Common {

  /** A JavaScript value that may be absent (`undefined` or `null`). */
  datatype Option<+T> = None | Some(value: T) {
    /** `x || d` style defaulting. */
    function GetOr(default: T): T {
      match this
      case Some(v) => v
      case None => default
    }
  }

  /** Primary keys are UUID strings. */
  type Id = string

  /** The four user roles of the `User.role` enum. */
  datatype Role = Admin | Teacher | Student | Parent

  /** The spelling of each role in requests and in the database. */
  function RoleName(r: Role): string {
    match r
    case Admin => "admin"
    case Teacher => "teacher"
    case Student => "student"
    case Parent => "parent"
  }

  /** The role names in the order the schemas list them. */
  const RoleNames: seq<string> := ["admin", "teacher", "student", "parent"]

  /** Reads a role name back; anything outside the enum is rejected. */
  function ParseRole(s: string): (r: Option<Role>)
    ensures r.Some? <==> s in RoleNames
    ensures r.Some? ==> RoleName(r.value) == s
  {
    if s == "admin" then Some(Admin)
    else if s == "teacher" then Some(Teacher)
    else if s == "student" then Some(Student)
    else if s == "parent" then Some(Parent)
    else None
  }

  /** Every role is listed, and naming then parsing a role gives it back. */
  lemma RoleNameRoundTrip(r: Role)
    ensures RoleName(r) in RoleNames
    ensures ParseRole(RoleName(r)) == Some(r)
  {
  }

  /** What a handler passes to `next(err)`: an `AppError` carrying an HTTP
      status, or any other exception, known only by its name. */
  datatype Failure = AppError(status: nat, message: string) | Thrown(name: string)

  /** The outcome of a controller: its response payload, or the failure. */
  datatype Result<+T> = Ok(value: T) | Err(failure: Failure)

  /** A field of an update request: `Keep` when the key is absent
      (Sequelize drops `undefined` values before saving), `Set` otherwise. */
  datatype Patch<+T> = Keep | Set(value: T) {
    function ApplyTo(current: T): T {
      match this
      case Keep => current
      case Set(v) => v
    }
  }

  /** A column after an update: the given value when the key is present,
      the old one when it is absent. */
  predicate Writes<T(==)>(p: Patch<T>, before: T, after: T) {
    (p.Keep? && after == before) || (p.Set? && after == p.value)
  }
}

=== FILE: document_controller.dfy ===
/** The handlers of backend/src/controllers/documentController.js: the
    read and write permissions, the listing filter and its order, and
    upload, download, update and deletion as transitions of the `Documents`
    table. The file system is left out: a handler reports the path it would
    serve or delete. */
module DocumentController {
  import opened Common
  import opened DocumentValidation
  import Upload

  /** The authenticated requester: `req.user.id` and `req.user.role`. */
  datatype Requester = Requester(id: Id, role: Role)

  /** A row of the `Documents` table. `createdAt` and `lastDownloadDate`
      are timestamps. */
  datatype Document = Document(
    id: Id,
    title: string,
    docType: DocType,
    description: Option<string>,
    filePath: string,
    fileSize: nat,
    mimeType: string,
    uploaderId: Id,
    visibility: Visibility,
    accessRoles: seq<Role>,
    tags: seq<string>,
    downloadCount: nat,
    lastDownloadDate: Option<nat>,
    createdAt: nat)

  type Documents = map<Id, Document>

  /** A handler's effect: the table afterwards and the answer. */
  datatype DStep<+T> = DStep(docs: Documents, result: Result<T>)

  const NoFile := "Aucun fichier n'a été téléchargé"
  const DocumentNotFound := "Document non trouvé"
  const Forbidden := "Accès non autorisé"
  const DocumentDeleted := "Document supprimé avec succès"
  const RolesRequired := "Au moins un rôle doit être spécifié pour la visibilité restreinte"

  /** Who may read a document: everybody when it is public, its uploader,
      administrators, and the listed roles when it is restricted. */
  predicate CanRead(d: Document, who: Requester)
    ensures d.visibility == Public ==> CanRead(d, who)
    ensures d.visibility == Private ==> (CanRead(d, who) <==> d.uploaderId == who.id || who.role == Admin)
    ensures d.visibility == Restricted && who.role != Admin && d.uploaderId != who.id ==>
              (CanRead(d, who) <==> who.role in d.accessRoles)
  {
    || d.visibility == Public
    || d.uploaderId == who.id
    || who.role == Admin
    || (d.visibility == Restricted && who.role in d.accessRoles)
  }

  /** Who may change or delete a document: its uploader and administrators. */
  predicate CanWrite(d: Document, who: Requester)
    ensures CanWrite(d, who) ==> CanRead(d, who)
    ensures who.role == Admin ==> CanWrite(d, who)
    ensures who.role != Admin ==> (CanWrite(d, who) <==> d.uploaderId == who.id)
  {
    d.uploaderId == who.id || who.role == Admin
  }

  /** Whoever may write a document may read it, whatever its visibility. */
  lemma WriteImpliesRead(d: Document, who: Requester)
    ensures CanWrite(d, who) ==> CanRead(d, who)
  {
  }

  /** The two refusals `getDocument` and `downloadDocument` test, in the
      order they test them: a private document, then a restricted one. */
  function ReadGuard(d: Document, who: Requester): (r: Option<Failure>)
    ensures r.None? <==> CanRead(d, who)
    ensures r.Some? ==> r.value == AppError(403, Forbidden)
  {
    if d.visibility == Private && d.uploaderId != who.id && who.role != Admin then
      Some(AppError(403, Forbidden))
    else if d.visibility == Restricted && who.role !in d.accessRoles && d.uploaderId != who.id && who.role != Admin then
      Some(AppError(403, Forbidden))
    else None
  }

  /** The refusal of `updateDocument` and `deleteDocument`. */
  function WriteGuard(d: Document, who: Requester): (r: Option<Failure>)
    ensures r.None? <==> CanWrite(d, who)
    ensures r.Some? ==> r.value == AppError(403, Forbidden)
  {
    if d.uploaderId != who.id && who.role != Admin then Some(AppError(403, Forbidden)) else None
  }

  /** `req.query` of `GET /api/documents`. An empty string is falsy and
      filters nothing; `tags` is the list of requested tags, empty when the
      parameter is absent. */
  datatype DocQuery = DocQuery(docType: Option<string>, visibility: Option<string>, tags: seq<string>)

  /** Some tag in common: Postgres' `&&` on arrays (`Op.overlap`). */
  predicate Overlap(a: seq<string>, b: seq<string>) {
    exists t :: t in a && t in b
  }

  /** The `type`, `visibility` and `tags` conditions. */
  predicate Matches(q: DocQuery, d: Document)
    ensures q.docType.None? && q.visibility.None? && q.tags == [] ==> Matches(q, d)
    ensures Matches(q, d) && q.docType.Some? && q.docType.value != "" ==> DocTypeName(d.docType) == q.docType.value
    ensures Matches(q, d) && q.visibility.Some? && q.visibility.value != "" ==>
              VisibilityName(d.visibility) == q.visibility.value
    ensures Matches(q, d) && q.tags != [] ==> exists t :: t in q.tags && t in d.tags
  {
    && (q.docType.None? || q.docType.value == "" || DocTypeName(d.docType) == q.docType.value)
    && (q.visibility.None? || q.visibility.value == "" || VisibilityName(d.visibility) == q.visibility.value)
    && (|q.tags| == 0 || Overlap(q.tags, d.tags))
  }

  /** The `where` clause of `getAllDocuments`: the query's conditions and,
      for anyone but an administrator, the `Op.or` of uploader, public, and
      restricted with `accessRoles @> [role]`. */
  predicate ListFilter(d: Document, who: Requester, q: DocQuery)
    ensures ListFilter(d, who, q) <==> Matches(q, d) && CanRead(d, who)
  {
    && Matches(q, d)
    && (who.role == Admin
        || d.uploaderId == who.id
        || d.visibility == Public
        || (d.visibility == Restricted && who.role in d.accessRoles))
  }

  /** The rows the filter keeps, in their order. */
  function Select(rows: seq<Document>, who: Requester, q: DocQuery): (r: seq<Document>)
    ensures forall d :: d in r <==> d in rows && Matches(q, d) && CanRead(d, who)
    ensures multiset(r) <= multiset(rows)
  {
    if |rows| == 0 then []
    else
      var rest := Select(rows[1..], who, q);
      assert rows == [rows[0]] + rows[1..];
      if ListFilter(rows[0], who, q) then [rows[0]] + rest else rest
  }

  /** `order: [['createdAt', 'DESC']]`. */
  predicate NewestFirst(s: seq<Document>) {
    forall i, j :: 0 <= i < j < |s| ==> s[i].createdAt >= s[j].createdAt
  }

  function InsertByDate(d: Document, s: seq<Document>): (r: seq<Document>)
    requires NewestFirst(s)
    ensures NewestFirst(r)
    ensures multiset(r) == multiset(s) + multiset{d}
  {
    if |s| == 0 then [d]
    else if d.createdAt >= s[0].createdAt then [d] + s
    else
      var rest := InsertByDate(d, s[1..]);
      assert s == [s[0]] + s[1..];
      assert forall x :: x in rest ==> x.createdAt <= s[0].createdAt by {
        forall x | x in rest ensures x.createdAt <= s[0].createdAt {
          assert x in multiset(rest);
          if x != d {
            assert x in multiset(s[1..]);
            var k :| 0 <= k < |s[1..]| && s[1..][k] == x;
            assert s[k + 1] == x;
          }
        }
      }
      [s[0]] + rest
  }

  /** A stable insertion sort on `createdAt`, newest first. */
  function SortNewestFirst(s: seq<Document>): (r: seq<Document>)
    ensures NewestFirst(r)
    ensures multiset(r) == multiset(s)
  {
    if |s| == 0 then []
    else
      assert s == [s[0]] + s[1..];
      InsertByDate(s[0], SortNewestFirst(s[1..]))
  }

  /** `getAllDocuments` as intended, over the table's rows in any order:
      exactly the matching documents the requester may read, each as often
      as it is stored, newest first. */
  function ListDocuments(rows: seq<Document>, who: Requester, q: DocQuery): (r: Result<seq<Document>>)
    ensures r.Ok?
    ensures forall d :: d in r.value <==> d in rows && Matches(q, d) && CanRead(d, who)
    ensures multiset(r.value) <= multiset(rows)
    ensures NewestFirst(r.value)
    ensures who.role == Admin ==> forall d :: d in r.value <==> d in rows && Matches(q, d)
  {
    var kept := Select(rows, who, q);
    var sorted := SortNewestFirst(kept);
    assert forall d :: d in sorted <==> d in multiset(kept);
    Ok(sorted)
  }

  /** `getAllDocuments` as written: `Op` is never imported, so building the
      `Op.or` clause (every non-administrator) or the `Op.overlap` clause
      (any tag filter) throws a `ReferenceError`. */
  function ListDocumentsAsWritten(rows: seq<Document>, who: Requester, q: DocQuery): (r: Result<seq<Document>>)
    ensures who.role != Admin || |q.tags| > 0 <==> r == Err(Thrown("ReferenceError"))
    ensures r.Ok? ==> r == ListDocuments(rows, who, q)
  {
    if |q.tags| > 0 || who.role != Admin then Err(Thrown("ReferenceError"))
    else ListDocuments(rows, who, q)
  }

  /** The discrepancy: a teacher cannot even list the public documents
      that the intended filter shows. */
  lemma ListAsWrittenFailsNonAdmins(rows: seq<Document>, who: Requester, q: DocQuery, d: Document)
    requires who.role != Admin && d in rows && d.visibility == Public && Matches(q, d)
    ensures ListDocumentsAsWritten(rows, who, q).Err?
    ensures d in ListDocuments(rows, who, q).value
  {
  }

  /** A listing and a single read agree: a document shows up in a listing
      with no filter exactly when `getDocument` lets the requester see it. */
  lemma ListAgreesWithGet(docs: Documents, rows: seq<Document>, who: Requester, d: Document)
    requires forall x :: x in rows <==> x.id in docs && docs[x.id] == x
    ensures d in ListDocuments(rows, who, DocQuery(None, None, [])).value <==>
              d.id in docs && docs[d.id] == d && GetDocument(docs, d.id, who) == Ok(d)
  {
  }

  /** The stored document `Document.create` receives. */
  function NewDocument(id: Id, who: Requester, file: Upload.StoredFile, f: DocumentFields, now: nat): Document {
    Document(id, f.title, f.docType, f.description, file.path, file.size, file.mimetype, who.id,
             f.visibility.GetOr(Private), f.accessRoles.GetOr([]), f.tags.GetOr([]), 0, None, now)
  }

  /** `uploadDocument`: without a file nothing is created; otherwise a
      document owned by the requester, private with no roles and no tags
      unless the body says otherwise, never downloaded yet. */
  function UploadDocument(docs: Documents, id: Id, who: Requester, file: Option<Upload.StoredFile>,
                          f: DocumentFields, now: nat): (s: DStep<Document>)
    requires id !in docs
    ensures file.None? ==> s == DStep(docs, Err(AppError(400, NoFile)))
    ensures s.result.Ok? <==> file.Some?
    ensures s.result.Ok? ==>
      && s.docs == docs[id := s.result.value]
      && s.result.value.id == id && s.result.value.uploaderId == who.id
      && s.result.value.filePath == file.value.path && s.result.value.mimeType == file.value.mimetype
      && s.result.value.title == f.title && s.result.value.docType == f.docType
      && s.result.value.description == f.description
      && s.result.value.fileSize == file.value.size && s.result.value.createdAt == now
      && s.result.value.visibility == (if f.visibility.Some? then f.visibility.value else Private)
      && s.result.value.accessRoles == (if f.accessRoles.Some? then f.accessRoles.value else [])
      && s.result.value.tags == (if f.tags.Some? then f.tags.value else [])
      && s.result.value.downloadCount == 0 && s.result.value.lastDownloadDate.None?
      && CanWrite(s.result.value, who) && CanRead(s.result.value, who)
  {
    match file
    case None => DStep(docs, Err(AppError(400, NoFile)))
    case Some(stored) =>
      var d := NewDocument(id, who, stored, f, now);
      DStep(docs[id := d], Ok(d))
  }

  /** A restricted document lists at least one role: what `documentSchema`
      asks of a body that sets the visibility to restricted. */
  predicate RolesWhenRestricted(d: Document) {
    d.visibility == Restricted ==> |d.accessRoles| >= 1
  }

  /** The table's invariant: rows under their own id, restricted ones with
      roles. */
  ghost predicate WellFormed(docs: Documents) {
    forall id :: id in docs ==> docs[id].id == id && RolesWhenRestricted(docs[id])
  }

  /** An upload from an accepted body keeps the invariant. */
  lemma UploadKeepsWellFormed(docs: Documents, id: Id, who: Requester, file: Option<Upload.StoredFile>,
                              b: Joi.Body, now: nat)
    requires WellFormed(docs) && id !in docs
    requires ParseDocumentBody(b).Some?
    ensures WellFormed(UploadDocument(docs, id, who, file, ParseDocumentBody(b).value, now).docs)
  {
  }

  /** `getDocument`: an unknown id is 404 before any permission check. */
  function GetDocument(docs: Documents, id: Id, who: Requester): (r: Result<Document>)
    ensures id !in docs ==> r == Err(AppError(404, DocumentNotFound))
    ensures id in docs ==> (r.Ok? <==> CanRead(docs[id], who))
    ensures id in docs && r.Err? ==> r.failure == AppError(403, Forbidden)
    ensures r.Ok? ==> r.value == docs[id]
  {
    if id !in docs then Err(AppError(404, DocumentNotFound))
    else match ReadGuard(docs[id], who)
      case Some(f) => Err(f)
      case None => Ok(docs[id])
  }

  /** `downloadDocument`: the same refusals as `getDocument`, and a granted
      download counts exactly once and records its date. */
  function DownloadDocument(docs: Documents, id: Id, who: Requester, now: nat): (s: DStep<string>)
    ensures s.result.Err? <==> GetDocument(docs, id, who).Err?
    ensures s.result.Err? ==> s.result.failure == GetDocument(docs, id, who).failure && s.docs == docs
    ensures s.result.Ok? ==>
      && id in docs && s.result.value == docs[id].filePath
      && s.docs.Keys == docs.Keys
      && (forall k :: k in docs && k != id ==> s.docs[k] == docs[k])
      && s.docs[id].downloadCount == docs[id].downloadCount + 1
      && s.docs[id] == docs[id].(downloadCount := s.docs[id].downloadCount, lastDownloadDate := Some(now))
  {
    match GetDocument(docs, id, who)
    case Err(f) => DStep(docs, Err(f))
    case Ok(d) =>
      DStep(docs[id := d.(downloadCount := d.downloadCount + 1, lastDownloadDate := Some(now))], Ok(d.filePath))
  }

  /** The columns `document.update(...)` writes; an absent key keeps its
      column (Sequelize skips `undefined`). */
  function ApplyFields(d: Document, f: DocumentFields): (r: Document)
    ensures && r.id == d.id && r.uploaderId == d.uploaderId && r.filePath == d.filePath
            && r.fileSize == d.fileSize && r.mimeType == d.mimeType && r.downloadCount == d.downloadCount
            && r.lastDownloadDate == d.lastDownloadDate && r.createdAt == d.createdAt
    ensures r.title == f.title && r.docType == f.docType
    ensures r.description == if f.description.Some? then f.description else d.description
    ensures r.visibility == if f.visibility.Some? then f.visibility.value else d.visibility
    ensures r.accessRoles == if f.accessRoles.Some? then f.accessRoles.value else d.accessRoles
    ensures r.tags == if f.tags.Some? then f.tags.value else d.tags
  {
    d.(title := f.title,
       docType := f.docType,
       description := if f.description.Some? then f.description else d.description,
       visibility := f.visibility.GetOr(d.visibility),
       accessRoles := f.accessRoles.GetOr(d.accessRoles),
       tags := f.tags.GetOr(d.tags))
  }

  /** `updateDocument` as written: 404, then 403 unless the requester may
      write, then the six content columns. */
  function UpdateDocumentAsWritten(docs: Documents, id: Id, who: Requester, f: DocumentFields): (s: DStep<Document>)
    ensures id !in docs ==> s == DStep(docs, Err(AppError(404, DocumentNotFound)))
    ensures id in docs ==> (s.result.Ok? <==> CanWrite(docs[id], who))
    ensures s.result.Err? ==> s.docs == docs
    ensures s.result.Ok? ==> s.docs == docs[id := ApplyFields(docs[id], f)] && s.result.value == s.docs[id]
  {
    if id !in docs then DStep(docs, Err(AppError(404, DocumentNotFound)))
    else match WriteGuard(docs[id], who)
      case Some(e) => DStep(docs, Err(e))
      case None =>
        var d := ApplyFields(docs[id], f);
        DStep(docs[id := d], Ok(d))
  }

  /** The discrepancy: the schema asks for roles only when the body itself
      says `restricted`, so a body that empties `accessRoles` and leaves out
      the visibility passes and leaves a restricted document with no role. */
  lemma UpdateAsWrittenEmptiesRestriction(docs: Documents, id: Id, who: Requester, title: string)
    requires id in docs && CanWrite(docs[id], who) && docs[id].visibility == Restricted
    requires title != ""
    ensures var b := map["title" := Joi.Str(title), "type" := Joi.Str("report"), "accessRoles" := Joi.Arr([])];
      && ParseDocumentBody(b).Some?
      && var s := UpdateDocumentAsWritten(docs, id, who, ParseDocumentBody(b).value);
      && s.result.Ok?
      && !RolesWhenRestricted(s.docs[id])
  {
    var b := map["title" := Joi.Str(title), "type" := Joi.Str("report"), "accessRoles" := Joi.Arr([])];
    assert DocumentFieldOk(b, "type") by { assert Joi.Get(b, "type") == Joi.Str("report"); }
    assert ValidDocumentBody(b);
  }

  /** `updateDocument` as intended: the restricted-needs-roles rule applies
      to the document as it would be saved, not just to the body. */
  function UpdateDocument(docs: Documents, id: Id, who: Requester, f: DocumentFields): (s: DStep<Document>)
    ensures id !in docs ==> s == DStep(docs, Err(AppError(404, DocumentNotFound)))
    ensures id in docs && !CanWrite(docs[id], who) ==> s == DStep(docs, Err(AppError(403, Forbidden)))
    ensures s.result.Ok? <==> id in docs && CanWrite(docs[id], who) && RolesWhenRestricted(ApplyFields(docs[id], f))
    ensures s.result.Err? ==> s.docs == docs
    ensures s.result.Ok? ==> s.docs == docs[id := ApplyFields(docs[id], f)] && s.result.value == s.docs[id]
    ensures WellFormed(docs) ==> WellFormed(s.docs)
  {
    if id !in docs then DStep(docs, Err(AppError(404, DocumentNotFound)))
    else match WriteGuard(docs[id], who)
      case Some(e) => DStep(docs, Err(e))
      case None =>
        var d := ApplyFields(docs[id], f);
        if !RolesWhenRestricted(d) then DStep(docs, Err(AppError(400, RolesRequired)))
        else DStep(docs[id := d], Ok(d))
  }

  /** `deleteDocument`: the row goes (its file is removed from disk, and
      the path is reported), under the write permission. */
  function DeleteDocument(docs: Documents, id: Id, who: Requester): (s: DStep<string>)
    ensures id !in docs ==> s == DStep(docs, Err(AppError(404, DocumentNotFound)))
    ensures s.result.Ok? <==> id in docs && CanWrite(docs[id], who)
    ensures s.result.Err? ==> s.docs == docs
    ensures s.result.Ok? ==> s.docs == docs - {id} && s.result.value == docs[id].filePath
    ensures WellFormed(docs) ==> WellFormed(s.docs)
  {
    if id !in docs then DStep(docs, Err(AppError(404, DocumentNotFound)))
    else match WriteGuard(docs[id], who)
      case Some(e) => DStep(docs, Err(e))
      case None => DStep(docs - {id}, Ok(docs[id].filePath))
  }
}

=== FILE: document_slice.dfy ===
/** The `document` slice of frontend/src/store/slices/documentSlice.ts: its
    state, the reducer, the object the `uploadDocument` thunk builds from
    the server's answer and its own metadata, and the address it posts the
    upload to, followed to the backend router. */
module DocumentSlice {
  import opened Common
  import SliceOps
  import Routes
  import Auth
  import Validator
  import Upload
  import opened ApiClient

  /** A property value of a JavaScript object, as far as the slice looks
      at it; `VUndefined` is a key set to `undefined`. */
  datatype Value = VStr(s: string) | VNum(n: int) | VUndefined | VOther

  /** A document as the slice holds it: the object the server or the thunk
      built, whatever keys it has. */
  type Doc = map<string, Value>

  /** `doc.id`: `undefined` when there is no such key. */
  function IdOf(d: Doc): Value {
    if "id" in d then d["id"] else VUndefined
  }

  /** `DocumentState`; `None` is `null`. */
  datatype DocumentState = DocumentState(documents: seq<Doc>, selectedDocument: Option<Doc>, loading: bool, error: Option<string>)

  const InitialState := DocumentState([], None, false, None)

  /** The three thunks. */
  datatype Thunk = FetchDocuments | UploadDocument | DeleteDocument

  /** The actions the reducer handles. */
  datatype Action =
    | Pending(thunk: Thunk)
    | Rejected(thunk: Thunk, payload: Option<string>)
    | DocumentsFetched(list: seq<Doc>)
    | DocumentUploaded(doc: Doc)
    | DocumentDeleted(docId: string)
    | SetSelectedDocument(selection: Option<Doc>)
    | ClearError

  /** `{ ...server, ...metadata }`: every own key of either object, with
      the metadata's value where both have one. */
  function MergeUpload(server: Doc, metadata: Doc): (r: Doc)
    ensures r.Keys == server.Keys + metadata.Keys
    ensures forall k :: k in metadata ==> r[k] == metadata[k]
    ensures forall k :: k in server && k !in metadata ==> r[k] == server[k]
  {
    server + metadata
  }

  /** Without metadata the server's document is kept as it is, and merging
      the same metadata again changes nothing. */
  lemma MergeUploadLaws(server: Doc, metadata: Doc)
    ensures MergeUpload(server, map[]) == server
    ensures MergeUpload(MergeUpload(server, metadata), metadata) == MergeUpload(server, metadata)
  {
  }

  /** Metadata that names an `id` decides the id of the stored document. */
  lemma MergeUploadId(server: Doc, metadata: Doc)
    ensures IdOf(MergeUpload(server, metadata)) == if "id" in metadata then metadata["id"] else IdOf(server)
  {
  }

  /** The slice reducer. */
  function Reduce(s: DocumentState, a: Action): (r: DocumentState)
    ensures a.Pending? ==> r.documents == s.documents && r.loading && r.error.None? && r.selectedDocument == s.selectedDocument
    ensures a.Rejected? ==> r.documents == s.documents && !r.loading && r.error == a.payload && r.selectedDocument == s.selectedDocument
    ensures a.DocumentsFetched? ==> r.documents == a.list
    ensures a.DocumentUploaded? ==> |r.documents| == |s.documents| + 1 && r.documents[..|s.documents|] == s.documents
                                    && r.documents[|s.documents|] == a.doc
    ensures a.DocumentDeleted? ==> forall d :: d in r.documents <==> d in s.documents && IdOf(d) != VStr(a.docId)
    ensures a.DocumentsFetched? || a.DocumentUploaded? || a.DocumentDeleted? ==>
              !r.loading && r.error == s.error && r.selectedDocument == s.selectedDocument
    ensures a.SetSelectedDocument? ==> r == s.(selectedDocument := a.selection)
    ensures a.ClearError? ==> r == s.(error := None)
  {
    match a
    case Pending(_) => s.(loading := true, error := None)
    case Rejected(_, payload) => s.(loading := false, error := payload)
    case DocumentsFetched(list) => s.(loading := false, documents := list)
    case DocumentUploaded(d) => s.(loading := false, documents := s.documents + [d])
    case DocumentDeleted(id) => s.(loading := false, documents := SliceOps.RemoveAll(s.documents, IdOf, VStr(id)))
    case SetSelectedDocument(sel) => s.(selectedDocument := sel)
    case ClearError => s.(error := None)
  }

  /** No reducer edits a document in place: every document held after an
      action was held before it or came with the action. */
  lemma NoInPlaceEdit(s: DocumentState, a: Action, d: Doc)
    requires d in Reduce(s, a).documents
    ensures || d in s.documents
            || (a.DocumentsFetched? && d in a.list)
            || (a.DocumentUploaded? && d == a.doc)
  {
    if a.DocumentUploaded? {
      var r := Reduce(s, a);
      var k :| 0 <= k < |r.documents| && r.documents[k] == d;
      if k < |s.documents| {
        assert r.documents[..|s.documents|][k] == d;
      }
    }
  }

  /** Uploading a document with a new id and deleting that id gives back
      the list as it was. */
  lemma UploadThenDelete(s: DocumentState, d: Doc, id: string)
    requires IdOf(d) == VStr(id)
    requires forall i :: 0 <= i < |s.documents| ==> IdOf(s.documents[i]) != VStr(id)
    ensures Reduce(Reduce(s, DocumentUploaded(d)), DocumentDeleted(id)).documents == s.documents
  {
    SliceOps.RemoveAllAppend(s.documents, [d], IdOf, VStr(id));
    assert SliceOps.RemoveAll([d], IdOf, VStr(id)) == [];
  }

  /** A deletion keeps the order of the documents it keeps. */
  lemma DeleteKeepsOrder(a: seq<Doc>, b: seq<Doc>, s: DocumentState, id: string)
    requires s.documents == a + b
    ensures Reduce(s, DocumentDeleted(id)).documents
         == SliceOps.RemoveAll(a, IdOf, VStr(id)) + SliceOps.RemoveAll(b, IdOf, VStr(id))
  {
    SliceOps.RemoveAllAppend(a, b, IdOf, VStr(id));
  }

  /** A request that succeeds leaves no error. */
  lemma SuccessLeavesNoError(s: DocumentState, t: Thunk, done: Action)
    requires done.DocumentsFetched? || done.DocumentUploaded? || done.DocumentDeleted?
    ensures var r := Reduce(Reduce(s, Pending(t)), done); !r.loading && r.error.None?
  {
  }

  /** The address `uploadDocument` posts to: `/documents/upload`. */
  const UploadUrlAsWritten: seq<string> := ["documents", "upload"]

  /** The backend declares no `POST /upload` on the document router, so
      the upload never reaches `uploadDocument`: the answer is 401 without
      a token and the catch-all 404 with one. */
  lemma UploadUrlAsWrittenMissesRoute(c: Routes.Context)
    ensures !Routes.Dispatch(Routes.Post, ServerPath(UploadUrlAsWritten), c).Handled?
    ensures c.header.None? ==> Routes.Dispatch(Routes.Post, ServerPath(UploadUrlAsWritten), c) == Routes.Answered(401, Auth.MissingHeader)
    ensures Auth.Authenticate(c.users, c.header, c.verify, c.now).Pass? ==>
              Routes.Dispatch(Routes.Post, ServerPath(UploadUrlAsWritten), c) == Routes.NoRoute
  {
    assert ServerPath(UploadUrlAsWritten) == ["api", "documents"] + ["upload"];
    assert forall i :: 0 <= i < |Routes.DocumentRoutes| ==> !Routes.Matching(Routes.DocumentRoutes[i], Routes.Post, ["upload"]);
    Routes.UnknownDocumentPath(Routes.Post, ["upload"], c);
    var a := Auth.Authenticate(c.users, c.header, c.verify, c.now);
    if !a.Pass? {
      Routes.DocumentHandlersNeedToken(Routes.Post, ["upload"], c);
    }
  }

  /** The address the document router serves uploads at: `/documents`. */
  const UploadUrl: seq<string> := ["documents"]

  /** Posted there, an upload by an active user with an accepted file and a
      valid body reaches `uploadDocument` with that user and that file. */
  lemma UploadUrlReachesHandler(c: Routes.Context)
    requires Auth.Authenticate(c.users, c.header, c.verify, c.now).Pass?
    requires Upload.Single("file", c.part, c.limit, c.dir, c.now, c.rand).Stored?
    requires Validator.Validate(Validator.DocumentSchema, c.req, c.isEmail) == Validator.Next
    ensures Routes.Dispatch(Routes.Post, ServerPath(UploadUrl), c)
         == Routes.Handled(Routes.UploadDocument, Some(Auth.Authenticate(c.users, c.header, c.verify, c.now).user),
                           Upload.Single("file", c.part, c.limit, c.dir, c.now, c.rand))
  {
    assert ServerPath(UploadUrl) == ["api", "documents"] + [];
    Routes.DispatchDocuments(Routes.Post, [], c);
    Routes.UploadRoute();
    Routes.UploadPipelineRuns(c);
  }
}

=== FILE: document_validation.dfy ===
/** `documentSchema` (backend/src/validations/documentValidation.js), the
    document enums it lists, and the typed reading of a body it accepts. */
module DocumentValidation {
  import opened Common
  import opened Joi

  /** The eight document types. */
  datatype DocType = Administrative | Academic | Financial | Medical | Report | Certificate | CourseMaterial | OtherType

  const DocumentTypes: seq<string> :=
    ["administrative", "academic", "financial", "medical", "report", "certificate", "course_material", "other"]

  function DocTypeName(t: DocType): string {
    match t
    case Administrative => "administrative"
    case Academic => "academic"
    case Financial => "financial"
    case Medical => "medical"
    case Report => "report"
    case Certificate => "certificate"
    case CourseMaterial => "course_material"
    case OtherType => "other"
  }

  function ParseDocType(s: string): (r: Option<DocType>)
    ensures r.Some? <==> s in DocumentTypes
    ensures r.Some? ==> DocTypeName(r.value) == s
  {
    if s == "administrative" then Some(Administrative)
    else if s == "academic" then Some(Academic)
    else if s == "financial" then Some(Financial)
    else if s == "medical" then Some(Medical)
    else if s == "report" then Some(Report)
    else if s == "certificate" then Some(Certificate)
    else if s == "course_material" then Some(CourseMaterial)
    else if s == "other" then Some(OtherType)
    else None
  }

  lemma DocTypeRoundTrip(t: DocType)
    ensures DocTypeName(t) in DocumentTypes && ParseDocType(DocTypeName(t)) == Some(t)
  {
  }

  /** The three visibility tiers. */
  datatype Visibility = Public | Private | Restricted

  const VisibilityNames: seq<string> := ["public", "private", "restricted"]

  function VisibilityName(v: Visibility): string {
    match v
    case Public => "public"
    case Private => "private"
    case Restricted => "restricted"
  }

  function ParseVisibility(s: string): (r: Option<Visibility>)
    ensures r.Some? <==> s in VisibilityNames
    ensures r.Some? ==> VisibilityName(r.value) == s
  {
    if s == "public" then Some(Public)
    else if s == "private" then Some(Private)
    else if s == "restricted" then Some(Restricted)
    else None
  }

  lemma VisibilityRoundTrip(v: Visibility)
    ensures VisibilityName(v) in VisibilityNames && ParseVisibility(VisibilityName(v)) == Some(v)
  {
  }

  /** The condition of the `.when('visibility', { is: 'restricted' })` clause. */
  predicate RestrictedRequested(b: Body) { Get(b, "visibility") == Str("restricted") }

  const DocumentKeys: seq<string> := ["title", "type", "description", "visibility", "accessRoles", "tags"]

  /** What `documentSchema` asks of each key, stated directly. */
  predicate DocumentFieldOk(b: Body, key: string) {
    var v := Get(b, key);
    if key == "title" then NonEmptyString(v)
    else if key == "type" then OneOf(v, DocumentTypes)
    else if key == "description" then v.Missing? || v.Str?
    else if key == "visibility" then v.Missing? || OneOf(v, VisibilityNames)
    else if key == "accessRoles" then
      if RestrictedRequested(b) then
        v.Arr? && |v.items| >= 1 && forall i :: 0 <= i < |v.items| ==> OneOf(v.items[i], RoleNames)
      else
        v.Missing? || (v.Arr? && forall i :: 0 <= i < |v.items| ==> OneOf(v.items[i], RoleNames))
    else if key == "tags" then
      v.Missing? || (v.Arr? && forall i :: 0 <= i < |v.items| ==> NonEmptyString(v.items[i]))
    else true
  }

  /** A body `documentSchema` accepts: a non-empty title, one of the eight
      types, an optional (possibly empty) description, an optional
      visibility, role names only in `accessRoles` and at least one of them
      when the visibility is restricted, non-empty strings as tags. */
  predicate ValidDocumentBody(b: Body) {
    forall k :: k in DocumentKeys ==> DocumentFieldOk(b, k)
  }

  /** The schema of an item of `accessRoles`; JSON arrays have no absent items. */
  const RoleItem := StringSpec(true, false, false, Some(RoleNames))
  /** The schema of a tag. */
  const TagItem := StringSpec(true, false, false, None)

  function DocumentField(b: Body, key: string): (r: seq<Detail>)
    ensures r == [] <==> DocumentFieldOk(b, key)
    ensures forall d :: d in r ==> d.key == key
  {
    var v := Get(b, key);
    if key == "title" then CheckString(key, None, v, Required, NoRules)
    else if key == "type" then CheckString(key, None, v, StringSpec(true, false, false, Some(DocumentTypes)), NoRules)
    else if key == "description" then CheckString(key, None, v, StringSpec(false, false, true, None), NoRules)
    else if key == "visibility" then CheckString(key, None, v, StringSpec(false, false, false, Some(VisibilityNames)), NoRules)
    else if key == "accessRoles" then
      CheckArray(key, v, RestrictedRequested(b), if RestrictedRequested(b) then 1 else 0, RoleItem)
    else if key == "tags" then CheckArray(key, v, false, 0, TagItem)
    else []
  }

  /** `documentSchema.validate(body, { abortEarly: false }).error.details`. */
  function DocumentDetails(b: Body): (r: seq<Detail>)
    ensures r == [] <==> ValidDocumentBody(b)
    ensures forall k :: k in DocumentKeys ==> (Reports(r, k) <==> !DocumentFieldOk(b, k))
  {
    var check := k => DocumentField(b, k);
    var r := Collect(DocumentKeys, check);
    forall k | k in DocumentKeys ensures Reports(r, k) <==> !DocumentFieldOk(b, k) {
      CollectReportsEachFailingKey(DocumentKeys, check, k);
    }
    r
  }

  /** The custom messages of `documentSchema`, inherited by array items. */
  const DocumentTexts: seq<MessageEntry> := [
    MessageEntry("title", "any.required", "Le titre est requis"),
    MessageEntry("title", "string.empty", "Le titre ne peut pas être vide"),
    MessageEntry("type", "any.required", "Le type de document est requis"),
    MessageEntry("type", "any.only", "Le type doit être l'un des suivants : administrative, academic, financial, medical, report, certificate, course_material, other"),
    MessageEntry("description", "string.base", "La description doit être une chaîne de caractères"),
    MessageEntry("visibility", "any.only", "La visibilité doit être l'une des suivantes : public, private, restricted"),
    MessageEntry("accessRoles", "array.min", "Au moins un rôle doit être spécifié pour la visibilité restreinte"),
    MessageEntry("accessRoles", "any.required", "Les rôles d'accès sont requis pour la visibilité restreinte"),
    MessageEntry("tags", "array.base", "Les tags doivent être un tableau"),
    MessageEntry("tags", "string.base", "Chaque tag doit être une chaîne de caractères")]

  function DocumentMessage(d: Detail): string {
    CustomMessage(DocumentTexts, d)
  }

  /** A detail about a key of `documentSchema` that the table names gets the first
      text listed for its key and code; a detail about any other key gets
      Joi's own text. */
  lemma DocumentMessageTable(d: Detail)
    ensures (forall k :: 0 <= k < |DocumentTexts| ==> DocumentTexts[k].key != d.key) ==> DocumentMessage(d) == DefaultMessage(d)
    ensures forall k :: FirstFor(DocumentTexts, k, d) ==> DocumentMessage(d) == DocumentTexts[k].text
  {
  }

  /** The fields of an accepted body, as the controllers read `req.body`:
      absent keys stay absent (the schema's defaults are not written back). */
  datatype DocumentFields = DocumentFields(
    title: string,
    docType: DocType,
    description: Option<string>,
    visibility: Option<Visibility>,
    accessRoles: Option<seq<Role>>,
    tags: Option<seq<string>>)

  function RolesOf(items: seq<Json>): (r: seq<Role>)
    requires forall i :: 0 <= i < |items| ==> OneOf(items[i], RoleNames)
    ensures |r| == |items|
    ensures forall i :: 0 <= i < |items| ==> OneOf(items[i], RoleNames) && RoleName(r[i]) == items[i].s
  {
    if |items| == 0 then []
    else
      assert OneOf(items[0], RoleNames);
      [ParseRole(items[0].s).value] + RolesOf(items[1..])
  }

  function StringsOf(items: seq<Json>): (r: seq<string>)
    requires forall i :: 0 <= i < |items| ==> items[i].Str?
    ensures |r| == |items|
    ensures forall i :: 0 <= i < |items| ==> r[i] == items[i].s
  {
    if |items| == 0 then [] else [items[0].s] + StringsOf(items[1..])
  }

  /** Reads an accepted body as typed fields. */
  function ParseDocumentBody(b: Body): (r: Option<DocumentFields>)
    ensures r.Some? <==> ValidDocumentBody(b)
    ensures r.Some? ==> NonEmptyString(Get(b, "title")) && r.value.title == Get(b, "title").s
    ensures r.Some? ==> OneOf(Get(b, "type"), DocumentTypes) && DocTypeName(r.value.docType) == Get(b, "type").s
    ensures r.Some? ==> (r.value.visibility.Some? <==> Get(b, "visibility").Str?)
    ensures r.Some? && r.value.visibility.Some? ==> Get(b, "visibility").Str? && VisibilityName(r.value.visibility.value) == Get(b, "visibility").s
    ensures r.Some? && r.value.visibility == Some(Restricted) ==>
      r.value.accessRoles.Some? && |r.value.accessRoles.value| >= 1
    ensures r.Some? && r.value.tags.Some? ==> forall t :: t in r.value.tags.value ==> t != ""
    ensures r.Some? ==>
      r.value.description == (if Get(b, "description").Str? then Some(Get(b, "description").s) else None)
    ensures r.Some? ==> (r.value.accessRoles.Some? <==> Get(b, "accessRoles").Arr?)
    ensures r.Some? && r.value.accessRoles.Some? ==>
      && Get(b, "accessRoles").Arr? && |Get(b, "accessRoles").items| == |r.value.accessRoles.value|
      && forall i :: 0 <= i < |r.value.accessRoles.value| ==>
           Get(b, "accessRoles").items[i] == Str(RoleName(r.value.accessRoles.value[i]))
    ensures r.Some? ==> (r.value.tags.Some? <==> Get(b, "tags").Arr?)
    ensures r.Some? && r.value.tags.Some? ==>
      && Get(b, "tags").Arr? && |Get(b, "tags").items| == |r.value.tags.value|
      && forall i :: 0 <= i < |r.value.tags.value| ==> Get(b, "tags").items[i] == Str(r.value.tags.value[i])
  {
    if !ValidDocumentBody(b) then None
    else
      assert DocumentFieldOk(b, "title") && DocumentFieldOk(b, "type") && DocumentFieldOk(b, "description");
      assert DocumentFieldOk(b, "visibility") && DocumentFieldOk(b, "accessRoles") && DocumentFieldOk(b, "tags");
      var v := Get(b, "visibility");
      var roles := Get(b, "accessRoles");
      var tags := Get(b, "tags");
      Some(DocumentFields(
        Get(b, "title").s,
        ParseDocType(Get(b, "type").s).value,
        if Get(b, "description").Str? then Some(Get(b, "description").s) else None,
        if v.Str? then ParseVisibility(v.s) else None,
        if roles.Arr? then Some(RolesOf(roles.items)) else None,
        if tags.Arr? then Some(StringsOf(tags.items)) else None))
  }
}

=== FILE: joi.dfy ===
/** The fragment of Joi the request schemas use: string keys with `valid`,
    `allow`, `required` and rules, arrays with `items` and `min`, validated
    with `abortEarly: false` so that every failing key is reported. */
module Joi {
  import opened Common
  import Text

  /** A JSON request value. `Missing` is an absent key (`undefined`).
      Numbers, booleans and objects are all `Other`: every schema here
      rejects them the same way. */
  datatype Json = Missing | Null | Str(s: string) | Arr(items: seq<Json>) | Other

  /** A parsed request body (or query, or route parameters). */
  type Body = map<string, Json>

  function Get(b: Body, key: string): Json {
    if key in b then b[key] else Missing
  }

  /** One entry of `error.details`: the top-level key it belongs to, the
      index when it is about an array item, and the Joi error code. */
  datatype Detail = Detail(key: string, index: Option<nat>, code: string)

  /** The flags of a `Joi.string()` schema: `.required()`, `.allow(null)`,
      `.allow('')` and `.valid(...)`. */
  datatype StringSpec = StringSpec(required: bool, allowNull: bool, allowEmpty: bool, only: Option<seq<string>>)

  const Optional := StringSpec(false, false, false, None)
  const Required := StringSpec(true, false, false, None)

  /** A string schema without rules. */
  function NoRules(s: string): seq<string> { [] }

  predicate NonEmptyString(v: Json) { v.Str? && v.s != "" }

  predicate OneOf(v: Json, names: seq<string>) { v.Str? && v.s in names }

  /** What Joi accepts for a string schema with these flags, where
      `failing(s)` lists the rules (`min`, `pattern`, `email`) that reject a
      non-empty string `s`. */
  predicate StringAccepts(v: Json, spec: StringSpec, failing: string -> seq<string>) {
    match v
    case Missing => !spec.required
    case Null => spec.allowNull
    case Str(s) =>
      (s == "" && spec.allowEmpty)
      || (if spec.only.Some? then s in spec.only.value else s != "" && failing(s) == [])
    case _ => false
  }

  /** The details for a list of rule codes. */
  function Codes(key: string, index: Option<nat>, codes: seq<string>): (r: seq<Detail>)
    ensures |r| == |codes|
    ensures forall i :: 0 <= i < |r| ==> r[i] == Detail(key, index, codes[i])
  {
    seq(|codes|, i requires 0 <= i < |codes| => Detail(key, index, codes[i]))
  }

  /** The `any.only` detail a `valid(...)` list adds before the type check. */
  function OnlyError(key: string, index: Option<nat>, spec: StringSpec): seq<Detail> {
    if spec.only.Some? then [Detail(key, index, "any.only")] else []
  }

  /** Joi's validation of one string value: absence against `required`,
      then the allowed values, then (still collecting) the `any.only`
      failure, the base type (`string.base`, `string.empty`) and the rules. */
  function CheckString(key: string, index: Option<nat>, v: Json, spec: StringSpec,
                       failing: string -> seq<string>): (r: seq<Detail>)
    ensures r == [] <==> StringAccepts(v, spec, failing)
    ensures forall d :: d in r ==> d.key == key && d.index == index
    ensures v.Missing? && spec.required ==> r == [Detail(key, index, "any.required")]
  {
    match v
    case Missing => if spec.required then [Detail(key, index, "any.required")] else []
    case Str(s) =>
      if (s == "" && spec.allowEmpty) || (spec.only.Some? && s in spec.only.value) then []
      else if s == "" then OnlyError(key, index, spec) + [Detail(key, index, "string.empty")]
      else OnlyError(key, index, spec) + Codes(key, index, failing(s))
    case Null =>
      if spec.allowNull then [] else OnlyError(key, index, spec) + [Detail(key, index, "string.base")]
    case _ => OnlyError(key, index, spec) + [Detail(key, index, "string.base")]
  }

  /** The item details of an array, each tagged with its index, in order. */
  function CheckItems(key: string, items: seq<Json>, item: StringSpec): (r: seq<Detail>)
    ensures r == [] <==> forall i :: 0 <= i < |items| ==> StringAccepts(items[i], item, NoRules)
    ensures forall d :: d in r ==> d.key == key && d.index.Some? && d.index.value < |items|
  {
    if |items| == 0 then []
    else
      var init := items[..|items| - 1];
      var last := CheckString(key, Some(|items| - 1), items[|items| - 1], item, NoRules);
      var r := CheckItems(key, init, item) + last;
      assert (forall i :: 0 <= i < |items| ==> StringAccepts(items[i], item, NoRules))
         <==> (forall i :: 0 <= i < |init| ==> StringAccepts(init[i], item, NoRules))
              && StringAccepts(items[|items| - 1], item, NoRules) by {
        forall i | 0 <= i < |init| ensures init[i] == items[i] { }
      }
      r
  }

  /** What Joi accepts for `Joi.array().items(item)`, with `.required()` and
      `.min(minLength)` when given. */
  predicate ArrayAccepts(v: Json, required: bool, minLength: nat, item: StringSpec) {
    match v
    case Missing => !required
    case Arr(items) =>
      |items| >= minLength && forall i :: 0 <= i < |items| ==> StringAccepts(items[i], item, NoRules)
    case _ => false
  }

  /** Joi's validation of an array value: absence, then `array.base` for a
      non-array, then every item, then the `min` rule. */
  function CheckArray(key: string, v: Json, required: bool, minLength: nat, item: StringSpec): (r: seq<Detail>)
    ensures r == [] <==> ArrayAccepts(v, required, minLength, item)
    ensures forall d :: d in r ==> d.key == key
  {
    match v
    case Missing => if required then [Detail(key, None, "any.required")] else []
    case Arr(items) =>
      CheckItems(key, items, item) + (if |items| < minLength then [Detail(key, None, "array.min")] else [])
    case _ => [Detail(key, None, "array.base")]
  }

  /** The details of every key of an object schema, key after key in the
      schema's order: what `abortEarly: false` yields. */
  function Collect(keys: seq<string>, check: string -> seq<Detail>): (r: seq<Detail>)
    ensures r == [] <==> forall i :: 0 <= i < |keys| ==> check(keys[i]) == []
    ensures forall d :: d in r ==> exists i :: 0 <= i < |keys| && d in check(keys[i])
  {
    if |keys| == 0 then []
    else
      var init := keys[..|keys| - 1];
      var r := Collect(init, check) + check(keys[|keys| - 1]);
      assert (forall i :: 0 <= i < |keys| ==> check(keys[i]) == [])
         <==> (forall i :: 0 <= i < |init| ==> check(init[i]) == []) && check(keys[|keys| - 1]) == [] by {
        forall i | 0 <= i < |init| ensures init[i] == keys[i] { }
      }
      forall d | d in r ensures exists i :: 0 <= i < |keys| && d in check(keys[i]) {
        if d in Collect(init, check) {
          var i :| 0 <= i < |init| && d in check(init[i]);
          assert init[i] == keys[i];
        } else {
          assert d in check(keys[|keys| - 1]);
        }
      }
      r
  }

  /** The label Joi puts in its messages: the key, or `key[i]` for an item. */
  function Label(d: Detail): string {
    match d.index
    case None => d.key
    case Some(i) => d.key + "[" + Text.NatToString(i) + "]"
  }

  /** Stands for Joi's built-in English message of a detail, used where the
      schema defines no message of its own: the quoted label and the code. */
  function DefaultMessage(d: Detail): string {
    "\"" + Label(d) + "\" " + d.code
  }

  /** One entry of a key's `.messages({...})`: the text for one code. */
  datatype MessageEntry = MessageEntry(key: string, code: string, text: string)

  /** Whether entry `k` is the first one for the detail's key and code. */
  predicate FirstFor(table: seq<MessageEntry>, k: int, d: Detail) {
    && 0 <= k < |table| && table[k].key == d.key && table[k].code == d.code
    && forall j :: 0 <= j < k ==> !(table[j].key == d.key && table[j].code == d.code)
  }

  /** `detail.message` under a schema's custom messages: the text of the
      first entry for the detail's key and code, Joi's own text when there
      is none. */
  function CustomMessage(table: seq<MessageEntry>, d: Detail): (r: string)
    ensures (forall k :: 0 <= k < |table| ==> !(table[k].key == d.key && table[k].code == d.code)) ==>
              r == DefaultMessage(d)
    ensures forall k :: FirstFor(table, k, d) ==> r == table[k].text
    decreases |table|
  {
    if |table| == 0 then DefaultMessage(d)
    else if table[0].key == d.key && table[0].code == d.code then
      assert forall k :: FirstFor(table, k, d) ==> k == 0;
      table[0].text
    else
      var r := CustomMessage(table[1..], d);
      assert forall k :: FirstFor(table, k, d) ==> k >= 1 && FirstFor(table[1..], k - 1, d);
      r
  }

  /** Whether some detail is about `key`. */
  predicate Reports(details: seq<Detail>, key: string) {
    exists d :: d in details && d.key == key
  }

  /** With `abortEarly: false`, a key of the schema is reported exactly when
      its own check fails, whatever the other keys hold. */
  lemma {:induction false} CollectReportsEachFailingKey(keys: seq<string>, check: string -> seq<Detail>, key: string)
    requires forall k, d :: d in check(k) ==> d.key == k
    requires key in keys
    ensures Reports(Collect(keys, check), key) <==> check(key) != []
    decreases |keys|
  {
    var r := Collect(keys, check);
    var init := keys[..|keys| - 1];
    var last := keys[|keys| - 1];
    assert r == Collect(init, check) + check(last);
    if check(key) != [] {
      var d := check(key)[0];
      if key == last {
        assert d in r;
      } else {
        assert key in init;
        CollectReportsEachFailingKey(init, check, key);
        var d' :| d' in Collect(init, check) && d'.key == key;
        assert d' in r;
      }
    } else {
      forall d | d in r ensures d.key != key {
        var i :| 0 <= i < |keys| && d in check(keys[i]);
        assert d.key == keys[i];
      }
    }
  }
}

=== FILE: register.dfy ===
/** The registration form of frontend/src/pages/auth/Register.tsx: its yup
    `validationSchema` as Formik runs it, and the payload its submit handler
    dispatches through `createUser`. yup's `.email()` is the predicate
    `yupEmail`. Formik hands yup the values with every empty string turned
    into `undefined`, so an empty field meets only `required`, and the
    optional phone number may be left empty. */
module Register {
  import opened Common
  import opened Joi
  import Text
  import UserValidation
  import Routes
  import Auth
  import Upload
  import Validator
  import opened ApiClient

  /** The form values; every field starts as the empty string. */
  datatype RegisterForm = RegisterForm(
    firstName: string,
    lastName: string,
    email: string,
    password: string,
    confirmPassword: string,
    phoneNumber: string)

  const FirstNameRequired := "Le prénom est requis"
  const LastNameRequired := "Le nom est requis"
  const EmailInvalid := "Entrez une adresse email valide"
  const EmailRequired := "L'email est requis"
  const PasswordTooShort := "Le mot de passe doit contenir au moins 6 caractères"
  const PasswordRequired := "Le mot de passe est requis"
  const PasswordsDiffer := "Les mots de passe doivent correspondre"
  const ConfirmRequired := "La confirmation du mot de passe est requise"
  const PhoneNotDigits := "Le numéro de téléphone doit contenir uniquement des chiffres"
  const PhoneTooShort := "Le numéro de téléphone doit contenir au moins 10 chiffres"

  /** The fields of the form, in the order the schema declares them. */
  const Fields: seq<string> := ["firstName", "lastName", "email", "password", "confirmPassword", "phoneNumber"]

  /** What the schema asks of each field, stated directly. */
  predicate FieldOk(f: RegisterForm, field: string, yupEmail: string -> bool) {
    if field == "firstName" then f.firstName != ""
    else if field == "lastName" then f.lastName != ""
    else if field == "email" then f.email != "" && yupEmail(f.email)
    else if field == "password" then |f.password| >= 6
    else if field == "confirmPassword" then f.confirmPassword != "" && f.confirmPassword == f.password
    else if field == "phoneNumber" then f.phoneNumber == "" || (Text.AllDigits(f.phoneNumber) && |f.phoneNumber| >= 10)
    else true
  }

  /** A form the schema lets through. */
  predicate FormValid(f: RegisterForm, yupEmail: string -> bool) {
    forall field :: field in Fields ==> FieldOk(f, field, yupEmail)
  }

  /** The message Formik shows under one field: the first failing test of
      that field, `None` when all pass. */
  function FieldError(f: RegisterForm, field: string, yupEmail: string -> bool): (r: Option<string>)
    ensures r.None? <==> FieldOk(f, field, yupEmail)
    ensures field == "password" && f.password != "" && r.Some? ==> r.value == PasswordTooShort
    ensures field == "confirmPassword" && f.confirmPassword != "" && r.Some? ==> r.value == PasswordsDiffer
  {
    if field == "firstName" then (if f.firstName == "" then Some(FirstNameRequired) else None)
    else if field == "lastName" then (if f.lastName == "" then Some(LastNameRequired) else None)
    else if field == "email" then
      (if f.email == "" then Some(EmailRequired)
       else if !yupEmail(f.email) then Some(EmailInvalid)
       else None)
    else if field == "password" then
      (if f.password == "" then Some(PasswordRequired)
       else if |f.password| < 6 then Some(PasswordTooShort)
       else None)
    else if field == "confirmPassword" then
      (if f.confirmPassword == "" then Some(ConfirmRequired)
       else if f.confirmPassword != f.password then Some(PasswordsDiffer)
       else None)
    else if field == "phoneNumber" then
      (if f.phoneNumber == "" then None
       else if !Text.AllDigits(f.phoneNumber) then Some(PhoneNotDigits)
       else if |f.phoneNumber| < 10 then Some(PhoneTooShort)
       else None)
    else None
  }

  /** Formik's `errors`: one message for each failing field. */
  function FormErrors(f: RegisterForm, yupEmail: string -> bool): (r: map<string, string>)
    ensures forall field :: field in Fields ==> (field in r <==> !FieldOk(f, field, yupEmail))
    ensures r.Keys <= set field | field in Fields
    ensures r == map[] <==> FormValid(f, yupEmail)
  {
    var r := map field | field in Fields && FieldError(f, field, yupEmail).Some? :: FieldError(f, field, yupEmail).value;
    assert r == map[] ==> FormValid(f, yupEmail) by {
      if r == map[] {
        forall field | field in Fields ensures FieldOk(f, field, yupEmail) {
          assert field !in r;
        }
      }
    }
    r
  }

  /** `const { confirmPassword, ...userData } = values`: the body `createUser`
      posts. The values go as typed, an empty phone number included, and
      there is no `role`. */
  function Payload(f: RegisterForm): (b: Body)
    ensures "confirmPassword" !in b && "role" !in b
    ensures b.Keys == {"firstName", "lastName", "email", "password", "phoneNumber"}
  {
    map["firstName" := Str(f.firstName), "lastName" := Str(f.lastName), "email" := Str(f.email),
        "password" := Str(f.password), "phoneNumber" := Str(f.phoneNumber)]
  }

  /** `createUserSchema` rejects every payload the form sends, valid or
      not: the `role` it requires is never part of it. */
  lemma PayloadLacksRole(f: RegisterForm, isEmail: string -> bool)
    ensures Reports(UserValidation.CreateUserDetails(Payload(f), isEmail), "role")
    ensures !UserValidation.ValidCreateUser(Payload(f), isEmail)
  {
    var b := Payload(f);
    assert Get(b, "role") == Missing;
    UserValidation.RoleFieldOk(b, isEmail);
  }

  /** A form left without a phone number is valid, but its payload carries
      `phoneNumber: ""`, which `createUserSchema` rejects. */
  lemma EmptyPhoneRejectedByServer(f: RegisterForm, yupEmail: string -> bool, isEmail: string -> bool)
    requires f.phoneNumber == ""
    ensures FieldOk(f, "phoneNumber", yupEmail)
    ensures Reports(UserValidation.CreateUserDetails(Payload(f), isEmail), "phoneNumber")
  {
    assert Get(Payload(f), "phoneNumber") == Str("");
    assert !UserValidation.CreateUserFieldOk(Payload(f), "phoneNumber", isEmail);
  }

  /** The form asks six characters of a password and nothing more, so a
      password the server's policy refuses passes it. */
  lemma FormPasswordWeakerThanServer(f: RegisterForm, yupEmail: string -> bool)
    requires FormValid(f, yupEmail)
    ensures FormValid(f.(password := "abcdef", confirmPassword := "abcdef"), yupEmail)
    ensures !UserValidation.StrongPassword("abcdef")
  {
    var g := f.(password := "abcdef", confirmPassword := "abcdef");
    forall field | field in Fields ensures FieldOk(g, field, yupEmail) {
      assert FieldOk(f, field, yupEmail);
    }
  }

  /** The form bounds the phone number below only, so sixteen digits pass
      it while the server's pattern allows at most fifteen. */
  lemma FormPhoneWeakerThanServer(f: RegisterForm, yupEmail: string -> bool)
    requires FormValid(f, yupEmail)
    ensures FormValid(f.(phoneNumber := "0123456789012345"), yupEmail)
    ensures !UserValidation.PhoneShaped("0123456789012345")
  {
    var g := f.(phoneNumber := "0123456789012345");
    assert Text.AllDigits(g.phoneNumber);
    forall field | field in Fields ensures FieldOk(g, field, yupEmail) {
      assert FieldOk(f, field, yupEmail);
    }
  }

  /** Every password and phone number the server accepts also passes the
      form: on these two fields the form is the weaker check. */
  lemma ServerStricterThanForm(f: RegisterForm, yupEmail: string -> bool)
    requires UserValidation.StrongPassword(f.password) && f.confirmPassword == f.password
    requires f.phoneNumber == "" || UserValidation.PhoneShaped(f.phoneNumber)
    requires !(|f.phoneNumber| > 0 && f.phoneNumber[0] == '+')
    ensures FieldOk(f, "password", yupEmail) && FieldOk(f, "confirmPassword", yupEmail)
    ensures FieldOk(f, "phoneNumber", yupEmail)
  {
  }

  /** The submit goes to `POST /api/users`, which is declared after the
      administrators' guard: a visitor without a token gets 401, and only
      an active administrator's request reaches `createUser`. */
  lemma SubmitNeedsAdmin(c: Routes.Context)
    ensures c.header.None? ==> Routes.Dispatch(Routes.Post, ServerPath(["users"]), c) == Routes.Answered(401, Auth.MissingHeader)
    ensures var o := Routes.Dispatch(Routes.Post, ServerPath(["users"]), c);
      var a := Auth.Authenticate(c.users, c.header, c.verify, c.now);
      o.Handled? ==> o.handler == Routes.CreateUser && a.Pass? && a.user.role == Admin
  {
    SubmitRuns(c);
    if Routes.Dispatch(Routes.Post, ServerPath(["users"]), c).Handled? {
      assert ServerPath(["users"]) == ["api", "users"] + [];
      Routes.AdminHandlersNeedAdmin(Routes.Post, [], c);
    }
  }

  /** `POST /api/users` runs `auth`, the administrators' guard and the
      creation schema in front of `createUser`. */
  lemma SubmitRuns(c: Routes.Context)
    ensures Routes.Dispatch(Routes.Post, ServerPath(["users"]), c)
         == Routes.Run([Routes.Authenticate, Routes.RequireRole([Admin]), Routes.ValidateBody(Validator.CreateUserSchema)],
                       Some(Routes.CreateUser), c, None, Upload.NoFile)
  {
    assert ServerPath(["users"]) == ["api", "users"] + [];
    assert (["api", "users"] + [])[2..] == [];
    Routes.CreateUserPipeline();
  }
}

=== FILE: routes.dfy ===
/** The route tables of backend/src/routes/userRoutes.js and
    backend/src/routes/documentRoutes.js, their mounting in
    backend/src/server.js, and the pipeline that runs the guards, the
    upload and the validator in front of each handler. Paths are given as
    their segments (`/api/users/42` is `["api", "users", "42"]`). */
module Routes {
  import opened Common
  import opened UserModel
  import Auth
  import Validator
  import Upload

  datatype Method = Get | Post | Patch | Delete

  /** A segment of a route pattern: a literal, or `:name`, which matches
      any one non-empty segment. */
  datatype Segment = Lit(text: string) | Param(name: string)

  /** The controller functions the routes end in. */
  datatype Handler =
    | Login | GetProfile | UpdateProfile | ChangePassword
    | GetAllUsers | CreateUser | GetUser | UpdateUser | DeleteUser
    | GetAllDocuments | GetDocument | DownloadDocument | UploadDocument | UpdateDocument | DeleteDocument

  /** The middlewares the routes use. */
  datatype Stage =
    | Authenticate                       // auth
    | RequireRole(roles: seq<Role>)      // checkRole(roles)
    | ValidateBody(schema: Validator.Schema)  // validate(schema)
    | SingleFile(field: string)          // upload.single(field)
    | MulterErrors                       // handleMulterError

  /** A line of a router: `router.use(stage)`, or a route with its own
      middlewares and its handler. */
  datatype Layer = Use(stage: Stage) | Route(verb: Method, pattern: seq<Segment>, stages: seq<Stage>, handler: Handler)

  const UserRoutes: seq<Layer> := [
    Route(Post, [Lit("login")], [ValidateBody(Validator.LoginSchema)], Login),
    Use(Authenticate),
    Route(Get, [Lit("profile")], [], GetProfile),
    Route(Patch, [Lit("profile")], [ValidateBody(Validator.UpdateUserSchema)], UpdateProfile),
    Route(Post, [Lit("change-password")], [ValidateBody(Validator.ChangePasswordSchema)], ChangePassword),
    Use(RequireRole([Admin])),
    Route(Get, [], [], GetAllUsers),
    Route(Post, [], [ValidateBody(Validator.CreateUserSchema)], CreateUser),
    Route(Get, [Param("id")], [], GetUser),
    Route(Patch, [Param("id")], [ValidateBody(Validator.UpdateUserSchema)], UpdateUser),
    Route(Delete, [Param("id")], [], DeleteUser)
  ]

  const DocumentRoutes: seq<Layer> := [
    Use(Authenticate),
    Route(Get, [], [], GetAllDocuments),
    Route(Get, [Param("id")], [], GetDocument),
    Route(Get, [Param("id"), Lit("download")], [], DownloadDocument),
    Route(Post, [], [SingleFile("file"), MulterErrors, ValidateBody(Validator.DocumentSchema)], UploadDocument),
    Route(Patch, [Param("id")], [ValidateBody(Validator.DocumentSchema)], UpdateDocument),
    Route(Delete, [Param("id")], [], DeleteDocument)
  ]

  /** The handlers declared after `router.use(checkRole(['admin']))`. */
  const AdminHandlers: set<Handler> := {GetAllUsers, CreateUser, GetUser, UpdateUser, DeleteUser}

  /** The handlers any authenticated user may reach. */
  const SelfHandlers: set<Handler> := {GetProfile, UpdateProfile, ChangePassword}

  predicate MatchSegment(seg: Segment, part: string) {
    match seg
    case Lit(t) => part == t
    case Param(_) => part != ""
  }

  /** Segment by segment, the path fits the pattern. */
  predicate MatchPath(pattern: seq<Segment>, path: seq<string>) {
    && |pattern| == |path|
    && (|pattern| == 0 || (MatchSegment(pattern[0], path[0]) && MatchPath(pattern[1..], path[1..])))
  }

  /** A route line that answers this method and path. */
  predicate Matching(l: Layer, m: Method, path: seq<string>) {
    l.Route? && l.verb == m && MatchPath(l.pattern, path)
  }

  /** The `use` middlewares of some lines, in order. */
  function UseStages(ls: seq<Layer>): seq<Stage> {
    if |ls| == 0 then []
    else (if ls[0].Use? then [ls[0].stage] else []) + UseStages(ls[1..])
  }

  /** The first line that answers, `|layers|` when none does. */
  function FirstIndex(layers: seq<Layer>, m: Method, path: seq<string>): (i: nat)
    ensures i <= |layers|
    ensures i < |layers| ==> Matching(layers[i], m, path)
    ensures forall j :: 0 <= j < i ==> !Matching(layers[j], m, path)
  {
    if |layers| == 0 then 0
    else if Matching(layers[0], m, path) then 0
    else
      var i' := FirstIndex(layers[1..], m, path);
      assert forall j :: 1 <= j <= i' ==> layers[j] == layers[1..][j - 1];
      1 + i'
  }

  /** A line that answers, with none answering above it, is the first. */
  lemma FirstIndexAt(layers: seq<Layer>, m: Method, path: seq<string>, i: nat)
    requires i < |layers| && Matching(layers[i], m, path)
    requires forall j :: 0 <= j < i ==> !Matching(layers[j], m, path)
    ensures FirstIndex(layers, m, path) == i
  {
  }

  /** What one router does with a request: the `use` middlewares met before
      the first route that matches method and path, then that route's own
      middlewares and its handler; with no matching route, every `use`
      middleware and no handler. */
  datatype Resolution = Resolution(stages: seq<Stage>, handler: Option<Handler>)

  function Resolve(layers: seq<Layer>, m: Method, path: seq<string>): (r: Resolution)
    ensures r.handler.None? ==> r.stages == UseStages(layers)
  {
    if |layers| == 0 then Resolution([], None)
    else
      var rest := Resolve(layers[1..], m, path);
      match layers[0]
      case Use(s) => Resolution([s] + rest.stages, rest.handler)
      case Route(m', pattern, stages, h) =>
        if m' == m && MatchPath(pattern, path) then Resolution(stages, Some(h)) else rest
  }

  /** `UseStages` of a line in front of others. */
  lemma UseStagesCons(l: Layer, ls: seq<Layer>)
    ensures UseStages([l] + ls) == (if l.Use? then [l.stage] else []) + UseStages(ls)
  {
    assert ([l] + ls)[0] == l;
    assert ([l] + ls)[1..] == ls;
  }

  /** The resolution, stated through the first line that answers: its
      handler, after the `use` middlewares above it and its own; with no
      line answering, every `use` middleware and no handler. */
  lemma {:induction false} ResolveAtFirstIndex(layers: seq<Layer>, m: Method, path: seq<string>)
    ensures var i := FirstIndex(layers, m, path);
      i < |layers| ==> Resolve(layers, m, path) == Resolution(UseStages(layers[..i]) + layers[i].stages, Some(layers[i].handler))
    ensures FirstIndex(layers, m, path) == |layers| ==> Resolve(layers, m, path) == Resolution(UseStages(layers), None)
  {
    if |layers| > 0 {
      ResolveAtFirstIndex(layers[1..], m, path);
      if Matching(layers[0], m, path) {
        assert layers[..0] == [];
        assert UseStages(layers[..0]) + layers[0].stages == layers[0].stages;
      } else {
        ResolveBeyondFirstLine(layers, m, path);
      }
    }
  }

  /** `ResolveAtFirstIndex`'s statement. */
  predicate ResolvedAtFirstIndex(layers: seq<Layer>, m: Method, path: seq<string>) {
    var i := FirstIndex(layers, m, path);
    if i < |layers| then Resolve(layers, m, path) == Resolution(UseStages(layers[..i]) + layers[i].stages, Some(layers[i].handler))
    else Resolve(layers, m, path) == Resolution(UseStages(layers), None)
  }

  /** The step of `ResolveAtFirstIndex` past a first line that does not
      answer. */
  lemma ResolveBeyondFirstLine(layers: seq<Layer>, m: Method, path: seq<string>)
    requires |layers| > 0 && !Matching(layers[0], m, path)
    requires ResolvedAtFirstIndex(layers[1..], m, path)
    ensures ResolvedAtFirstIndex(layers, m, path)
  {
    var tail := layers[1..];
    var i' := FirstIndex(tail, m, path);
    SkipLine(layers, m, path);
    if i' < |tail| {
      UseStagesOfPrefix(layers, i');
      assert layers[i' + 1] == tail[i'];
      var front, above, own := UseOf(layers[0]), UseStages(tail[..i']), tail[i'].stages;
      assert (front + above) + own == front + (above + own);
    } else {
      assert layers == [layers[0]] + tail;
      UseStagesCons(layers[0], tail);
    }
  }

  /** The `use` middleware of a line, if it is one. */
  function UseOf(l: Layer): seq<Stage> {
    if l.Use? then [l.stage] else []
  }

  /** A first line that does not answer: the router goes on with the
      others, keeping the line's `use` middleware. */
  lemma SkipLine(layers: seq<Layer>, m: Method, path: seq<string>)
    requires |layers| > 0 && !Matching(layers[0], m, path)
    ensures FirstIndex(layers, m, path) == FirstIndex(layers[1..], m, path) + 1
    ensures Resolve(layers, m, path)
         == Resolution(UseOf(layers[0]) + Resolve(layers[1..], m, path).stages, Resolve(layers[1..], m, path).handler)
  {
  }

  /** The `use` middlewares of the first `i + 1` lines. */
  lemma UseStagesOfPrefix(layers: seq<Layer>, i: nat)
    requires i < |layers|
    ensures UseStages(layers[..i + 1]) == UseOf(layers[0]) + UseStages(layers[1..][..i])
  {
    assert layers[..i + 1] == [layers[0]] + layers[1..][..i];
    UseStagesCons(layers[0], layers[1..][..i]);
  }

  /** Every middleware a request meets is a `use` line of the router or one
      of the matching route's own. */
  lemma {:induction false} ResolveStagesFrom(layers: seq<Layer>, m: Method, path: seq<string>)
    ensures forall s :: s in Resolve(layers, m, path).stages ==>
      || (exists j :: 0 <= j < |layers| && layers[j] == Use(s))
      || (exists j :: 0 <= j < |layers| && Matching(layers[j], m, path) && s in layers[j].stages)
  {
    if |layers| > 0 {
      var tail := layers[1..];
      ResolveStagesFrom(tail, m, path);
      assert forall j :: 1 <= j < |layers| ==> layers[j] == tail[j - 1];
      forall s | s in Resolve(layers, m, path).stages
        ensures || (exists j :: 0 <= j < |layers| && layers[j] == Use(s))
                || (exists j :: 0 <= j < |layers| && Matching(layers[j], m, path) && s in layers[j].stages)
      {
        if layers[0] == Use(s) {
        } else if Matching(layers[0], m, path) {
          assert s in layers[0].stages;
        } else {
          assert s in Resolve(tail, m, path).stages;
          if j :| 0 <= j < |tail| && tail[j] == Use(s) {
            assert layers[j + 1] == Use(s);
          } else {
            var j :| 0 <= j < |tail| && Matching(tail[j], m, path) && s in tail[j].stages;
            assert layers[j + 1] == tail[j];
          }
        }
      }
    }
  }

  /** `UseStages` of a concatenation. */
  lemma {:induction false} UseStagesAppend(a: seq<Layer>, b: seq<Layer>)
    ensures UseStages(a + b) == UseStages(a) + UseStages(b)
  {
    if |a| > 0 {
      assert (a + b)[0] == a[0];
      assert (a + b)[1..] == a[1..] + b;
      UseStagesAppend(a[1..], b);
    } else {
      assert a + b == b;
    }
  }

  /** Lines that are all routes contribute no `use` middleware. */
  lemma {:induction false} UseStagesOfRoutes(ls: seq<Layer>)
    requires forall i :: 0 <= i < |ls| ==> ls[i].Route?
    ensures UseStages(ls) == []
  {
    if |ls| > 0 {
      UseStagesOfRoutes(ls[1..]);
    }
  }

  /** The `use` middlewares above line `i`, when all lines from `k` to `i`
      are routes. */
  lemma UseStagesUpTo(ls: seq<Layer>, k: nat, i: nat)
    requires k <= i <= |ls|
    requires forall j :: k <= j < i ==> ls[j].Route?
    ensures UseStages(ls[..i]) == UseStages(ls[..k])
  {
    assert ls[..i] == ls[..k] + ls[k..i];
    UseStagesAppend(ls[..k], ls[k..i]);
    UseStagesOfRoutes(ls[k..i]);
  }

  /** When no `use` line stands between line `k` and the first line that
      answers, the request meets the `use` middlewares above `k`, then the
      route's own. */
  lemma StagesBelow(layers: seq<Layer>, m: Method, path: seq<string>, k: nat, above: seq<Stage>)
    requires k <= FirstIndex(layers, m, path) < |layers|
    requires UseStages(layers[..k]) == above
    requires forall j :: k <= j < FirstIndex(layers, m, path) ==> layers[j].Route?
    ensures var i := FirstIndex(layers, m, path);
      Resolve(layers, m, path) == Resolution(above + layers[i].stages, Some(layers[i].handler))
  {
    ResolveAtFirstIndex(layers, m, path);
    UseStagesUpTo(layers, k, FirstIndex(layers, m, path));
  }

  /** The handler reached is the first answering line's; with none, there
      is none. */
  lemma ResolvedHandler(layers: seq<Layer>, m: Method, path: seq<string>)
    ensures var i := FirstIndex(layers, m, path);
      Resolve(layers, m, path).handler == if i < |layers| then Some(layers[i].handler) else None
  {
    ResolveAtFirstIndex(layers, m, path);
  }

  /** The router `server.js` mounts at a path, and the rest of the path. */
  function Mount(path: seq<string>): (r: Option<(seq<Layer>, seq<string>)>)
    ensures r.Some? <==> |path| >= 2 && path[0] == "api" && (path[1] == "users" || path[1] == "documents")
    ensures r.Some? ==> r.value.1 == path[2..] && r.value.0 == if path[1] == "users" then UserRoutes else DocumentRoutes
  {
    if |path| >= 2 && path[0] == "api" && path[1] == "users" then Some((UserRoutes, path[2..]))
    else if |path| >= 2 && path[0] == "api" && path[1] == "documents" then Some((DocumentRoutes, path[2..]))
    else None
  }

  /** Everything a request brings to the middlewares, and what they depend
      on: the user table and the clock for `auth`, the token verifier, the
      body for the validator, the file part and the storage settings for
      multer. */
  datatype Context = Context(
    users: Users,
    header: Option<string>,
    verify: string -> Option<Id>,
    now: nat,
    req: Validator.Request,
    isEmail: string -> bool,
    part: Option<Upload.Incoming>,
    limit: Option<int>,
    maxFileSize: string,
    dir: string,
    rand: nat)

  /** How a request ends: in a handler with `req.user` and `req.file`; with
      an answer a middleware sends itself; with an error for the error
      handler; or in the catch-all 404 of `server.js`. */
  datatype Outcome =
    | Handled(handler: Handler, user: Option<UserView>, file: Upload.Received)
    | Answered(status: nat, message: string)
    | Failed(failure: Failure)
    | NoRoute

  /** One middleware: on to the next with `req.user` and `req.file`, or an
      end of the request. */
  datatype StepResult = Go(user: Option<UserView>, file: Upload.Received) | Stop(outcome: Outcome)

  /** One middleware. An error skips ordinary middlewares up to the next
      error middleware: `handleMulterError` when the later stages hold it,
      else the application's error handler. */
  function Step(s: Stage, later: seq<Stage>, c: Context, user: Option<UserView>, file: Upload.Received): (r: StepResult)
    ensures r.Stop? ==> !r.outcome.Handled? && !r.outcome.NoRoute?
    ensures s == Authenticate ==> (r.Go? <==> Auth.Authenticate(c.users, c.header, c.verify, c.now).Pass?)
    ensures s == Authenticate && r.Go? ==> r.user == Some(Auth.Authenticate(c.users, c.header, c.verify, c.now).user)
    ensures s != Authenticate && r.Go? ==> r.user == user
    ensures s.RequireRole? ==> (r.Go? <==> user.Some? && user.value.role in s.roles)
    ensures s.ValidateBody? ==> (r.Go? <==> Validator.Validate(s.schema, c.req, c.isEmail) == Validator.Next)
    ensures !s.SingleFile? && r.Go? ==> r.file == file
    ensures s.MulterErrors? ==> r.Go?
  {
    match s
    case Authenticate =>
      (match Auth.Authenticate(c.users, c.header, c.verify, c.now)
       case Deny(status, message) => Stop(Answered(status, message))
       case Pass(u, _, _) => Go(Some(u), file))
    case RequireRole(roles) =>
      if user.None? then Stop(Failed(Thrown("TypeError")))
      else
        (match Auth.CheckRole(roles, user.value)
         case Respond(status, message) => Stop(Answered(status, message))
         case Continue => Go(user, file))
    case ValidateBody(schema) =>
      (match Validator.Validate(schema, c.req, c.isEmail)
       case NextWith(f) => Stop(Failed(f))
       case Next => Go(user, file))
    case SingleFile(field) =>
      (match Upload.Single(field, c.part, c.limit, c.dir, c.now, c.rand)
       case Rejected(e) =>
         if MulterErrors in later then Stop(Failed(Upload.HandleMulterError(e, c.maxFileSize)))
         else Stop(Failed(match e case MulterError(_, _) => Thrown("MulterError") case FilterError(f) => f))
       case received => Go(user, received))
    case MulterErrors => Go(user, file)
  }

  /** Runs the middlewares in order, then the handler, if any. A request
      ends in a handler only when the router resolved one, and falls
      through to the catch-all only when it resolved none. */
  function Run(stages: seq<Stage>, handler: Option<Handler>, c: Context, user: Option<UserView>, file: Upload.Received): (o: Outcome)
    ensures o.Handled? ==> handler == Some(o.handler)
    ensures o.NoRoute? ==> handler.None?
    decreases |stages|
  {
    if |stages| == 0 then
      match handler
      case Some(h) => Handled(h, user, file)
      case None => NoRoute
    else
      match Step(stages[0], stages[1..], c, user, file)
      case Stop(o) => o
      case Go(u, f) => Run(stages[1..], handler, c, u, f)
  }

  /** A request to the application. Paths outside the two routers go to the
      catch-all. */
  function Dispatch(m: Method, path: seq<string>, c: Context): (o: Outcome)
    ensures Mount(path).None? ==> o == NoRoute
    ensures o.Handled? ==> Mount(path).Some?
  {
    match Mount(path)
    case None => NoRoute
    case Some((layers, rest)) =>
      var res := Resolve(layers, m, rest);
      Run(res.stages, res.handler, c, None, Upload.NoFile)
  }

  /** A handler is reached only if the mounted router resolved it for the
      rest of the path. */
  lemma DispatchReachesResolved(m: Method, path: seq<string>, c: Context)
    ensures var o := Dispatch(m, path, c);
      o.Handled? ==> Resolve(Mount(path).value.0, m, Mount(path).value.1).handler == Some(o.handler)
  {
  }

  /** With no `Authenticate` among the stages, the handler sees the user
      the stages started with. */
  lemma {:induction false} RunKeepsUser(stages: seq<Stage>, handler: Option<Handler>, c: Context,
                                        user: Option<UserView>, file: Upload.Received)
    requires Authenticate !in stages
    ensures Run(stages, handler, c, user, file).Handled? ==> Run(stages, handler, c, user, file).user == user
    decreases |stages|
  {
    if |stages| > 0 {
      match Step(stages[0], stages[1..], c, user, file) {
        case Stop(_) =>
        case Go(u, f) => RunKeepsUser(stages[1..], handler, c, u, f);
      }
    }
  }

  /** Stages that open with `auth` then a role guard let through only an
      active user of one of the roles, and hand that user to the handler
      when `auth` does not run again. */
  lemma GuardedRun(stages: seq<Stage>, roles: seq<Role>, handler: Option<Handler>, c: Context, file: Upload.Received)
    requires |stages| >= 2 && stages[0] == Authenticate && stages[1] == RequireRole(roles)
    ensures var a := Auth.Authenticate(c.users, c.header, c.verify, c.now);
      Run(stages, handler, c, None, file).Handled? ==> a.Pass? && a.user.role in roles
    ensures var a := Auth.Authenticate(c.users, c.header, c.verify, c.now);
      Run(stages, handler, c, None, file).Handled? && Authenticate !in stages[1..] ==>
        Run(stages, handler, c, None, file).user == Some(a.user)
  {
    var a := Auth.Authenticate(c.users, c.header, c.verify, c.now);
    var s0 := Step(stages[0], stages[1..], c, None, file);
    if s0.Go? {
      var rest := stages[1..];
      assert Run(stages, handler, c, None, file) == Run(rest, handler, c, s0.user, s0.file);
      assert rest[0] == RequireRole(roles);
      var s1 := Step(rest[0], rest[1..], c, s0.user, s0.file);
      if s1.Go? && Authenticate !in stages[1..] {
        RunKeepsUser(rest, handler, c, s0.user, s0.file);
      }
    }
  }

  /** Stages that open with `auth` let through only an active user, who is
      `req.user` when `auth` does not run again. */
  lemma AuthenticatedRun(stages: seq<Stage>, handler: Option<Handler>, c: Context, file: Upload.Received)
    requires |stages| >= 1 && stages[0] == Authenticate && Authenticate !in stages[1..]
    ensures var a := Auth.Authenticate(c.users, c.header, c.verify, c.now);
      Run(stages, handler, c, None, file).Handled? ==>
        a.Pass? && Run(stages, handler, c, None, file).user == Some(a.user)
  {
    var s0 := Step(stages[0], stages[1..], c, None, file);
    if s0.Go? {
      RunKeepsUser(stages[1..], handler, c, s0.user, s0.file);
    }
  }

  /** `auth` is the only `use` middleware above the profile routes. */
  lemma UsesAboveProfile()
    ensures UseStages(UserRoutes[..2]) == [Authenticate]
  {
    assert UserRoutes[..2] == [UserRoutes[0]] + [UserRoutes[1]];
    UseStagesAppend([UserRoutes[0]], [UserRoutes[1]]);
  }

  /** `auth` and the role guard are the `use` middlewares above the
      administrators' routes, and below them there are no others. */
  lemma UsesAboveAdmin()
    ensures UseStages(UserRoutes[..6]) == [Authenticate, RequireRole([Admin])]
  {
    UsesAboveProfile();
    assert UserRoutes[..6] == UserRoutes[..2] + UserRoutes[2..5] + [UserRoutes[5]];
    UseStagesAppend(UserRoutes[..2] + UserRoutes[2..5], [UserRoutes[5]]);
    UseStagesAppend(UserRoutes[..2], UserRoutes[2..5]);
    UseStagesOfRoutes(UserRoutes[2..5]);
  }

  /** The user router's `use` middlewares, all of them. */
  lemma UserRouterUses()
    ensures UseStages(UserRoutes) == [Authenticate, RequireRole([Admin])]
  {
    UsesAboveAdmin();
    assert UserRoutes == UserRoutes[..6] + UserRoutes[6..];
    UseStagesAppend(UserRoutes[..6], UserRoutes[6..]);
    UseStagesOfRoutes(UserRoutes[6..]);
  }

  /** The document router's only `use` middleware is `auth`, on its first
      line. */
  lemma DocumentRouterLayers()
    ensures UseStages(DocumentRoutes[..1]) == [Authenticate]
    ensures UseStages(DocumentRoutes) == [Authenticate]
  {
    UseThenRoutes(DocumentRoutes);
  }

  /** A router whose first line is its only `use` line. */
  lemma UseThenRoutes(ls: seq<Layer>)
    requires |ls| > 0 && ls[0].Use? && forall i :: 1 <= i < |ls| ==> ls[i].Route?
    ensures UseStages(ls[..1]) == [ls[0].stage]
    ensures UseStages(ls) == [ls[0].stage]
  {
    var tail := ls[1..];
    assert forall i :: 0 <= i < |tail| ==> tail[i] == ls[i + 1];
    UseStagesOfRoutes(tail);
    assert ls == [ls[0]] + tail;
    UseStagesCons(ls[0], tail);
    assert ls[..1] == [ls[0]] + [];
    UseStagesCons(ls[0], []);
  }

  /** The administrators' handlers stand below the role guard. */
  lemma AdminBelowGuard(i: nat)
    requires i < |UserRoutes| && UserRoutes[i].Route? && UserRoutes[i].handler in AdminHandlers
    ensures 6 <= i
  {
  }

  /** The profile and password handlers stand between `auth` and the role
      guard. */
  lemma SelfBetweenGuards(i: nat)
    requires i < |UserRoutes| && UserRoutes[i].Route? && UserRoutes[i].handler in SelfHandlers
    ensures 2 <= i <= 4
  {
  }

  /** No user route runs `auth` or a role guard of its own. */
  lemma UserRouteOwnStages(i: nat)
    requires i < |UserRoutes| && UserRoutes[i].Route?
    ensures Authenticate !in UserRoutes[i].stages
    ensures forall s :: s in UserRoutes[i].stages ==> !s.RequireRole?
  {
  }

  /** The user router's reads and deletions have no middleware of their own. */
  lemma UserReadsBare(i: nat)
    requires i < |UserRoutes| && UserRoutes[i].Route? && (UserRoutes[i].verb == Get || UserRoutes[i].verb == Delete)
    ensures UserRoutes[i].stages == []
  {
  }

  /** What the document routes' own middlewares are. */
  lemma DocumentRouteFacts(i: nat)
    requires 1 <= i < |DocumentRoutes|
    ensures DocumentRoutes[i].Route?
    ensures Authenticate !in DocumentRoutes[i].stages
    ensures forall s :: s in DocumentRoutes[i].stages ==> !s.RequireRole?
    ensures DocumentRoutes[i].verb == Get || DocumentRoutes[i].verb == Delete ==> DocumentRoutes[i].stages == []
  {
  }

  /** `POST /login` runs only `loginSchema`: no token is asked for. */
  lemma LoginIsPublic(c: Context)
    ensures Resolve(UserRoutes, Post, ["login"]) == Resolution([ValidateBody(Validator.LoginSchema)], Some(Login))
    ensures Validator.Validate(Validator.LoginSchema, c.req, c.isEmail) == Validator.Next ==>
              Dispatch(Post, ["api", "users", "login"], c) == Handled(Login, None, Upload.NoFile)
  {
    assert Matching(UserRoutes[0], Post, ["login"]);
    assert UserRoutes[..0] == [];
    StagesBelow(UserRoutes, Post, ["login"], 0, []);
    assert ["api", "users", "login"][2..] == ["login"];
  }

  /** `/profile` is declared before `/:id`: `GET /profile` reaches
      `getProfile` behind `auth` alone, while any other single segment
      reaches the administrators' `getUser`. */
  lemma ProfileBeforeId(id: string)
    requires id != "" && id != "profile"
    ensures Resolve(UserRoutes, Get, ["profile"]) == Resolution([Authenticate], Some(GetProfile))
    ensures Resolve(UserRoutes, Get, [id]) == Resolution([Authenticate, RequireRole([Admin])], Some(GetUser))
  {
    UsesAboveProfile();
    UsesAboveAdmin();
    FirstIndexAt(UserRoutes, Get, ["profile"], 2);
    StagesBelow(UserRoutes, Get, ["profile"], 2, [Authenticate]);
    FirstIndexAt(UserRoutes, Get, [id], 8);
    StagesBelow(UserRoutes, Get, [id], 6, [Authenticate, RequireRole([Admin])]);
  }

  /** `POST /` creates a user behind `auth`, the administrators' guard and
      `createUserSchema`. */
  lemma CreateUserPipeline()
    ensures Resolve(UserRoutes, Post, []) ==
      Resolution([Authenticate, RequireRole([Admin]), ValidateBody(Validator.CreateUserSchema)], Some(CreateUser))
  {
    UsesAboveAdmin();
    FirstIndexAt(UserRoutes, Post, [], 7);
    StagesBelow(UserRoutes, Post, [], 6, [Authenticate, RequireRole([Admin])]);
  }

  /** Below the role guard, the request meets `auth`, the guard, and the
      route's own middlewares. */
  lemma BelowRoleGuard(m: Method, path: seq<string>)
    ensures var i := FirstIndex(UserRoutes, m, path);
      6 <= i < |UserRoutes| ==>
        && Resolve(UserRoutes, m, path).stages == [Authenticate, RequireRole([Admin])] + UserRoutes[i].stages
        && Authenticate !in Resolve(UserRoutes, m, path).stages[1..]
  {
    var i := FirstIndex(UserRoutes, m, path);
    if 6 <= i < |UserRoutes| {
      UsesAboveAdmin();
      LinesBelowGuardAreRoutes();
      StagesBelow(UserRoutes, m, path, 6, [Authenticate, RequireRole([Admin])]);
      UserRouteOwnStages(i);
      GuardThenOwn(Resolve(UserRoutes, m, path).stages, UserRoutes[i].stages);
    }
  }

  /** Every line below the role guard is a route. */
  lemma LinesBelowGuardAreRoutes()
    ensures forall j :: 6 <= j < |UserRoutes| ==> UserRoutes[j].Route?
  {
  }

  /** `auth`, the role guard, then stages without `auth`: `auth` runs once. */
  lemma GuardThenOwn(stages: seq<Stage>, own: seq<Stage>)
    requires stages == [Authenticate, RequireRole([Admin])] + own
    requires Authenticate !in own
    ensures Authenticate !in stages[1..]
  {
    assert stages[1..] == [RequireRole([Admin])] + own;
  }

  /** Every route after the role guard is behind `auth` and then the
      administrators' role, and `auth` runs once. */
  lemma AdminRoutesGuarded(m: Method, path: seq<string>)
    ensures var r := Resolve(UserRoutes, m, path);
      r.handler.Some? && r.handler.value in AdminHandlers ==>
        && |r.stages| >= 2 && r.stages[0] == Authenticate && r.stages[1] == RequireRole([Admin])
        && Authenticate !in r.stages[1..]
  {
    var i := FirstIndex(UserRoutes, m, path);
    ResolvedHandler(UserRoutes, m, path);
    BelowRoleGuard(m, path);
    if i < |UserRoutes| && UserRoutes[i].handler in AdminHandlers {
      AdminBelowGuard(i);
    }
  }

  /** The profile and password routes are behind `auth` and no role. */
  lemma SelfRoutesAnyRole(m: Method, path: seq<string>)
    ensures var r := Resolve(UserRoutes, m, path);
      r.handler.Some? && r.handler.value in SelfHandlers ==>
        && |r.stages| >= 1 && r.stages[0] == Authenticate
        && Authenticate !in r.stages[1..]
        && forall s :: s in r.stages ==> !s.RequireRole?
  {
    var i := FirstIndex(UserRoutes, m, path);
    ResolvedHandler(UserRoutes, m, path);
    if i < |UserRoutes| && UserRoutes[i].handler in SelfHandlers {
      SelfBetweenGuards(i);
      UserRouteOwnStages(i);
      UsesAboveProfile();
      StagesBelow(UserRoutes, m, path, 2, [Authenticate]);
      var own := UserRoutes[i].stages;
      assert Resolve(UserRoutes, m, path).stages[1..] == own;
    }
  }

  /** End to end: a request that reaches an administrators' handler carries
      a token of an active administrator, who is `req.user`. */
  lemma AdminHandlersNeedAdmin(m: Method, rest: seq<string>, c: Context)
    ensures var o := Dispatch(m, ["api", "users"] + rest, c);
      var a := Auth.Authenticate(c.users, c.header, c.verify, c.now);
      o.Handled? && o.handler in AdminHandlers ==> a.Pass? && a.user.role == Admin && o.user == Some(a.user)
  {
    assert (["api", "users"] + rest)[2..] == rest;
    var r := Resolve(UserRoutes, m, rest);
    var o := Run(r.stages, r.handler, c, None, Upload.NoFile);
    if o.Handled? && o.handler in AdminHandlers {
      AdminRoutesGuarded(m, rest);
      GuardedRun(r.stages, [Admin], r.handler, c, Upload.NoFile);
    }
  }

  /** End to end: the profile and password handlers get the authenticated
      user as `req.user`, whatever the role. */
  lemma SelfHandlersNeedToken(m: Method, rest: seq<string>, c: Context)
    ensures var o := Dispatch(m, ["api", "users"] + rest, c);
      var a := Auth.Authenticate(c.users, c.header, c.verify, c.now);
      o.Handled? && o.handler in SelfHandlers ==> a.Pass? && o.user == Some(a.user)
  {
    assert (["api", "users"] + rest)[2..] == rest;
    var r := Resolve(UserRoutes, m, rest);
    SelfRoutesAnyRole(m, rest);
    if r.handler.Some? && r.handler.value in SelfHandlers {
      AuthenticatedRun(r.stages, r.handler, c, Upload.NoFile);
    }
  }

  /** Every request under `/api/documents`, matched or not, meets `auth`
      first and once, and no document route checks a role: the permissions
      are the controller's. */
  lemma DocumentRoutesGuarded(m: Method, path: seq<string>)
    ensures var r := Resolve(DocumentRoutes, m, path);
      && |r.stages| >= 1 && r.stages[0] == Authenticate
      && Authenticate !in r.stages[1..]
      && forall s :: s in r.stages ==> !s.RequireRole?
  {
    var i := FirstIndex(DocumentRoutes, m, path);
    ResolveAtFirstIndex(DocumentRoutes, m, path);
    DocumentRouterLayers();
    assert !Matching(DocumentRoutes[0], m, path);
    if i < |DocumentRoutes| {
      DocumentRouteFacts(i);
      StagesBelow(DocumentRoutes, m, path, 1, [Authenticate]);
      var own := DocumentRoutes[i].stages;
      assert Resolve(DocumentRoutes, m, path).stages[1..] == own;
    }
  }

  /** End to end: a document handler is reached only with a token of an
      active user, who is `req.user`. */
  lemma DocumentHandlersNeedToken(m: Method, rest: seq<string>, c: Context)
    ensures var o := Dispatch(m, ["api", "documents"] + rest, c);
      var a := Auth.Authenticate(c.users, c.header, c.verify, c.now);
      o.Handled? ==> a.Pass? && o.user == Some(a.user)
  {
    assert (["api", "documents"] + rest)[2..] == rest;
    var r := Resolve(DocumentRoutes, m, rest);
    DocumentRoutesGuarded(m, rest);
    AuthenticatedRun(r.stages, r.handler, c, Upload.NoFile);
  }

  /** `POST /` stores the file, translates multer's errors, validates the
      body, in that order; `PATCH /:id` asks the whole `documentSchema`,
      title and type included. */
  lemma DocumentWritePipelines(id: string)
    requires id != ""
    ensures Resolve(DocumentRoutes, Post, []) ==
      Resolution([Authenticate, SingleFile("file"), MulterErrors, ValidateBody(Validator.DocumentSchema)], Some(UploadDocument))
    ensures Resolve(DocumentRoutes, Patch, [id]) ==
      Resolution([Authenticate, ValidateBody(Validator.DocumentSchema)], Some(UpdateDocument))
  {
    UploadRoute();
    DocumentRouterLayers();
    FirstIndexAt(DocumentRoutes, Patch, [id], 5);
    StagesBelow(DocumentRoutes, Patch, [id], 1, [Authenticate]);
  }

  /** `POST /` on the document router. */
  lemma UploadRoute()
    ensures Resolve(DocumentRoutes, Post, []) ==
      Resolution([Authenticate, SingleFile("file"), MulterErrors, ValidateBody(Validator.DocumentSchema)], Some(UploadDocument))
  {
    DocumentRouterLayers();
    FirstIndexAt(DocumentRoutes, Post, [], 4);
    StagesBelow(DocumentRoutes, Post, [], 1, [Authenticate]);
  }

  /** A request under `/api/documents` goes through the document router. */
  lemma DispatchDocuments(m: Method, rest: seq<string>, c: Context)
    ensures var r := Resolve(DocumentRoutes, m, rest);
      Dispatch(m, ["api", "documents"] + rest, c) == Run(r.stages, r.handler, c, None, Upload.NoFile)
  {
    assert (["api", "documents"] + rest)[2..] == rest;
  }

  /** A middleware that lets the request through hands it on to the rest. */
  lemma RunGoes(stages: seq<Stage>, handler: Option<Handler>, c: Context, user: Option<UserView>, file: Upload.Received)
    requires |stages| > 0 && Step(stages[0], stages[1..], c, user, file).Go?
    ensures var g := Step(stages[0], stages[1..], c, user, file);
      Run(stages, handler, c, user, file) == Run(stages[1..], handler, c, g.user, g.file)
  {
  }

  /** `auth` lets an active user's request through, with that user. */
  lemma AuthenticateGoes(rest: seq<Stage>, handler: Option<Handler>, c: Context, file: Upload.Received)
    requires Auth.Authenticate(c.users, c.header, c.verify, c.now).Pass?
    ensures Run([Authenticate] + rest, handler, c, None, file)
         == Run(rest, handler, c, Some(Auth.Authenticate(c.users, c.header, c.verify, c.now).user), file)
  {
    assert ([Authenticate] + rest)[1..] == rest;
  }

  /** `upload.single(field)` lets a request with an accepted file through,
      with that file. */
  lemma SingleFileGoes(field: string, rest: seq<Stage>, handler: Option<Handler>, c: Context, user: Option<UserView>)
    requires Upload.Single(field, c.part, c.limit, c.dir, c.now, c.rand).Stored?
    ensures Run([SingleFile(field)] + rest, handler, c, user, Upload.NoFile)
         == Run(rest, handler, c, user, Upload.Single(field, c.part, c.limit, c.dir, c.now, c.rand))
  {
    assert ([SingleFile(field)] + rest)[1..] == rest;
  }

  /** `validate(schema)` lets a valid body through. */
  lemma ValidateGoes(schema: Validator.Schema, rest: seq<Stage>, handler: Option<Handler>, c: Context,
                     user: Option<UserView>, file: Upload.Received)
    requires Validator.Validate(schema, c.req, c.isEmail) == Validator.Next
    ensures Run([ValidateBody(schema)] + rest, handler, c, user, file) == Run(rest, handler, c, user, file)
  {
    assert ([ValidateBody(schema)] + rest)[1..] == rest;
  }

  /** `handleMulterError` passes a request that raised nothing along. */
  lemma MulterErrorsGoes(rest: seq<Stage>, handler: Option<Handler>, c: Context,
                         user: Option<UserView>, file: Upload.Received)
    ensures Run([MulterErrors] + rest, handler, c, user, file) == Run(rest, handler, c, user, file)
  {
    assert ([MulterErrors] + rest)[1..] == rest;
  }

  /** The upload pipeline of `POST /` lets an active user with an accepted
      file and a valid body through to the handler, with that user and that
      file. */
  lemma UploadPipelineRuns(c: Context)
    requires Auth.Authenticate(c.users, c.header, c.verify, c.now).Pass?
    requires Upload.Single("file", c.part, c.limit, c.dir, c.now, c.rand).Stored?
    requires Validator.Validate(Validator.DocumentSchema, c.req, c.isEmail) == Validator.Next
    ensures Run([Authenticate, SingleFile("file"), MulterErrors, ValidateBody(Validator.DocumentSchema)], Some(UploadDocument), c, None, Upload.NoFile)
         == Handled(UploadDocument, Some(Auth.Authenticate(c.users, c.header, c.verify, c.now).user),
                    Upload.Single("file", c.part, c.limit, c.dir, c.now, c.rand))
  {
    FilePipelineRuns("file", Validator.DocumentSchema, UploadDocument, c);
  }

  /** `auth`, `upload.single(field)`, `handleMulterError`, `validate(schema)`
      in front of a handler, each letting the request through. */
  lemma FilePipelineRuns(field: string, schema: Validator.Schema, handler: Handler, c: Context)
    requires Auth.Authenticate(c.users, c.header, c.verify, c.now).Pass?
    requires Upload.Single(field, c.part, c.limit, c.dir, c.now, c.rand).Stored?
    requires Validator.Validate(schema, c.req, c.isEmail) == Validator.Next
    ensures Run([Authenticate, SingleFile(field), MulterErrors, ValidateBody(schema)], Some(handler), c, None, Upload.NoFile)
         == Handled(handler, Some(Auth.Authenticate(c.users, c.header, c.verify, c.now).user),
                    Upload.Single(field, c.part, c.limit, c.dir, c.now, c.rand))
  {
    var h := Some(handler);
    var u := Some(Auth.Authenticate(c.users, c.header, c.verify, c.now).user);
    var s2 := [MulterErrors, ValidateBody(schema)];
    var s1 := [SingleFile(field)] + s2;
    assert [Authenticate] + s1 == [Authenticate, SingleFile(field), MulterErrors, ValidateBody(schema)];
    AuthenticateGoes(s1, h, c, Upload.NoFile);
    SingleFileGoes(field, s2, h, c, u);
    PipelineTailRuns(schema, handler, c, u, Upload.Single(field, c.part, c.limit, c.dir, c.now, c.rand));
  }

  /** The last two stages of an upload pipeline let a valid body through. */
  lemma PipelineTailRuns(schema: Validator.Schema, handler: Handler, c: Context,
                         user: Option<UserView>, file: Upload.Received)
    requires Validator.Validate(schema, c.req, c.isEmail) == Validator.Next
    ensures Run([MulterErrors, ValidateBody(schema)], Some(handler), c, user, file) == Handled(handler, user, file)
  {
    var s3 := [ValidateBody(schema)];
    assert [MulterErrors, ValidateBody(schema)] == [MulterErrors] + s3;
    MulterErrorsGoes(s3, Some(handler), c, user, file);
    assert s3 == [ValidateBody(schema)] + [];
    ValidateGoes(schema, [], Some(handler), c, user, file);
  }

  /** Reads and deletions validate no body, on either router. */
  lemma ReadsAndDeletesUnvalidated(m: Method, path: seq<string>)
    requires m == Get || m == Delete
    ensures forall s :: s in Resolve(DocumentRoutes, m, path).stages ==> !s.ValidateBody?
    ensures forall s :: s in Resolve(UserRoutes, m, path).stages ==> !s.ValidateBody?
  {
    DocumentRoutesReadsUnvalidated(m, path);
    UserRoutesReadsUnvalidated(m, path);
  }

  lemma DocumentRoutesReadsUnvalidated(m: Method, path: seq<string>)
    requires m == Get || m == Delete
    ensures forall s :: s in Resolve(DocumentRoutes, m, path).stages ==> !s.ValidateBody?
  {
    ResolveStagesFrom(DocumentRoutes, m, path);
    forall s | s in Resolve(DocumentRoutes, m, path).stages ensures !s.ValidateBody? {
      if j :| 0 <= j < |DocumentRoutes| && DocumentRoutes[j] == Use(s) {
        assert j == 0;
      } else {
        var j :| 0 <= j < |DocumentRoutes| && Matching(DocumentRoutes[j], m, path) && s in DocumentRoutes[j].stages;
        DocumentRouteFacts(j);
      }
    }
  }

  lemma UserRoutesReadsUnvalidated(m: Method, path: seq<string>)
    requires m == Get || m == Delete
    ensures forall s :: s in Resolve(UserRoutes, m, path).stages ==> !s.ValidateBody?
  {
    ResolveStagesFrom(UserRoutes, m, path);
    forall s | s in Resolve(UserRoutes, m, path).stages ensures !s.ValidateBody? {
      if j :| 0 <= j < |UserRoutes| && UserRoutes[j] == Use(s) {
        UserUseLines(j);
      } else {
        var j :| 0 <= j < |UserRoutes| && Matching(UserRoutes[j], m, path) && s in UserRoutes[j].stages;
        UserReadsBare(j);
      }
    }
  }

  /** The user router's `use` lines are `auth` and the role guard. */
  lemma UserUseLines(j: nat)
    requires j < |UserRoutes| && UserRoutes[j].Use?
    ensures UserRoutes[j].stage == Authenticate || UserRoutes[j].stage == RequireRole([Admin])
  {
  }

  /** A path no document route declares still meets `auth` before the
      catch-all 404: without a token the answer is 401, with one it is 404. */
  lemma UnknownDocumentPath(m: Method, rest: seq<string>, c: Context)
    requires forall i :: 0 <= i < |DocumentRoutes| ==> !Matching(DocumentRoutes[i], m, rest)
    ensures c.header.None? ==> Dispatch(m, ["api", "documents"] + rest, c) == Answered(401, Auth.MissingHeader)
    ensures Auth.Authenticate(c.users, c.header, c.verify, c.now).Pass? ==> Dispatch(m, ["api", "documents"] + rest, c) == NoRoute
  {
    var path := ["api", "documents"] + rest;
    assert path[0] == "api" && path[1] == "documents" && path[2..] == rest;
    assert Mount(path) == Some((DocumentRoutes, rest));
    ResolveAtFirstIndex(DocumentRoutes, m, rest);
    DocumentRouterLayers();
    assert Resolve(DocumentRoutes, m, rest) == Resolution([Authenticate], None);
    var s0 := Step(Authenticate, [], c, None, Upload.NoFile);
    assert [Authenticate][1..] == [];
    assert Dispatch(m, path, c) == Run([Authenticate], None, c, None, Upload.NoFile);
    if s0.Go? {
      assert Run([Authenticate], None, c, None, Upload.NoFile) == Run([], None, c, s0.user, s0.file);
    }
  }
}

=== FILE: schedule.dfy ===
/** The `Schedule` model of backend/src/models/Schedule.js: its enums and
    defaults, its required columns, and the two model validators
    `timeOrder` and `dateOrder`. Times of day and calendar dates are
    numbers; they compare as the column values do when those are
    zero-padded and of fixed width. */
module Schedule {
  import opened Common

  /** `dayOfWeek`: Monday to Saturday, no Sunday. */
  datatype Day = Lundi | Mardi | Mercredi | Jeudi | Vendredi | Samedi

  const DayNames: seq<string> := ["lundi", "mardi", "mercredi", "jeudi", "vendredi", "samedi"]

  function DayName(d: Day): string {
    match d
    case Lundi => "lundi"
    case Mardi => "mardi"
    case Mercredi => "mercredi"
    case Jeudi => "jeudi"
    case Vendredi => "vendredi"
    case Samedi => "samedi"
  }

  function ParseDay(s: string): (r: Option<Day>)
    ensures r.Some? <==> s in DayNames
    ensures r.Some? ==> DayName(r.value) == s
  {
    if s == "lundi" then Some(Lundi)
    else if s == "mardi" then Some(Mardi)
    else if s == "mercredi" then Some(Mercredi)
    else if s == "jeudi" then Some(Jeudi)
    else if s == "vendredi" then Some(Vendredi)
    else if s == "samedi" then Some(Samedi)
    else None
  }

  /** Naming then parsing a day gives it back, and Sunday is not a day of
      the timetable. */
  lemma DayRoundTrip(d: Day)
    ensures DayName(d) in DayNames && ParseDay(DayName(d)) == Some(d)
    ensures ParseDay("dimanche") == None
  {
  }

  /** `recurrence`, default `weekly`. */
  datatype Recurrence = Weekly | Biweekly | Monthly | Once

  /** `status`, default `scheduled`. */
  datatype Status = Scheduled | Cancelled | Rescheduled

  /** The values `Schedule.create` receives; `None` is an absent or null
      column, and the enum columns are already read as their enums. */
  datatype ScheduleInput = ScheduleInput(
    courseId: Option<Id>,
    classId: Option<Id>,
    teacherId: Option<Id>,
    dayOfWeek: Option<Day>,
    startTime: Option<nat>,
    endTime: Option<nat>,
    room: Option<string>,
    recurrence: Option<Recurrence>,
    startDate: Option<nat>,
    endDate: Option<nat>,
    status: Option<Status>,
    notes: Option<string>)

  /** A stored schedule. */
  datatype ScheduleRow = ScheduleRow(
    courseId: Id,
    classId: Id,
    teacherId: Id,
    dayOfWeek: Day,
    startTime: nat,
    endTime: nat,
    room: Option<string>,
    recurrence: Recurrence,
    startDate: nat,
    endDate: nat,
    status: Status,
    notes: Option<string>)

  /** The messages of the two model validators. */
  const TimeOrderMessage: string := "L'heure de début doit être antérieure à l'heure de fin"
  const DateOrderMessage: string := "La date de début doit être antérieure ou égale à la date de fin"

  /** The `allowNull: false` columns, in declaration order, that are missing. */
  function MissingColumns(i: ScheduleInput): (r: seq<string>)
    ensures r == [] <==> && i.courseId.Some? && i.classId.Some? && i.teacherId.Some? && i.dayOfWeek.Some?
                         && i.startTime.Some? && i.endTime.Some? && i.startDate.Some? && i.endDate.Some?
  {
    (if i.courseId.None? then ["courseId"] else [])
    + (if i.classId.None? then ["classId"] else [])
    + (if i.teacherId.None? then ["teacherId"] else [])
    + (if i.dayOfWeek.None? then ["dayOfWeek"] else [])
    + (if i.startTime.None? then ["startTime"] else [])
    + (if i.endTime.None? then ["endTime"] else [])
    + (if i.startDate.None? then ["startDate"] else [])
    + (if i.endDate.None? then ["endDate"] else [])
  }

  /** An item of the `SequelizeValidationError`: a `notNull Violation` on a
      column, or the message a model validator threw. */
  datatype ErrorItem = NotNull(column: string) | ValidatorFailed(validator: string, message: string)

  /** The items of the validation: one not-null violation per missing
      column, then the model validators on the columns they compare. */
  function Errors(i: ScheduleInput): (r: seq<ErrorItem>)
    ensures forall c :: NotNull(c) in r <==> c in MissingColumns(i)
    ensures ValidatorFailed("timeOrder", TimeOrderMessage) in r <==>
              i.startTime.Some? && i.endTime.Some? && i.startTime.value >= i.endTime.value
    ensures ValidatorFailed("dateOrder", DateOrderMessage) in r <==>
              i.startDate.Some? && i.endDate.Some? && i.startDate.value > i.endDate.value
  {
    var missing := MissingColumns(i);
    var nulls := seq(|missing|, k requires 0 <= k < |missing| => NotNull(missing[k]));
    assert forall c :: NotNull(c) in nulls <==> c in missing by {
      forall c ensures NotNull(c) in nulls <==> c in missing {
        if c in missing {
          var k :| 0 <= k < |missing| && missing[k] == c;
          assert nulls[k] == NotNull(c);
        }
      }
    }
    nulls
    + (if i.startTime.Some? && i.endTime.Some? && i.startTime.value >= i.endTime.value
       then [ValidatorFailed("timeOrder", TimeOrderMessage)] else [])
    + (if i.startDate.Some? && i.endDate.Some? && i.startDate.value > i.endDate.value
       then [ValidatorFailed("dateOrder", DateOrderMessage)] else [])
  }

  /** What the model accepts, stated directly. */
  predicate Acceptable(i: ScheduleInput) {
    && i.courseId.Some? && i.classId.Some? && i.teacherId.Some? && i.dayOfWeek.Some?
    && i.startTime.Some? && i.endTime.Some? && i.startDate.Some? && i.endDate.Some?
    && i.startTime.value < i.endTime.value
    && i.startDate.value <= i.endDate.value
  }

  /** `Schedule.create(values)`: a row with the defaults filled in, or the
      validation error listing every message. */
  function Create(i: ScheduleInput): (r: Result<ScheduleRow>)
    ensures r.Ok? <==> Acceptable(i)
    ensures r.Err? ==> r.failure == Thrown("SequelizeValidationError")
    ensures r.Ok? ==> && r.value.startTime < r.value.endTime && r.value.startDate <= r.value.endDate
                      && r.value.recurrence == i.recurrence.GetOr(Weekly)
                      && r.value.status == i.status.GetOr(Scheduled)
    ensures r.Ok? ==> && r.value.courseId == i.courseId.value && r.value.classId == i.classId.value
                      && r.value.teacherId == i.teacherId.value && r.value.dayOfWeek == i.dayOfWeek.value
                      && r.value.startTime == i.startTime.value && r.value.endTime == i.endTime.value
                      && r.value.startDate == i.startDate.value && r.value.endDate == i.endDate.value
                      && r.value.room == i.room && r.value.notes == i.notes
  {
    if Errors(i) != [] then Err(Thrown("SequelizeValidationError"))
    else
      assert MissingColumns(i) == [];
      Ok(ScheduleRow(i.courseId.value, i.classId.value, i.teacherId.value, i.dayOfWeek.value,
                     i.startTime.value, i.endTime.value, i.room, i.recurrence.GetOr(Weekly),
                     i.startDate.value, i.endDate.value, i.status.GetOr(Scheduled), i.notes))
  }

  /** The bounds differ: a slot may not end when it starts, but a period
      may end on the day it starts. */
  lemma EqualTimesRejectedEqualDatesAccepted(i: ScheduleInput, t: nat, d: nat)
    requires Acceptable(i)
    ensures Create(i.(startTime := Some(t), endTime := Some(t))).Err?
    ensures Create(i.(startDate := Some(d), endDate := Some(d))).Ok?
  {
  }
}

=== FILE: slice_ops.dfy ===
/** The two list edits the Redux slices of frontend/src/store/slices make on
    their entities: `filter(x => x.id !== id)` and the `findIndex` /
    assignment pair. Both are written once over any element type, with the
    id read by a function. */
module SliceOps {

  /** `xs.filter(x => idOf(x) !== id)`. */
  function RemoveAll<T(!new), K(==)>(xs: seq<T>, idOf: T -> K, id: K): (r: seq<T>)
    ensures forall x :: x in r <==> x in xs && idOf(x) != id
    ensures |r| <= |xs|
    ensures (forall i :: 0 <= i < |xs| ==> idOf(xs[i]) != id) ==> r == xs
  {
    if |xs| == 0 then []
    else
      assert xs == [xs[0]] + xs[1..];
      (if idOf(xs[0]) != id then [xs[0]] else []) + RemoveAll(xs[1..], idOf, id)
  }

  /** The filter keeps the order: filtering a concatenation filters each
      part. */
  lemma {:induction false} RemoveAllAppend<T(!new), K>(a: seq<T>, b: seq<T>, idOf: T -> K, id: K)
    ensures RemoveAll(a + b, idOf, id) == RemoveAll(a, idOf, id) + RemoveAll(b, idOf, id)
  {
    if |a| == 0 {
      assert a + b == b;
    } else {
      assert (a + b)[0] == a[0];
      assert (a + b)[1..] == a[1..] + b;
      RemoveAllAppend(a[1..], b, idOf, id);
    }
  }

  /** Filtering twice by the same id changes nothing more. */
  lemma RemoveAllIdempotent<T(!new), K>(xs: seq<T>, idOf: T -> K, id: K)
    ensures RemoveAll(RemoveAll(xs, idOf, id), idOf, id) == RemoveAll(xs, idOf, id)
  {
  }

  /** The index of the first element with the id, if any:
      `findIndex(x => idOf(x) === id)`, with `-1` as `|xs|`. */
  function FindIndex<T, K(==)>(xs: seq<T>, idOf: T -> K, id: K): (k: nat)
    ensures k <= |xs|
    ensures k < |xs| ==> idOf(xs[k]) == id
    ensures forall j :: 0 <= j < k ==> idOf(xs[j]) != id
  {
    if |xs| == 0 then 0
    else if idOf(xs[0]) == id then 0
    else
      var k' := FindIndex(xs[1..], idOf, id);
      assert forall j :: 1 <= j <= k' ==> xs[j] == xs[1..][j - 1];
      1 + k'
  }

  /** `const index = xs.findIndex(...); if (index !== -1) xs[index] = v`:
      the first element with `v`'s id becomes `v`; without one the list is
      unchanged. */
  function ReplaceFirst<T, K(==)>(xs: seq<T>, idOf: T -> K, v: T): (r: seq<T>)
    ensures |r| == |xs|
    ensures (forall i :: 0 <= i < |xs| ==> idOf(xs[i]) != idOf(v)) ==> r == xs
    ensures (exists i :: 0 <= i < |xs| && idOf(xs[i]) == idOf(v)) ==>
      exists k :: && 0 <= k < |xs| && idOf(xs[k]) == idOf(v)
                  && (forall j :: 0 <= j < k ==> idOf(xs[j]) != idOf(v))
                  && r == xs[k := v]
  {
    var k := FindIndex(xs, idOf, idOf(v));
    if k < |xs| then xs[k := v] else xs
  }

  /** A replacement keeps every position's id, so the ids of the list do
      not change. */
  lemma ReplaceFirstKeepsIds<T, K>(xs: seq<T>, idOf: T -> K, v: T)
    ensures forall i :: 0 <= i < |xs| ==> idOf(ReplaceFirst(xs, idOf, v)[i]) == idOf(xs[i])
  {
  }

  /** Only the first element with the id is replaced: a later one with the
      same id is left as it was. */
  lemma ReplaceFirstOnly<T, K>(xs: seq<T>, idOf: T -> K, v: T, i: nat, j: nat)
    requires i < j < |xs| && idOf(xs[i]) == idOf(v) && idOf(xs[j]) == idOf(v)
    ensures ReplaceFirst(xs, idOf, v)[j] == xs[j]
  {
  }
}

=== FILE: text.dfy ===
/** The JavaScript string operations the core relies on: `String.prototype.replace`
    with a string pattern, `Array.prototype.join`, decimal formatting of
    integers (template literals) and `parseInt`. */
module Text {
  import opened Common

  predicate IsDigit(c: char) { '0' <= c <= '9' }

  predicate AllDigits(s: string) { forall i :: 0 <= i < |s| ==> IsDigit(s[i]) }

  /** Whether `pat` occurs in `s` starting at index `i`. */
  predicate OccursAt(s: string, pat: string, i: nat) {
    i + |pat| <= |s| && s[i..i + |pat|] == pat
  }

  /** Whether `pat` occurs anywhere in `s`. */
  predicate Contains(s: string, pat: string) {
    exists i: nat :: i <= |s| && OccursAt(s, pat, i)
  }

  /** The first occurrence of `pat` in `s` at or after `from`. */
  function IndexOfFrom(s: string, pat: string, from: nat): (r: Option<nat>)
    decreases |s| - from
    ensures r.Some? ==> from <= r.value && OccursAt(s, pat, r.value)
    ensures r.Some? ==> forall j: nat :: from <= j < r.value ==> !OccursAt(s, pat, j)
    ensures r.None? ==> forall j: nat :: from <= j ==> !OccursAt(s, pat, j)
  {
    if from + |pat| > |s| then None
    else if s[from..from + |pat|] == pat then Some(from)
    else IndexOfFrom(s, pat, from + 1)
  }

  /** `s.indexOf(pat)`: the first occurrence, if any. */
  function IndexOf(s: string, pat: string): (r: Option<nat>)
    ensures r.Some? ==> OccursAt(s, pat, r.value)
    ensures r.Some? ==> forall j: nat :: j < r.value ==> !OccursAt(s, pat, j)
    ensures r.None? <==> !Contains(s, pat)
  {
    IndexOfFrom(s, pat, 0)
  }

  /** `s.replace(pat, rep)` with a string pattern: only the FIRST occurrence is
      replaced, wherever it is; without one, `s` comes back unchanged. */
  function ReplaceFirst(s: string, pat: string, rep: string): (r: string)
    ensures !Contains(s, pat) ==> r == s
    ensures Contains(s, pat) ==> |r| == |s| - |pat| + |rep|
  {
    match IndexOf(s, pat)
    case None => s
    case Some(i) => s[..i] + rep + s[i + |pat|..]
  }

  /** Replacing a leading occurrence strips exactly that prefix, even when
      the remainder contains the pattern again. */
  lemma {:induction false} ReplaceLeading(pat: string, t: string)
    ensures ReplaceFirst(pat + t, pat, "") == t
  {
    assert OccursAt(pat + t, pat, 0) by {
      assert (pat + t)[0..|pat|] == pat;
    }
    var i := IndexOf(pat + t, pat);
    assert i == Some(0);
    assert (pat + t)[|pat|..] == t;
  }

  /** When the pattern first occurs at `i`, the result is the text around it. */
  lemma ReplaceAt(s: string, pat: string, rep: string, i: nat)
    requires OccursAt(s, pat, i)
    requires forall j: nat :: j < i ==> !OccursAt(s, pat, j)
    ensures ReplaceFirst(s, pat, rep) == s[..i] + rep + s[i + |pat|..]
  {
    assert Contains(s, pat) by {
      assert i <= |s| && OccursAt(s, pat, i);
    }
    assert IndexOf(s, pat) == Some(i);
  }

  /** A pattern behind text that does not hold its first character is the
      first occurrence, and it is the one replaced. */
  lemma ReplaceAfterLead(lead: string, pat: string, rep: string, t: string)
    requires |pat| > 0 && forall j :: 0 <= j < |lead| ==> lead[j] != pat[0]
    ensures ReplaceFirst(lead + pat + t, pat, rep) == lead + rep + t
  {
    var h := lead + pat + t;
    OccursBehindLead(lead, pat, t);
    NotBeforeLeadEnd(lead, pat, t);
    ReplaceAt(h, pat, rep, |lead|);
    assert h[..|lead|] == lead && h[|lead| + |pat|..] == t;
  }

  lemma OccursBehindLead(lead: string, pat: string, t: string)
    ensures OccursAt(lead + pat + t, pat, |lead|)
  {
    var h := lead + pat + t;
    assert h[|lead|..|lead| + |pat|] == pat;
  }

  lemma NotBeforeLeadEnd(lead: string, pat: string, t: string)
    requires |pat| > 0 && forall j :: 0 <= j < |lead| ==> lead[j] != pat[0]
    ensures forall j: nat :: j < |lead| ==> !OccursAt(lead + pat + t, pat, j)
  {
    var h := lead + pat + t;
    forall j: nat | j < |lead| ensures !OccursAt(h, pat, j) {
      assert h[j] == lead[j];
      if j + |pat| <= |h| {
        assert h[j..j + |pat|][0] == h[j];
      }
    }
  }

  /** `parts.join(sep)`. */
  function Join(parts: seq<string>, sep: string): (r: string)
    ensures |parts| == 0 ==> r == ""
    ensures |parts| == 1 ==> r == parts[0]
  {
    if |parts| == 0 then ""
    else if |parts| == 1 then parts[0]
    else Join(parts[..|parts| - 1], sep) + sep + parts[|parts| - 1]
  }

  /** Joining a concatenation joins the two halves around one separator. */
  lemma {:induction false} JoinConcat(a: seq<string>, b: seq<string>, sep: string)
    requires |a| > 0 && |b| > 0
    ensures Join(a + b, sep) == Join(a, sep) + sep + Join(b, sep)
    decreases |b|
  {
    var ab := a + b;
    var init, last := b[..|b| - 1], b[|b| - 1];
    assert ab[..|ab| - 1] == a + init && ab[|ab| - 1] == last;
    assert Join(ab, sep) == Join(a + init, sep) + sep + last;
    if |b| == 1 {
      assert a + init == a;
    } else {
      JoinConcat(a, init, sep);
      assert Join(b, sep) == Join(init, sep) + sep + last;
      var x, y := Join(a, sep), Join(init, sep);
      assert (x + sep + y) + sep + last == x + sep + (y + sep + last);
    }
  }

  /** Every joined part appears in the joined text. */
  lemma JoinContainsEach(parts: seq<string>, sep: string, k: nat)
    requires k < |parts|
    ensures Contains(Join(parts, sep), parts[k])
  {
    if k == |parts| - 1 {
      JoinEndsWithLast(parts, sep);
    } else {
      var left, right := parts[..k + 1], parts[k + 1..];
      JoinSplit(parts, sep, k);
      JoinEndsWithLast(left, sep);
      assert left[k] == parts[k];
      var jl := Join(left, sep);
      OccursInLonger(jl, sep + Join(right, sep), parts[k], |jl| - |parts[k]|);
    }
  }

  /** The last part ends the joined text. */
  lemma JoinEndsWithLast(parts: seq<string>, sep: string)
    requires |parts| > 0
    ensures var r, p := Join(parts, sep), parts[|parts| - 1]; |p| <= |r| && OccursAt(r, p, |r| - |p|)
  {
    var r, p := Join(parts, sep), parts[|parts| - 1];
    if |parts| > 1 {
      var front := Join(parts[..|parts| - 1], sep) + sep;
      assert r == front + p;
      assert r[|front|..|front| + |p|] == p;
    }
  }

  /** Splitting the parts after part `k` splits the joined text around one
      separator. */
  lemma JoinSplit(parts: seq<string>, sep: string, k: nat)
    requires k + 1 < |parts|
    ensures Join(parts, sep) == Join(parts[..k + 1], sep) + (sep + Join(parts[k + 1..], sep))
  {
    assert parts == parts[..k + 1] + parts[k + 1..];
    JoinConcat(parts[..k + 1], parts[k + 1..], sep);
  }

  /** An occurrence stays one when text is appended. */
  lemma OccursInLonger(a: string, b: string, pat: string, i: nat)
    requires OccursAt(a, pat, i)
    ensures OccursAt(a + b, pat, i)
  {
    assert (a + b)[i..i + |pat|] == a[i..i + |pat|];
  }

  /** The decimal digit for `d`. */
  function DigitChar(d: nat): (c: char)
    requires d < 10
    ensures IsDigit(c)
  {
    (('0' as int) + d) as char
  }

  /** The value of a digit. */
  function DigitValue(c: char): (d: nat)
    requires IsDigit(c)
    ensures d < 10 && DigitChar(d) == c
  {
    (c as int) - ('0' as int)
  }

  /** The value of a string of decimal digits (`""` is zero). */
  function DigitsValue(s: string): nat
    requires AllDigits(s)
  {
    if |s| == 0 then 0 else DigitsValue(s[..|s| - 1]) * 10 + DigitValue(s[|s| - 1])
  }

  /** `String(n)` for a non-negative integer, as a template literal prints it. */
  function NatToString(n: nat): (r: string)
    ensures |r| >= 1 && AllDigits(r)
    decreases n
  {
    if n < 10 then [DigitChar(n)] else NatToString(n / 10) + [DigitChar(n % 10)]
  }

  /** Printing then reading the digits gives the number back. */
  lemma {:induction false} NatToStringRoundTrip(n: nat)
    ensures DigitsValue(NatToString(n)) == n
    decreases n
  {
    var r := NatToString(n);
    if n < 10 {
      assert DigitValue(DigitChar(n)) == n;
    } else {
      NatToStringRoundTrip(n / 10);
      assert r[..|r| - 1] == NatToString(n / 10);
      assert DigitValue(DigitChar(n % 10)) == n % 10;
    }
  }

  /** The characters `parseInt` skips before the number (ECMAScript
      StrWhiteSpaceChar: WhiteSpace and LineTerminator). */
  predicate JsWhitespace(c: char) {
    var k := c as int;
    k == 0x09 || k == 0x0A || k == 0x0B || k == 0x0C || k == 0x0D || k == 0x20
    || k == 0xA0 || k == 0x1680 || (0x2000 <= k <= 0x200A) || k == 0x2028
    || k == 0x2029 || k == 0x202F || k == 0x205F || k == 0x3000 || k == 0xFEFF
  }

  function TrimStart(s: string): (r: string)
    ensures |r| <= |s| && r == s[|s| - |r|..]
    ensures |r| > 0 ==> !JsWhitespace(r[0])
  {
    if |s| > 0 && JsWhitespace(s[0]) then TrimStart(s[1..]) else s
  }

  /** The longest prefix of decimal digits. */
  function LeadingDigits(s: string): (r: string)
    ensures AllDigits(r) && |r| <= |s| && r == s[..|r|]
    ensures |r| < |s| ==> !IsDigit(s[|r|])
  {
    if |s| > 0 && IsDigit(s[0]) then [s[0]] + LeadingDigits(s[1..]) else ""
  }

  /** The digit prefix of digits followed by a non-digit is exactly those digits. */
  lemma {:induction false} LeadingDigitsOf(d: string, rest: string)
    requires AllDigits(d)
    requires |rest| == 0 || !IsDigit(rest[0])
    ensures LeadingDigits(d + rest) == d
    decreases |d|
  {
    if |d| > 0 {
      assert (d + rest)[1..] == d[1..] + rest;
      LeadingDigitsOf(d[1..], rest);
    } else {
      assert d + rest == rest;
    }
  }

  /** The text after an optional leading sign. */
  function Unsigned(t: string): string {
    if |t| > 0 && (t[0] == '-' || t[0] == '+') then t[1..] else t
  }

  /** `parseInt(s)` in base ten: leading white space, an optional sign, then
      the longest run of digits; `None` stands for `NaN`. */
  function ParseInt(s: string): (r: Option<int>)
    ensures r.None? <==> LeadingDigits(Unsigned(TrimStart(s))) == ""
    ensures r.Some? && |TrimStart(s)| > 0 && TrimStart(s)[0] != '-' ==> r.value >= 0
  {
    var t := TrimStart(s);
    var digits := LeadingDigits(Unsigned(t));
    if digits == "" then None
    else
      var magnitude: int := DigitsValue(digits);
      Some(if |t| > 0 && t[0] == '-' then -magnitude else magnitude)
  }

  /** Reading back a printed number followed by a unit such as `"mb"`
      recovers the number: the round trip behind `parseInt('5mb') === 5`. */
  lemma ParseIntOfPrinted(n: nat, unit: string)
    requires |unit| == 0 || !IsDigit(unit[0])
    ensures ParseInt(NatToString(n) + unit) == Some(n)
  {
    var d := NatToString(n);
    var s := d + unit;
    assert s[0] == d[0] && IsDigit(s[0]);
    assert !JsWhitespace(s[0]);
    assert TrimStart(s) == s;
    assert Unsigned(s) == s;
    LeadingDigitsOf(d, unit);
    NatToStringRoundTrip(n);
  }
}

=== FILE: upload.dfy ===
/** The upload middleware of backend/src/middleware/upload.js: the MIME
    whitelist, the size limit read from `MAX_FILE_SIZE`, multer's handling
    of one `file` field, `handleMulterError`, and the stored file name.
    The clock and `Math.random()` are parameters; the disk is not modelled. */
module Upload {
  import opened Common
  import Text

  /** The eight MIME types `fileFilter` lets through. */
  const AllowedMimes: seq<string> := [
    "image/jpeg",
    "image/png",
    "image/gif",
    "application/pdf",
    "application/msword",
    "application/vnd.openxmlformats-officedocument.wordprocessingml.document",
    "application/vnd.ms-excel",
    "application/vnd.openxmlformats-officedocument.spreadsheetml.sheet"
  ]

  const RejectedType := "Type de fichier non autorisé"

  /** `fileFilter`: `None` accepts the file, otherwise the error handed to
      multer's callback. */
  function FileFilter(mimetype: string): (r: Option<Failure>)
    ensures r.None? <==> mimetype in AllowedMimes
    ensures r.Some? ==> r.value == AppError(400, RejectedType)
  {
    if mimetype in AllowedMimes then None else Some(AppError(400, RejectedType))
  }

  /** The default of `MAX_FILE_SIZE` in backend/src/config/config.js. */
  const DefaultMaxFileSize := "5mb"

  /** `parseInt(MAX_FILE_SIZE) * 1024 * 1024`; `None` is `NaN`, which no
      size exceeds. */
  function SizeLimit(maxFileSize: string): (r: Option<int>)
    ensures r.None? <==> Text.ParseInt(maxFileSize).None?
    ensures r.Some? ==> r.value == Text.ParseInt(maxFileSize).value * 1048576
  {
    match Text.ParseInt(maxFileSize)
    case None => None
    case Some(n) => Some(n * 1024 * 1024)
  }

  /** A whole number of megabytes followed by a unit reads as that many
      mebibytes. */
  lemma SizeLimitOfMegabytes(n: nat, unit: string)
    requires |unit| == 0 || !Text.IsDigit(unit[0])
    ensures SizeLimit(Text.NatToString(n) + unit) == Some(n * 1048576)
  {
    Text.ParseIntOfPrinted(n, unit);
  }

  /** The default setting allows 5 242 880 bytes. */
  lemma DefaultLimit()
    ensures SizeLimit(DefaultMaxFileSize) == Some(5242880)
  {
    assert Text.NatToString(5) == "5";
    SizeLimitOfMegabytes(5, "mb");
    assert Text.NatToString(5) + "mb" == DefaultMaxFileSize;
  }

  /** A file part of a multipart request, as multer sees it. */
  datatype Incoming = Incoming(fieldname: string, originalname: string, mimetype: string, size: nat)

  /** The file `req.file` describes once stored. */
  datatype StoredFile = StoredFile(path: string, size: nat, mimetype: string)

  /** An error out of `upload.single(...)`: a `MulterError` with its code
      and message, or the filter's `AppError` passed on as is. */
  datatype UploadError = MulterError(code: string, message: string) | FilterError(failure: Failure)

  /** What `upload.single(field)` yields: the stored file (absent when the
      request carries none), or an error for `handleMulterError`. */
  datatype Received = NoFile | Stored(file: StoredFile) | Rejected(error: UploadError)

  /** `upload.single(field)` for a request with at most one file part: a
      part under another name is refused first, then the filter runs, then
      the size limit is enforced while the file is written. */
  function Single(field: string, part: Option<Incoming>, limit: Option<int>, dir: string,
                  now: nat, rand: nat): (r: Received)
    ensures part.None? <==> r.NoFile?
    ensures r.Stored? ==> && part.value.fieldname == field && part.value.mimetype in AllowedMimes
                          && (limit.None? || part.value.size <= limit.value)
                          && r.file.size == part.value.size && r.file.mimetype == part.value.mimetype
  {
    match part
    case None => NoFile
    case Some(p) =>
      if p.fieldname != field then Rejected(MulterError("LIMIT_UNEXPECTED_FILE", "Unexpected field"))
      else if FileFilter(p.mimetype).Some? then Rejected(FilterError(FileFilter(p.mimetype).value))
      else if limit.Some? && p.size > limit.value then Rejected(MulterError("LIMIT_FILE_SIZE", "File too large"))
      else Stored(StoredFile(dir + "/" + Filename(p.fieldname, now, rand, p.originalname), p.size, p.mimetype))
  }

  /** The order in which `upload.single` checks a part: the field name, then
      the file filter, then the size limit; a part passing all three is
      stored under the upload directory with the name `filename` gives it. */
  lemma SingleOutcome(field: string, part: Option<Incoming>, limit: Option<int>, dir: string,
                      now: nat, rand: nat)
    ensures part.Some? && part.value.fieldname != field ==>
              Single(field, part, limit, dir, now, rand) == Rejected(MulterError("LIMIT_UNEXPECTED_FILE", "Unexpected field"))
    ensures part.Some? && part.value.fieldname == field && part.value.mimetype !in AllowedMimes ==>
              Single(field, part, limit, dir, now, rand) == Rejected(FilterError(AppError(400, RejectedType)))
    ensures part.Some? && part.value.fieldname == field && part.value.mimetype in AllowedMimes
            && limit.Some? && part.value.size > limit.value ==>
              Single(field, part, limit, dir, now, rand) == Rejected(MulterError("LIMIT_FILE_SIZE", "File too large"))
    ensures part.Some? && part.value.fieldname == field && part.value.mimetype in AllowedMimes
            && (limit.None? || part.value.size <= limit.value) ==>
              Single(field, part, limit, dir, now, rand)
                == Stored(StoredFile(dir + "/" + Filename(field, now, rand, part.value.originalname),
                                     part.value.size, part.value.mimetype))
  {
  }

  /** The message of the size error, around the text standing for the limit. */
  function SizeMessage(limit: string): string {
    "Taille de fichier maximale dépassée (" + limit + "MB)"
  }

  /** The size message ends with the setting followed by `MB)`. */
  lemma SizeMessageEnds(limit: string)
    ensures var m := SizeMessage(limit);
      |m| >= |limit| + 3 && m[|m| - |limit| - 3..] == limit + "MB)"
  {
  }

  /** Different settings give different size messages. */
  lemma {:induction false} SizeMessageInjective(a: string, b: string)
    ensures SizeMessage(a) == SizeMessage(b) ==> a == b
  {
    if SizeMessage(a) == SizeMessage(b) {
      SizeMessageEnds(a);
      SizeMessageEnds(b);
      assert |a| == |b|;
      assert a + "MB)" == b + "MB)";
      assert a == (a + "MB)")[..|a|];
      assert b == (b + "MB)")[..|b|];
    }
  }

  /** `handleMulterError` as written: the size message interpolates the raw
      setting, so the default prints `(5mbMB)`. */
  function HandleMulterErrorAsWritten(err: UploadError, maxFileSize: string): (f: Failure)
    ensures err.FilterError? ==> f == err.failure
    ensures err.MulterError? ==> f.AppError? && f.status == 400
    ensures err.MulterError? && err.code != "LIMIT_FILE_SIZE" ==> f.message == err.message
  {
    match err
    case MulterError(code, message) =>
      if code == "LIMIT_FILE_SIZE" then AppError(400, SizeMessage(maxFileSize))
      else AppError(400, message)
    case FilterError(f) => f
  }

  /** The discrepancy: with the default setting the limit reads `5mb`
      followed by `MB`, where the intended message has `5MB`. */
  lemma SizeMessageAsWrittenRepeatsUnit()
    ensures HandleMulterErrorAsWritten(MulterError("LIMIT_FILE_SIZE", "File too large"), DefaultMaxFileSize).message
         == SizeMessage("5mb")
    ensures HandleMulterErrorAsWritten(MulterError("LIMIT_FILE_SIZE", "File too large"), DefaultMaxFileSize)
         != HandleMulterError(MulterError("LIMIT_FILE_SIZE", "File too large"), DefaultMaxFileSize)
  {
    SizeMessageOfDefault();
    assert |SizeMessage("5mb")| != |SizeMessage("5")|;
  }

  /** The number of megabytes the setting stands for, when it has one. */
  function SizeText(maxFileSize: string): string {
    match Text.ParseInt(maxFileSize)
    case Some(n) => if n >= 0 then Text.NatToString(n) else maxFileSize
    case None => maxFileSize
  }

  /** `handleMulterError` as intended: multer errors become 400 errors, the
      size one naming the limit in megabytes once; anything else passes
      through untouched. */
  function HandleMulterError(err: UploadError, maxFileSize: string): (f: Failure)
    ensures err.FilterError? ==> f == err.failure
    ensures err.MulterError? ==> f.AppError? && f.status == 400
    ensures err.MulterError? && err.code != "LIMIT_FILE_SIZE" ==> f.message == err.message
  {
    match err
    case MulterError(code, message) =>
      if code == "LIMIT_FILE_SIZE" then AppError(400, SizeMessage(SizeText(maxFileSize)))
      else AppError(400, message)
    case FilterError(f) => f
  }

  /** For a setting that is a number of megabytes followed by a unit, the
      size message names that number once, followed by `MB`. */
  lemma SizeMessageNamesMegabytes(n: nat, unit: string, message: string)
    requires |unit| == 0 || !Text.IsDigit(unit[0])
    ensures HandleMulterError(MulterError("LIMIT_FILE_SIZE", message), Text.NatToString(n) + unit).message
         == SizeMessage(Text.NatToString(n))
  {
    Text.ParseIntOfPrinted(n, unit);
  }

  /** With the default setting the message reads `(5MB)`. */
  lemma SizeMessageOfDefault()
    ensures HandleMulterError(MulterError("LIMIT_FILE_SIZE", "File too large"), DefaultMaxFileSize).message
         == SizeMessage("5")
  {
    var five := Text.NatToString(5);
    assert five == "5";
    assert DefaultMaxFileSize == five + "mb";
    SizeMessageNamesMegabytes(5, "mb", "File too large");
  }

  /** The index of the last `c` in `s`. */
  function LastIndexOf(s: string, c: char): (r: Option<nat>)
    ensures r.Some? ==> r.value < |s| && s[r.value] == c && forall j :: r.value < j < |s| ==> s[j] != c
    ensures r.None? ==> forall j :: 0 <= j < |s| ==> s[j] != c
  {
    if |s| == 0 then None
    else if s[|s| - 1] == c then Some(|s| - 1)
    else LastIndexOf(s[..|s| - 1], c)
  }

  /** The path without its trailing slashes. */
  function TrimTrailingSlashes(p: string): (r: string)
    ensures |r| <= |p| && r == p[..|r|]
    ensures |r| == 0 || r[|r| - 1] != '/'
  {
    if |p| > 0 && p[|p| - 1] == '/' then TrimTrailingSlashes(p[..|p| - 1]) else p
  }

  /** The last path segment, as `path.basename` finds it. */
  function BaseName(p: string): (r: string)
    ensures forall j :: 0 <= j < |r| ==> r[j] != '/'
  {
    var t := TrimTrailingSlashes(p);
    match LastIndexOf(t, '/')
    case None => t
    case Some(k) => t[k + 1..]
  }

  /** `path.extname` (POSIX): from the last dot of the last segment to its
      end; empty when the segment has no dot, starts with its only leading
      dot run before the name (`.bashrc`), or is `..`. */
  function ExtName(p: string): (r: string)
    ensures r == "" || (r[0] == '.' && forall j :: 0 < j < |r| ==> r[j] != '.' && r[j] != '/')
  {
    var b := BaseName(p);
    match LastIndexOf(b, '.')
    case None => ""
    case Some(k) => if k == 0 || b == ".." then "" else b[k..]
  }

  /** A plain name and extension yield that extension; only the last one
      counts for a double extension. */
  lemma ExtNameOfPlainName(stem: string, ext: string)
    requires |stem| > 0 && stem[0] != '.'
    requires forall j :: 0 <= j < |stem| ==> stem[j] != '/'
    requires forall j :: 0 <= j < |ext| ==> ext[j] != '.' && ext[j] != '/'
    ensures ExtName(stem + "." + ext) == "." + ext
  {
    var p := stem + "." + ext;
    assert |p| > 0 && p[|p| - 1] != '/' by {
      if |ext| > 0 { assert p[|p| - 1] == ext[|ext| - 1]; } else { assert p[|p| - 1] == '.'; }
    }
    assert TrimTrailingSlashes(p) == p;
    assert forall j :: 0 <= j < |p| ==> p[j] != '/' by {
      forall j | 0 <= j < |p| ensures p[j] != '/' {
        if j < |stem| { assert p[j] == stem[j]; }
        else if j > |stem| { assert p[j] == ext[j - |stem| - 1]; }
      }
    }
    assert BaseName(p) == p;
    var k := |stem|;
    assert p[k] == '.';
    assert forall j :: k < j < |p| ==> p[j] != '.' by {
      forall j | k < j < |p| ensures p[j] != '.' { assert p[j] == ext[j - k - 1]; }
    }
    assert LastIndexOf(p, '.') == Some(k);
    assert p != ".." by { assert p[0] == stem[0] && stem[0] != '.'; }
    assert p[k..] == "." + ext;
  }

  /** A name with no dot has no extension. */
  lemma ExtNameWithoutDot(p: string)
    requires forall j :: 0 <= j < |p| ==> p[j] != '.'
    ensures ExtName(p) == ""
  {
    var t := TrimTrailingSlashes(p);
    var b := BaseName(p);
    assert forall j :: 0 <= j < |t| ==> t[j] == p[j];
    assert forall j :: 0 <= j < |b| ==> b[j] != '.' by {
      match LastIndexOf(t, '/')
      case None => {}
      case Some(k) => {
        forall j | 0 <= j < |b| ensures b[j] != '.' { assert b[j] == t[k + 1 + j]; }
      }
    }
  }

  /** The stored name: `${fieldname}-${Date.now()}-${Math.round(Math.random() * 1E9)}`
      followed by the original extension. */
  function Filename(fieldname: string, now: nat, rand: nat, originalname: string): (r: string)
    ensures |r| > |fieldname| && r[..|fieldname| + 1] == fieldname + "-"
    ensures |r| >= |ExtName(originalname)| && r[|r| - |ExtName(originalname)|..] == ExtName(originalname)
  {
    fieldname + "-" + Text.NatToString(now) + "-" + Text.NatToString(rand) + ExtName(originalname)
  }

  /** Two different suffixes never give the same name for the same file:
      the two numbers can be read back from the name. */
  lemma {:induction false} FilenameDeterminesSuffix(fieldname: string, originalname: string,
                                                    now1: nat, rand1: nat, now2: nat, rand2: nat)
    requires Filename(fieldname, now1, rand1, originalname) == Filename(fieldname, now2, rand2, originalname)
    ensures now1 == now2 && rand1 == rand2
  {
    var ext := ExtName(originalname);
    var a1, b1 := Text.NatToString(now1), Text.NatToString(rand1);
    var a2, b2 := Text.NatToString(now2), Text.NatToString(rand2);
    var p := fieldname + "-";
    FilenameParts(fieldname, now1, rand1, originalname);
    FilenameParts(fieldname, now2, rand2, originalname);
    CancelAround(p, a1 + "-" + b1, a2 + "-" + b2, ext);
    SplitAtDash(a1, b1, a2, b2);
    NatToStringInjective(now1, now2);
    NatToStringInjective(rand1, rand2);
  }

  /** The name as head, numbers and extension. */
  lemma FilenameParts(fieldname: string, now: nat, rand: nat, originalname: string)
    ensures Filename(fieldname, now, rand, originalname)
         == (fieldname + "-") + (Text.NatToString(now) + "-" + Text.NatToString(rand)) + ExtName(originalname)
  {
  }

  /** Equal texts with the same head and tail have the same middle. */
  lemma CancelAround(p: string, m1: string, m2: string, ext: string)
    requires p + m1 + ext == p + m2 + ext
    ensures m1 == m2
  {
    var f := p + m1 + ext;
    assert |m1| == |m2|;
    assert m1 == f[|p|..|p| + |m1|];
    assert m2 == (p + m2 + ext)[|p|..|p| + |m2|];
  }

  /** Different numbers print differently. */
  lemma NatToStringInjective(x: nat, y: nat)
    requires Text.NatToString(x) == Text.NatToString(y)
    ensures x == y
  {
    Text.NatToStringRoundTrip(x);
    Text.NatToStringRoundTrip(y);
  }

  /** Digits, a dash, digits: the dash is the only one, so the split is unique. */
  lemma SplitAtDash(a1: string, b1: string, a2: string, b2: string)
    requires Text.AllDigits(a1) && Text.AllDigits(b1) && Text.AllDigits(a2) && Text.AllDigits(b2)
    requires a1 + "-" + b1 == a2 + "-" + b2
    ensures a1 == a2 && b1 == b2
  {
    var m := a1 + "-" + b1;
    assert m[|a1|] == '-' && m[|a2|] == '-';
    if |a1| < |a2| {
      assert false;
    } else if |a2| < |a1| {
      assert false;
    }
    assert a1 == m[..|a1|] == a2;
    assert b1 == m[|a1| + 1..] == b2;
  }
}

=== FILE: user_controller.dfy ===
/** The handlers of backend/src/controllers/userController.js as transitions
    of the database: the `Users` table and the `Students` and `Teachers`
    profile tables, each profile keyed by the `userId` it belongs to.
    bcrypt's hash and jsonwebtoken's `sign` are parameters, and so are the
    clock (`now`, the value of `Date.now()`) and the fresh primary key. */
module UserController {
  import opened Common
  import Text
  import opened UserModel

  /** The part of a `Student` row this handler writes. */
  datatype StudentProfile = StudentProfile(userId: Id, studentId: string)

  /** The part of a `Teacher` row this handler writes. */
  datatype TeacherProfile = TeacherProfile(userId: Id, employeeId: string)

  datatype Db = Db(users: Users, students: map<Id, StudentProfile>, teachers: map<Id, TeacherProfile>)

  /** The constraints of the three tables: those of `Users`, and every
      profile pointing at an existing user (the `references` of `userId`). */
  ghost predicate ValidDb(db: Db) {
    && ValidStore(db.users)
    && (forall id :: id in db.students ==> id in db.users && db.students[id].userId == id)
    && (forall id :: id in db.teachers ==> id in db.users && db.teachers[id].userId == id)
  }

  /** A handler's effect: the database afterwards and what it answers. The
      database is returned on failures too, since nothing runs in a
      transaction. */
  datatype Step<+T> = Step(db: Db, result: Result<T>)

  /** The `{ user, token }` payload of registration and login. */
  datatype Session = Session(user: UserView, token: string)

  const EmailInUse := "Cette adresse email est déjà utilisée"
  const BadCredentials := "Email ou mot de passe incorrect"
  const Deactivated := "Ce compte a été désactivé"
  const WrongCurrentPassword := "Mot de passe actuel incorrect"
  const UserNotFound := "Utilisateur non trouvé"
  const Disabled := "Utilisateur désactivé avec succès"
  const PasswordChanged := "Mot de passe modifié avec succès"

  /** `STD${Date.now()}` and `TCH${Date.now()}`. */
  function StudentNumber(now: nat): string { "STD" + Text.NatToString(now) }
  function EmployeeNumber(now: nat): string { "TCH" + Text.NatToString(now) }

  /** `createUser` as written. `Student.create` and `Teacher.create` are
      given only `userId` and the generated number, while the models declare
      `dateOfBirth` and `grade` (students) and `specialization` (teachers)
      with `allowNull: false`: Sequelize rejects both inserts, after the user
      row has already been written. */
  function CreateUserAsWritten(db: Db, id: Id, n: NewUser, now: nat, hash: string -> string,
                               sign: Id -> string, isEmail: string -> bool): (s: Step<Session>)
    requires ValidDb(db) && id !in db.users
    ensures EmailTaken(db.users, n.email) ==> s == Step(db, Err(AppError(400, EmailInUse)))
    ensures s.result.Ok? <==> !EmailTaken(db.users, n.email) && isEmail(n.email) && n.role in {Admin, Parent}
    ensures s.db.students == db.students && s.db.teachers == db.teachers
  {
    if EmailTaken(db.users, n.email) then Step(db, Err(AppError(400, EmailInUse)))
    else
      var u := Build(id, n, hash);
      match Save(db.users, u, isEmail)
      case Err(f) => Step(db, Err(f))
      case Ok(users) =>
        if n.role == Student || n.role == Teacher then
          Step(db.(users := users), Err(Thrown("SequelizeValidationError")))
        else
          Step(db.(users := users), Ok(Session(View(u), sign(id))))
  }

  /** The discrepancy: creating a student or a teacher with a free, valid
      address answers with an error yet leaves an account behind, with no
      profile, that can log in. */
  lemma CreateUserAsWrittenStrandsAccount(db: Db, id: Id, n: NewUser, now: nat, hash: string -> string,
                                          sign: Id -> string, isEmail: string -> bool)
    requires ValidDb(db) && id !in db.users
    requires !EmailTaken(db.users, n.email) && isEmail(n.email)
    requires n.role == Student || n.role == Teacher
    ensures var s := CreateUserAsWritten(db, id, n, now, hash, sign, isEmail);
      && s.result.Err?
      && id in s.db.users && s.db.users[id].isActive
      && id !in s.db.students && id !in s.db.teachers
  {
    var u := Build(id, n, hash);
    assert forall k :: k in db.users && k != u.id ==> db.users[k].email != u.email;
  }

  /** `createUser` as intended: the user and the profile its role calls for
      are written together, or nothing is. */
  function CreateUser(db: Db, id: Id, n: NewUser, now: nat, hash: string -> string,
                      sign: Id -> string, isEmail: string -> bool): (s: Step<Session>)
    requires ValidDb(db) && id !in db.users
    ensures EmailTaken(db.users, n.email) ==> s == Step(db, Err(AppError(400, EmailInUse)))
    ensures s.result.Ok? <==> !EmailTaken(db.users, n.email) && isEmail(n.email)
    ensures s.result.Err? ==> s.db == db
    ensures s.result.Ok? ==>
      && id in s.db.users && s.db.users == db.users[id := s.db.users[id]]
      && s.db.users[id].email == n.email && s.db.users[id].role == n.role && s.db.users[id].isActive
      && (n.password != "" ==> ValidatePassword(s.db.users[id], n.password, hash))
      && s.result.value == Session(View(s.db.users[id]), sign(id))
    ensures s.result.Ok? ==>
      && (id in s.db.students <==> n.role == Student)
      && (id in s.db.teachers <==> n.role == Teacher)
      && (n.role == Student ==> s.db.students[id].studentId == StudentNumber(now))
      && (n.role == Teacher ==> s.db.teachers[id].employeeId == EmployeeNumber(now))
      && (forall k :: k in db.students ==> k in s.db.students && s.db.students[k] == db.students[k])
      && (forall k :: k in db.teachers ==> k in s.db.teachers && s.db.teachers[k] == db.teachers[k])
      && s.db.students.Keys <= db.students.Keys + {id}
      && s.db.teachers.Keys <= db.teachers.Keys + {id}
    ensures ValidDb(s.db)
  {
    if EmailTaken(db.users, n.email) then Step(db, Err(AppError(400, EmailInUse)))
    else
      var u := Build(id, n, hash);
      assert forall k :: k in db.users && k != u.id ==> db.users[k].email != u.email;
      match Save(db.users, u, isEmail)
      case Err(f) => Step(db, Err(f))
      case Ok(users) =>
        Step(WithProfile(db.(users := users), id, n.role, now), Ok(Session(View(u), sign(id))))
  }

  /** The profile row the role calls for, added next to a new user. */
  function WithProfile(db: Db, id: Id, role: Role, now: nat): (r: Db)
    requires ValidStore(db.users) && id in db.users && db.users[id].id == id
    requires forall k :: k in db.students ==> k in db.users && db.students[k].userId == k
    requires forall k :: k in db.teachers ==> k in db.users && db.teachers[k].userId == k
    requires id !in db.students && id !in db.teachers
    ensures r.users == db.users && ValidDb(r)
    ensures (id in r.students <==> role == Student) && (id in r.teachers <==> role == Teacher)
    ensures role == Student ==> r.students[id].studentId == StudentNumber(now)
    ensures role == Teacher ==> r.teachers[id].employeeId == EmployeeNumber(now)
    ensures r.students.Keys <= db.students.Keys + {id} && r.teachers.Keys <= db.teachers.Keys + {id}
    ensures forall k :: k in db.students ==> k in r.students && r.students[k] == db.students[k]
    ensures forall k :: k in db.teachers ==> k in r.teachers && r.teachers[k] == db.teachers[k]
  {
    if role == Student then db.(students := db.students[id := StudentProfile(id, StudentNumber(now))])
    else if role == Teacher then db.(teachers := db.teachers[id := TeacherProfile(id, EmployeeNumber(now))])
    else db
  }

  /** `login`. A wrong address or password is refused before the account's
      state is looked at; a deactivated account is refused with its own
      message; success records `now` as `lastLogin` and returns a token. */
  function Login(db: Db, email: string, password: string, now: nat, hash: string -> string,
                 sign: Id -> string): (s: Step<Session>)
    requires ValidDb(db)
    ensures s.result.Ok? <==> exists id :: id in db.users && db.users[id].email == email
                                && ValidatePassword(db.users[id], password, hash) && db.users[id].isActive
    ensures s.result.Err? ==> s.db == db
    ensures s.result.Err? ==>
      (s.result.failure == AppError(401, BadCredentials) || s.result.failure == AppError(401, Deactivated))
    ensures s.result.Err? && s.result.failure.message == Deactivated ==>
      exists id :: id in db.users && db.users[id].email == email && ValidatePassword(db.users[id], password, hash)
    ensures s.result.Ok? ==>
      var id := s.result.value.user.id;
      && id in db.users && db.users[id].email == email
      && s.db == db.(users := db.users[id := db.users[id].(lastLogin := Some(now))])
      && s.result.value == Session(View(s.db.users[id]), sign(id))
    ensures ValidDb(s.db)
  {
    match FindByEmail(db.users, email)
    case None => Step(db, Err(AppError(401, BadCredentials)))
    case Some(u) =>
      if !ValidatePassword(u, password, hash) then Step(db, Err(AppError(401, BadCredentials)))
      else if !u.isActive then Step(db, Err(AppError(401, Deactivated)))
      else
        var u' := BeforeUpdate(u, u.(lastLogin := Some(now)), hash);
        Step(db.(users := db.users[u.id := u']), Ok(Session(View(u'), sign(u.id))))
  }

  /** The credential check comes first: a wrong password on a deactivated
      account gets the generic message, which tells nothing of the account. */
  lemma LoginChecksCredentialsFirst(db: Db, id: Id, password: string, now: nat, hash: string -> string, sign: Id -> string)
    requires ValidDb(db) && id in db.users
    requires !ValidatePassword(db.users[id], password, hash)
    ensures Login(db, db.users[id].email, password, now, hash, sign) == Step(db, Err(AppError(401, BadCredentials)))
  {
  }

  /** The profile payload: the user without password and its profiles. */
  datatype Profile = Profile(user: UserView, student: Option<StudentProfile>, teacher: Option<TeacherProfile>)

  function ProfileOf(db: Db, id: Id): (p: Profile)
    requires id in db.users
    ensures p.user == View(db.users[id])
    ensures p.student.Some? <==> id in db.students
    ensures p.teacher.Some? <==> id in db.teachers
    ensures p.student.Some? ==> p.student.value == db.students[id]
    ensures p.teacher.Some? ==> p.teacher.value == db.teachers[id]
  {
    Profile(View(db.users[id]),
            if id in db.students then Some(db.students[id]) else None,
            if id in db.teachers then Some(db.teachers[id]) else None)
  }

  /** `getProfile`: the row of the authenticated user, or `null` when it is
      gone. */
  function GetProfile(db: Db, me: Id): (r: Option<Profile>)
    ensures r.Some? <==> me in db.users
    ensures r.Some? ==> r.value == ProfileOf(db, me)
  {
    if me in db.users then Some(ProfileOf(db, me)) else None
  }

  /** The keys `updateProfile` copies from the body; an absent key leaves
      its column alone. */
  datatype ProfileChanges = ProfileChanges(
    email: Patch<string>,
    firstName: Patch<string>,
    lastName: Patch<string>,
    phoneNumber: Patch<Option<string>>,
    address: Patch<Option<string>>)

  function ApplyProfile(u: User, c: ProfileChanges): (r: User)
    ensures r.id == u.id && r.password == u.password && r.role == u.role
    ensures r.isActive == u.isActive && r.lastLogin == u.lastLogin
    ensures Writes(c.email, u.email, r.email) && Writes(c.firstName, u.firstName, r.firstName)
    ensures Writes(c.lastName, u.lastName, r.lastName) && Writes(c.phoneNumber, u.phoneNumber, r.phoneNumber)
    ensures Writes(c.address, u.address, r.address)
  {
    u.(email := c.email.ApplyTo(u.email),
       firstName := c.firstName.ApplyTo(u.firstName),
       lastName := c.lastName.ApplyTo(u.lastName),
       phoneNumber := c.phoneNumber.ApplyTo(u.phoneNumber),
       address := c.address.ApplyTo(u.address))
  }

  /** `if (email)`: a present, non-empty address. */
  predicate NewEmail(c: ProfileChanges) { c.email.Set? && c.email.value != "" }

  /** Whether a user other than `me` holds `email`. */
  predicate OwnedByOther(users: Users, me: Id, email: string) {
    exists id :: id in users && id != me && users[id].email == email
  }

  /** `updateProfile` as written: the uniqueness query uses `Op.ne`, and
      `Op` is not imported in this file, so any request carrying an email
      throws a `ReferenceError` before touching the table. */
  function UpdateProfileAsWritten(db: Db, me: Id, c: ProfileChanges, isEmail: string -> bool): (s: Step<UserView>)
    requires ValidDb(db) && me in db.users
    ensures NewEmail(c) ==> s == Step(db, Err(Thrown("ReferenceError")))
    ensures !NewEmail(c) ==> s == UpdateProfile(db, me, c, isEmail)
  {
    if NewEmail(c) then Step(db, Err(Thrown("ReferenceError")))
    else UpdateProfile(db, me, c, isEmail)
  }

  /** The discrepancy: no user can ever change their own address. */
  lemma UpdateProfileAsWrittenRejectsEveryEmail(db: Db, me: Id, e: string, isEmail: string -> bool)
    requires ValidDb(db) && me in db.users && e != "" && isEmail(e)
    requires !OwnedByOther(db.users, me, e)
    ensures UpdateProfileAsWritten(db, me, ProfileChanges(Set(e), Keep, Keep, Keep, Keep), isEmail).result.Err?
    ensures UpdateProfile(db, me, ProfileChanges(Set(e), Keep, Keep, Keep, Keep), isEmail).result.Ok?
    ensures UpdateProfile(db, me, ProfileChanges(Set(e), Keep, Keep, Keep, Keep), isEmail).db.users[me].email == e
  {
  }

  /** `updateProfile` as intended: an address held by someone else is
      refused with 400; otherwise the five profile columns are written and
      nothing else (not the password, the role, the account state). */
  function UpdateProfile(db: Db, me: Id, c: ProfileChanges, isEmail: string -> bool): (s: Step<UserView>)
    requires ValidDb(db) && me in db.users
    ensures NewEmail(c) && OwnedByOther(db.users, me, c.email.value) ==>
      s == Step(db, Err(AppError(400, EmailInUse)))
    ensures s.result.Ok? <==>
      && !OwnedByOther(db.users, me, ApplyProfile(db.users[me], c).email)
      && (ApplyProfile(db.users[me], c).email != db.users[me].email ==> isEmail(ApplyProfile(db.users[me], c).email))
    ensures s.result.Err? ==> s.db == db
    ensures s.result.Ok? ==>
      && s.db.students == db.students && s.db.teachers == db.teachers
      && s.db.users.Keys == db.users.Keys
      && (forall k :: k in db.users && k != me ==> s.db.users[k] == db.users[k])
      && s.db.users[me] == ApplyProfile(db.users[me], c)
      && s.result.value == View(s.db.users[me])
    ensures ValidDb(s.db)
  {
    var u := db.users[me];
    if NewEmail(c) && OwnedByOther(db.users, me, c.email.value) then Step(db, Err(AppError(400, EmailInUse)))
    else
      var saved := ApplyProfile(u, c);
      match Save(db.users, saved, isEmail)
      case Err(f) => Step(db, Err(f))
      case Ok(users) => Step(db.(users := users), Ok(View(saved)))
  }

  /** `changePassword`. The row is reloaded by the id `auth` put in
      `req.user`; a wrong current password is refused with 401 and changes
      nothing; otherwise the new password is stored through `beforeUpdate`. */
  function ChangePassword(db: Db, me: Id, currentPassword: string, newPassword: string,
                          hash: string -> string): (s: Step<string>)
    requires ValidDb(db)
    ensures s.result.Ok? <==> me in db.users && ValidatePassword(db.users[me], currentPassword, hash)
    ensures me in db.users && !ValidatePassword(db.users[me], currentPassword, hash) ==>
      s == Step(db, Err(AppError(401, WrongCurrentPassword)))
    ensures s.result.Err? ==> s.db == db
    ensures s.result.Ok? ==>
      && s.result.value == PasswordChanged
      && s.db.users.Keys == db.users.Keys
      && (forall k :: k in db.users && k != me ==> s.db.users[k] == db.users[k])
      && s.db.users[me] == db.users[me].(password := s.db.users[me].password)
      && (newPassword != db.users[me].password ==> ValidatePassword(s.db.users[me], newPassword, hash))
    ensures ValidDb(s.db)
  {
    if me !in db.users then Step(db, Err(Thrown("TypeError")))
    else
      var u := db.users[me];
      if !ValidatePassword(u, currentPassword, hash) then Step(db, Err(AppError(401, WrongCurrentPassword)))
      else
        var saved := BeforeUpdate(u, u.(password := newPassword), hash);
        Step(db.(users := db.users[me := saved]), Ok(PasswordChanged))
  }

  /** After a successful change the old password no longer opens the
      account, provided distinct passwords hash differently. */
  lemma OldPasswordStopsWorking(db: Db, me: Id, previous: string, q: string, hash: string -> string)
    requires ValidDb(db) && me in db.users
    requires Injective(hash) && previous != q && q != db.users[me].password
    requires ChangePassword(db, me, previous, q, hash).result.Ok?
    ensures !ValidatePassword(ChangePassword(db, me, previous, q, hash).db.users[me], previous, hash)
  {
  }

  /** `getAllUsers`: the rows the `where: req.query` filter selects, without
      their passwords. The filter is given as a predicate on rows. */
  function GetAllUsers(db: Db, filter: User -> bool): (r: set<UserView>)
    ensures forall id :: id in db.users && filter(db.users[id]) ==> View(db.users[id]) in r
    ensures forall v :: v in r ==> exists id :: id in db.users && filter(db.users[id]) && View(db.users[id]) == v
  {
    set id | id in db.users && filter(db.users[id]) :: View(db.users[id])
  }

  /** `getUser`. */
  function GetUser(db: Db, id: Id): (r: Result<Profile>)
    ensures r.Err? <==> id !in db.users
    ensures r.Err? ==> r.failure == AppError(404, UserNotFound)
    ensures r.Ok? ==> r.value == ProfileOf(db, id)
  {
    if id !in db.users then Err(AppError(404, UserNotFound)) else Ok(ProfileOf(db, id))
  }

  /** What `user.update(req.body)` may write on `PATCH /api/users/:id`. The
      validation lets unknown keys through and the body is passed whole, so
      an administrator also reaches `role` and `isActive`. */
  datatype UserChanges = UserChanges(
    email: Patch<string>,
    password: Patch<string>,
    firstName: Patch<string>,
    lastName: Patch<string>,
    role: Patch<Role>,
    phoneNumber: Patch<Option<string>>,
    address: Patch<Option<string>>,
    isActive: Patch<bool>,
    lastLogin: Patch<Option<nat>>)

  /** Every column but the primary key follows the body: a given key is
      written, an absent one keeps its value. */
  function ApplyUser(u: User, c: UserChanges): (r: User)
    ensures r.id == u.id
    ensures Writes(c.email, u.email, r.email) && Writes(c.password, u.password, r.password)
    ensures Writes(c.firstName, u.firstName, r.firstName) && Writes(c.lastName, u.lastName, r.lastName)
    ensures Writes(c.role, u.role, r.role) && Writes(c.phoneNumber, u.phoneNumber, r.phoneNumber)
    ensures Writes(c.address, u.address, r.address) && Writes(c.isActive, u.isActive, r.isActive)
    ensures Writes(c.lastLogin, u.lastLogin, r.lastLogin)
  {
    u.(email := c.email.ApplyTo(u.email),
       password := c.password.ApplyTo(u.password),
       firstName := c.firstName.ApplyTo(u.firstName),
       lastName := c.lastName.ApplyTo(u.lastName),
       role := c.role.ApplyTo(u.role),
       phoneNumber := c.phoneNumber.ApplyTo(u.phoneNumber),
       address := c.address.ApplyTo(u.address),
       isActive := c.isActive.ApplyTo(u.isActive),
       lastLogin := c.lastLogin.ApplyTo(u.lastLogin))
  }

  /** `updateUser`: 404 for an unknown id; otherwise the changes go through
      `beforeUpdate` and the table's constraints. */
  function UpdateUser(db: Db, id: Id, c: UserChanges, hash: string -> string, isEmail: string -> bool): (s: Step<UserView>)
    requires ValidDb(db)
    ensures id !in db.users ==> s == Step(db, Err(AppError(404, UserNotFound)))
    ensures id in db.users ==>
      (s.result.Ok? <==>
        && !OwnedByOther(db.users, id, ApplyUser(db.users[id], c).email)
        && (ApplyUser(db.users[id], c).email != db.users[id].email ==> isEmail(ApplyUser(db.users[id], c).email)))
    ensures s.result.Err? ==> s.db == db
    ensures s.result.Ok? ==>
      && id in db.users
      && s.db.users.Keys == db.users.Keys
      && (forall k :: k in db.users && k != id ==> s.db.users[k] == db.users[k])
      && s.db.users[id] == ApplyUser(db.users[id], c).(password := s.db.users[id].password)
      && (c.password.Keep? ==> s.db.users[id].password == db.users[id].password)
      && (c.password.Set? && c.password.value != db.users[id].password ==>
            ValidatePassword(s.db.users[id], c.password.value, hash))
      && s.result.value == View(s.db.users[id])
    ensures ValidDb(s.db)
  {
    if id !in db.users then Step(db, Err(AppError(404, UserNotFound)))
    else
      var u := db.users[id];
      var saved := BeforeUpdate(u, ApplyUser(u, c), hash);
      match Save(db.users, saved, isEmail)
      case Err(f) => Step(db, Err(f))
      case Ok(users) => Step(db.(users := users), Ok(View(saved)))
  }

  /** `deleteUser` is a soft delete: the row stays, only `isActive` drops. */
  function DeleteUser(db: Db, id: Id): (s: Step<string>)
    requires ValidDb(db)
    ensures id !in db.users ==> s == Step(db, Err(AppError(404, UserNotFound)))
    ensures s.result.Ok? <==> id in db.users
    ensures s.result.Ok? ==>
      && s.result.value == Disabled
      && s.db.users.Keys == db.users.Keys
      && s.db.students == db.students && s.db.teachers == db.teachers
      && (forall k :: k in db.users && k != id ==> s.db.users[k] == db.users[k])
      && s.db.users[id] == db.users[id].(isActive := false)
    ensures ValidDb(s.db)
  {
    if id !in db.users then Step(db, Err(AppError(404, UserNotFound)))
    else Step(db.(users := db.users[id := db.users[id].(isActive := false)]), Ok(Disabled))
  }

  /** A soft-deleted account can no longer log in, even with the right
      password; its row and its profiles are still there. */
  lemma DeletedUserCannotLogIn(db: Db, id: Id, password: string, now: nat, hash: string -> string, sign: Id -> string)
    requires ValidDb(db) && id in db.users
    ensures var after := DeleteUser(db, id).db;
      && id in after.users
      && Login(after, db.users[id].email, password, now, hash, sign).result.Err?
  {
    var after := DeleteUser(db, id).db;
    forall k | k in after.users && after.users[k].email == db.users[id].email
      ensures !after.users[k].isActive
    {
      assert k == id;
    }
  }

  /** Reading back a created account: `getUser` finds it, with the given
      address and role, active, and with the profile its role calls for. */
  lemma GetUserAfterCreate(db: Db, id: Id, n: NewUser, now: nat, hash: string -> string,
                           sign: Id -> string, isEmail: string -> bool)
    requires ValidDb(db) && id !in db.users
    requires CreateUser(db, id, n, now, hash, sign, isEmail).result.Ok?
    ensures var r := GetUser(CreateUser(db, id, n, now, hash, sign, isEmail).db, id);
      && r.Ok? && r.value.user.email == n.email && r.value.user.role == n.role && r.value.user.isActive
      && (r.value.student.Some? <==> n.role == Student) && (r.value.teacher.Some? <==> n.role == Teacher)
      && (r.value.student.Some? ==> r.value.student.value.studentId == StudentNumber(now))
      && (r.value.teacher.Some? ==> r.value.teacher.value.employeeId == EmployeeNumber(now))
  {
  }

  /** Reading back one's own profile after `updateProfile`: the given
      columns show their new values, the others and the profiles their old
      ones. */
  lemma GetProfileAfterUpdate(db: Db, me: Id, c: ProfileChanges, isEmail: string -> bool)
    requires ValidDb(db) && me in db.users
    requires UpdateProfile(db, me, c, isEmail).result.Ok?
    ensures var p := GetProfile(UpdateProfile(db, me, c, isEmail).db, me);
      && p.Some?
      && Writes(c.email, db.users[me].email, p.value.user.email)
      && Writes(c.firstName, db.users[me].firstName, p.value.user.firstName)
      && Writes(c.lastName, db.users[me].lastName, p.value.user.lastName)
      && Writes(c.phoneNumber, db.users[me].phoneNumber, p.value.user.phoneNumber)
      && Writes(c.address, db.users[me].address, p.value.user.address)
      && p.value.user.role == db.users[me].role && p.value.user.isActive == db.users[me].isActive
      && p.value.student == ProfileOf(db, me).student && p.value.teacher == ProfileOf(db, me).teacher
  {
  }

  /** A soft-deleted account is still listed by `getAllUsers` (when the
      filter selects it), now inactive, and no longer as it was before. */
  lemma GetAllUsersAfterDelete(db: Db, id: Id, filter: User -> bool)
    requires ValidDb(db) && id in db.users
    requires filter(db.users[id].(isActive := false))
    ensures View(db.users[id].(isActive := false)) in GetAllUsers(DeleteUser(db, id).db, filter)
    ensures !View(db.users[id].(isActive := false)).isActive
    ensures db.users[id].isActive ==> View(db.users[id]) !in GetAllUsers(DeleteUser(db, id).db, filter)
  {
  }

  /** An update that leaves the address alone does not validate it again:
      on a row whose stored address is not e-mail shaped, a profile update
      without changes and an administrator's `{ isActive: false }` both
      succeed, and the latter stores what `deleteUser` stores. */
  lemma UnchangedAddressNotRevalidated(db: Db, id: Id, hash: string -> string, isEmail: string -> bool)
    requires ValidDb(db) && id in db.users && !isEmail(db.users[id].email)
    ensures UpdateProfile(db, id, ProfileChanges(Keep, Keep, Keep, Keep, Keep), isEmail).result.Ok?
    ensures var c := UserChanges(Keep, Keep, Keep, Keep, Keep, Keep, Keep, Set(false), Keep);
      && UpdateUser(db, id, c, hash, isEmail).result.Ok?
      && UpdateUser(db, id, c, hash, isEmail).db.users == DeleteUser(db, id).db.users
  {
    var c := UserChanges(Keep, Keep, Keep, Keep, Keep, Keep, Keep, Set(false), Keep);
    assert ApplyUser(db.users[id], c) == db.users[id].(isActive := false);
  }
}

=== FILE: user_model.dfy ===
/** The `User` model of backend/src/models/User.js: its columns, the two
    password-hashing hooks, `validatePassword`, and the table as a map from
    primary key to row. bcrypt is the parameter `hash`; comparing a password
    with a stored hash is hashing it and comparing the results. */
module UserModel {
  import opened Common

  /** A row of the `Users` table. `lastLogin` is a timestamp. */
  datatype User = User(
    id: Id,
    email: string,
    password: string,
    firstName: string,
    lastName: string,
    role: Role,
    phoneNumber: Option<string>,
    address: Option<string>,
    isActive: bool,
    lastLogin: Option<nat>)

  /** A row as it leaves the server: `attributes: { exclude: ['password'] }`
      or `delete userResponse.password`. */
  datatype UserView = UserView(
    id: Id,
    email: string,
    firstName: string,
    lastName: string,
    role: Role,
    phoneNumber: Option<string>,
    address: Option<string>,
    isActive: bool,
    lastLogin: Option<nat>)

  function View(u: User): (v: UserView)
    ensures v.id == u.id && v.email == u.email && v.role == u.role && v.isActive == u.isActive
  {
    UserView(u.id, u.email, u.firstName, u.lastName, u.role, u.phoneNumber, u.address, u.isActive, u.lastLogin)
  }

  /** Nothing of the password, stored or given, reaches a response. */
  lemma ViewHidesPassword(u: User, other: string)
    ensures View(u.(password := other)) == View(u)
  {
  }

  /** The fields a creation passes to `User.create`. */
  datatype NewUser = NewUser(
    email: string,
    password: string,
    firstName: string,
    lastName: string,
    role: Role,
    phoneNumber: Option<string>,
    address: Option<string>)

  /** The `beforeCreate` hook: a non-empty password is replaced by its hash. */
  function BeforeCreate(u: User, hash: string -> string): (r: User)
    ensures u.password != "" ==> r == u.(password := hash(u.password))
    ensures u.password == "" ==> r == u
  {
    if u.password != "" then u.(password := hash(u.password)) else u
  }

  /** The row `User.create(fields)` builds: the `isActive` default is true,
      `lastLogin` starts empty and the password goes through `beforeCreate`. */
  function Build(id: Id, n: NewUser, hash: string -> string): (u: User)
    ensures u.id == id && u.email == n.email && u.role == n.role
    ensures u.isActive && u.lastLogin.None?
    ensures n.password != "" ==> u.password == hash(n.password)
  {
    BeforeCreate(User(id, n.email, n.password, n.firstName, n.lastName, n.role,
                      n.phoneNumber, n.address, true, None), hash)
  }

  /** The `beforeUpdate` hook, given the row as loaded and the row about to
      be saved: the password is hashed again only when it changed. */
  function BeforeUpdate(stored: User, next: User, hash: string -> string): (r: User)
    ensures next.password == stored.password ==> r == next
    ensures next.password != stored.password ==> r == next.(password := hash(next.password))
  {
    if next.password != stored.password then next.(password := hash(next.password)) else next
  }

  /** `user.validatePassword(p)`: `bcrypt.compare(p, user.password)`. A
      password validates exactly when its hash is the stored column; with
      an injective hash, at most one password validates. */
  predicate ValidatePassword(u: User, p: string, hash: string -> string)
    ensures ValidatePassword(u, p, hash) <==> hash(p) == u.password
    ensures ValidatePassword(u, p, hash) && Injective(hash) ==>
              forall q :: hash(q) == u.password ==> q == p
  {
    hash(p) == u.password
  }

  /** Distinct passwords have distinct hashes. */
  ghost predicate Injective(hash: string -> string) {
    forall a, b :: hash(a) == hash(b) ==> a == b
  }

  /** After `user.password = q; user.save()`, `q` validates and, when the
      hash is injective, no other password does, the old one included. */
  lemma PasswordChangeTakesEffect(u: User, q: string, hash: string -> string)
    requires u.password != q
    ensures ValidatePassword(BeforeUpdate(u, u.(password := q), hash), q, hash)
    ensures Injective(hash) ==>
      forall p :: ValidatePassword(BeforeUpdate(u, u.(password := q), hash), p, hash) ==> p == q
  {
  }

  /** Saving a row whose password is untouched keeps the stored hash: other
      updates do not hash the hash again. */
  lemma OtherUpdatesKeepHash(u: User, next: User, hash: string -> string, p: string)
    requires next.password == u.password
    ensures BeforeUpdate(u, next, hash).password == u.password
    ensures ValidatePassword(BeforeUpdate(u, next, hash), p, hash) <==> ValidatePassword(u, p, hash)
  {
  }

  /** The `Users` table by primary key. */
  type Users = map<Id, User>

  /** The table's constraints: rows sit under their own key and `email` is
      `unique: true`. */
  ghost predicate ValidStore(users: Users) {
    && (forall id :: id in users ==> users[id].id == id)
    && (forall a, b :: a in users && b in users && users[a].email == users[b].email ==> a == b)
  }

  predicate EmailTaken(users: Users, email: string) {
    exists id :: id in users && users[id].email == email
  }

  /** `User.findOne({ where: { email } })`: the row holding that address,
      unique by the table's constraint. */
  function FindByEmail(users: Users, email: string): (r: Option<User>)
    requires ValidStore(users)
    ensures r.None? <==> !EmailTaken(users, email)
    ensures r.Some? ==> r.value.id in users && users[r.value.id] == r.value && r.value.email == email
  {
    if EmailTaken(users, email) then
      var id :| id in users && users[id].email == email;
      Some(users[id])
    else None
  }

  /** Whether saving `u` writes its `email` column: a new row, or an
      address different from the stored one. */
  predicate WritesEmail(users: Users, u: User) {
    u.id !in users || users[u.id].email != u.email
  }

  /** The outcome of writing a row: the unique index and the `isEmail`
      column validator, as Sequelize raises them. Sequelize validates only
      the columns a save writes, so an unchanged address is not checked
      again. */
  function Save(users: Users, u: User, isEmail: string -> bool): (r: Result<Users>)
    requires ValidStore(users)
    ensures r.Ok? <==> && (WritesEmail(users, u) ==> isEmail(u.email))
                       && forall id :: id in users && id != u.id ==> users[id].email != u.email
    ensures r.Ok? ==> r.value == users[u.id := u] && ValidStore(r.value)
  {
    if WritesEmail(users, u) && !isEmail(u.email) then Err(Thrown("SequelizeValidationError"))
    else if exists id :: id in users && id != u.id && users[id].email == u.email then
      Err(Thrown("SequelizeUniqueConstraintError"))
    else Ok(users[u.id := u])
  }
}

=== FILE: user_slice.dfy ===
/** The `user` slice of frontend/src/store/slices/userSlice.ts: its state,
    and the reducer for the actions of `setSelectedUser`, `clearError` and
    the four thunks. The thunks' requests are left out; their results
    arrive as the actions' payloads. */
module UserSlice {
  import opened Common
  import SliceOps

  /** The `User` interface of the slice. */
  datatype SliceUser = SliceUser(
    id: string,
    email: string,
    firstName: string,
    lastName: string,
    role: string,
    phoneNumber: Option<string>,
    address: Option<string>,
    isActive: bool,
    lastLogin: Option<string>)

  function IdOf(u: SliceUser): string { u.id }

  /** `UserState`; `None` is `null`. */
  datatype UserState = UserState(users: seq<SliceUser>, selectedUser: Option<SliceUser>, loading: bool, error: Option<string>)

  const InitialState := UserState([], None, false, None)

  /** The four thunks. */
  datatype Thunk = FetchUsers | CreateUser | UpdateUser | DeleteUser

  /** The actions the reducer handles. A rejection carries the message
      `rejectWithValue` was given, `None` when there was none. */
  datatype Action =
    | Pending(thunk: Thunk)
    | Rejected(thunk: Thunk, payload: Option<string>)
    | UsersFetched(list: seq<SliceUser>)
    | UserCreated(user: SliceUser)
    | UserUpdated(user: SliceUser)
    | UserDeleted(userId: string)
    | SetSelectedUser(selection: Option<SliceUser>)
    | ClearError

  /** The slice reducer. */
  function Reduce(s: UserState, a: Action): (r: UserState)
    ensures a.Pending? ==> r.users == s.users && r.loading && r.error.None? && r.selectedUser == s.selectedUser
    ensures a.Rejected? ==> r.users == s.users && !r.loading && r.error == a.payload && r.selectedUser == s.selectedUser
    ensures a.UsersFetched? ==> r.users == a.list
    ensures a.UserCreated? ==> r.users == s.users + [a.user]
    ensures a.UserUpdated? ==> r.users == SliceOps.ReplaceFirst(s.users, IdOf, a.user)
    ensures a.UserDeleted? ==> forall u :: u in r.users <==> u in s.users && u.id != a.userId
    ensures a.UsersFetched? || a.UserCreated? || a.UserUpdated? || a.UserDeleted? ==>
              !r.loading && r.error == s.error && r.selectedUser == s.selectedUser
    ensures a.SetSelectedUser? ==> r == s.(selectedUser := a.selection)
    ensures a.ClearError? ==> r == s.(error := None)
  {
    match a
    case Pending(_) => s.(loading := true, error := None)
    case Rejected(_, payload) => s.(loading := false, error := payload)
    case UsersFetched(list) => s.(loading := false, users := list)
    case UserCreated(u) => s.(loading := false, users := s.users + [u])
    case UserUpdated(u) => s.(loading := false, users := SliceOps.ReplaceFirst(s.users, IdOf, u))
    case UserDeleted(id) => s.(loading := false, users := SliceOps.RemoveAll(s.users, IdOf, id))
    case SetSelectedUser(sel) => s.(selectedUser := sel)
    case ClearError => s.(error := None)
  }

  /** A request that succeeds leaves no error: `pending` cleared it and
      `fulfilled` does not set one. */
  lemma SuccessLeavesNoError(s: UserState, t: Thunk, done: Action)
    requires done.UsersFetched? || done.UserCreated? || done.UserUpdated? || done.UserDeleted?
    ensures var r := Reduce(Reduce(s, Pending(t)), done); !r.loading && r.error.None?
  {
  }

  /** Creating a user with a new id and deleting that id gives back the
      list as it was. */
  lemma CreateThenDelete(s: UserState, u: SliceUser)
    requires forall i :: 0 <= i < |s.users| ==> s.users[i].id != u.id
    ensures Reduce(Reduce(s, UserCreated(u)), UserDeleted(u.id)).users == s.users
  {
    SliceOps.RemoveAllAppend(s.users, [u], IdOf, u.id);
    assert SliceOps.RemoveAll([u], IdOf, u.id) == [];
  }

  /** A deletion removes every user with the id and keeps the others in
      their order. */
  lemma DeleteKeepsOrder(a: seq<SliceUser>, b: seq<SliceUser>, s: UserState, id: string)
    requires s.users == a + b
    ensures Reduce(s, UserDeleted(id)).users == SliceOps.RemoveAll(a, IdOf, id) + SliceOps.RemoveAll(b, IdOf, id)
  {
    SliceOps.RemoveAllAppend(a, b, IdOf, id);
  }

  /** An update keeps the ids of the list and their order. */
  lemma UpdateKeepsIds(s: UserState, u: SliceUser)
    ensures var r := Reduce(s, UserUpdated(u));
      |r.users| == |s.users| && forall i :: 0 <= i < |s.users| ==> r.users[i].id == s.users[i].id
  {
    SliceOps.ReplaceFirstKeepsIds(s.users, IdOf, u);
  }
}

=== FILE: user_validation.dfy ===
/** The Joi schemas of the user routes (backend/src/validations/userValidation.js):
    `createUserSchema`, `updateUserSchema`, `loginSchema` and
    `changePasswordSchema`, with the password policy and phone pattern they
    share. Email syntax is Joi's `.email()`, given as the predicate `isEmail`. */
module UserValidation {
  import opened Common
  import opened Joi
  import Text

  predicate IsLower(c: char) { 'a' <= c <= 'z' }
  predicate IsUpper(c: char) { 'A' <= c <= 'Z' }
  predicate IsSpecial(c: char) { c in "@$!%*?&" }

  /** The character class `[A-Za-z\d@$!%*?&]` of the password pattern. */
  predicate PasswordChar(c: char) { IsLower(c) || IsUpper(c) || Text.IsDigit(c) || IsSpecial(c) }

  /** The password policy, as character classes: at least eight characters,
      at least one lower-case letter, one upper-case letter, one digit and one
      of `@$!%*?&`, and nothing outside those classes. */
  predicate StrongPassword(s: string) {
    && |s| >= 8
    && (exists i :: 0 <= i < |s| && IsLower(s[i]))
    && (exists i :: 0 <= i < |s| && IsUpper(s[i]))
    && (exists i :: 0 <= i < |s| && Text.IsDigit(s[i]))
    && (exists i :: 0 <= i < |s| && IsSpecial(s[i]))
    && (forall i :: 0 <= i < |s| ==> PasswordChar(s[i]))
  }

  /** What one pass over a password has seen so far. */
  datatype Seen = Seen(lower: bool, upper: bool, digit: bool, special: bool, onlyAllowed: bool)

  /** One left-to-right pass: the four look-aheads of the pattern and its
      closing character class, evaluated together. */
  function Scan(s: string): (r: Seen)
    ensures r.lower <==> exists i :: 0 <= i < |s| && IsLower(s[i])
    ensures r.upper <==> exists i :: 0 <= i < |s| && IsUpper(s[i])
    ensures r.digit <==> exists i :: 0 <= i < |s| && Text.IsDigit(s[i])
    ensures r.special <==> exists i :: 0 <= i < |s| && IsSpecial(s[i])
    ensures r.onlyAllowed <==> forall i :: 0 <= i < |s| ==> PasswordChar(s[i])
  {
    if |s| == 0 then Seen(false, false, false, false, true)
    else
      var init := s[..|s| - 1];
      var c := s[|s| - 1];
      var seen := Scan(init);
      assert forall i :: 0 <= i < |init| ==> init[i] == s[i];
      Seen(seen.lower || IsLower(c), seen.upper || IsUpper(c), seen.digit || Text.IsDigit(c),
           seen.special || IsSpecial(c), seen.onlyAllowed && PasswordChar(c))
  }

  /** `/^(?=.*[a-z])(?=.*[A-Z])(?=.*\d)(?=.*[@$!%*?&])[A-Za-z\d@$!%*?&]{8,}$/.test(s)`.
      The look-aheads' `.` stops at line terminators, but those are outside
      the final class anyway. */
  function MatchesPasswordPattern(s: string): (b: bool)
    ensures b <==> StrongPassword(s)
  {
    var seen := Scan(s);
    |s| >= 8 && seen.lower && seen.upper && seen.digit && seen.special && seen.onlyAllowed
  }

  /** The rules `.min(8).pattern(...)` that reject a non-empty password. */
  function PasswordRules(s: string): (r: seq<string>)
    ensures r == [] <==> StrongPassword(s)
    ensures |s| < 8 ==> r == ["string.min", "string.pattern.base"]
  {
    (if |s| < 8 then ["string.min"] else [])
    + (if MatchesPasswordPattern(s) then [] else ["string.pattern.base"])
  }

  /** `/^\+?[0-9]{10,15}$/` read as a grammar: ten to fifteen ASCII digits,
      optionally preceded by one `+`. */
  predicate PhoneShaped(s: string) {
    (10 <= |s| <= 15 && Text.AllDigits(s))
    || (|s| >= 1 && s[0] == '+' && 10 <= |s| - 1 <= 15 && Text.AllDigits(s[1..]))
  }

  /** The phone pattern as a matcher: the optional `+` is taken greedily. */
  function MatchesPhonePattern(s: string): (b: bool)
    ensures b <==> PhoneShaped(s)
  {
    var digits := if |s| > 0 && s[0] == '+' then s[1..] else s;
    10 <= |digits| <= 15 && Text.AllDigits(digits)
  }

  function PhoneRules(s: string): seq<string> {
    if MatchesPhonePattern(s) then [] else ["string.pattern.base"]
  }

  /** The `.email()` rule, with Joi's address syntax left as `isEmail`. */
  function EmailRules(isEmail: string -> bool): string -> seq<string> {
    s => if isEmail(s) then [] else ["string.email"]
  }

  /** A `Joi.string().allow(null)` key. */
  const Nullable := StringSpec(false, true, false, None)

  /** A key that is absent, `null`, or a string satisfying `ok`. */
  predicate NullOr(v: Json, ok: string -> bool) { v.Missing? || v.Null? || (v.Str? && ok(v.s)) }

  /** The key order of `createUserSchema`. */
  const CreateUserKeys: seq<string> := ["email", "password", "firstName", "lastName", "role", "phoneNumber", "address"]

  /** What `createUserSchema` asks of each key, stated directly. */
  predicate CreateUserFieldOk(b: Body, key: string, isEmail: string -> bool) {
    var v := Get(b, key);
    if key == "email" then NonEmptyString(v) && isEmail(v.s)
    else if key == "password" then v.Str? && StrongPassword(v.s)
    else if key == "firstName" || key == "lastName" then NonEmptyString(v)
    else if key == "role" then OneOf(v, RoleNames)
    else if key == "phoneNumber" then NullOr(v, PhoneShaped)
    else if key == "address" then NullOr(v, s => s != "")
    else true
  }

  /** A body `createUserSchema` accepts: email, password, names and role are
      required, unknown keys are allowed. */
  predicate ValidCreateUser(b: Body, isEmail: string -> bool) {
    forall k :: k in CreateUserKeys ==> CreateUserFieldOk(b, k, isEmail)
  }

  /** `role` is checked against the role names and nothing else. */
  lemma RoleFieldOk(b: Body, isEmail: string -> bool)
    ensures "role" in CreateUserKeys
    ensures CreateUserFieldOk(b, "role", isEmail) <==> OneOf(Get(b, "role"), RoleNames)
  {
  }

  /** The details `createUserSchema` reports for one key. */
  function CreateUserField(b: Body, key: string, isEmail: string -> bool): (r: seq<Detail>)
    ensures r == [] <==> CreateUserFieldOk(b, key, isEmail)
    ensures forall d :: d in r ==> d.key == key
  {
    var v := Get(b, key);
    if key == "email" then CheckString(key, None, v, Required, EmailRules(isEmail))
    else if key == "password" then CheckString(key, None, v, Required, PasswordRules)
    else if key == "firstName" || key == "lastName" then CheckString(key, None, v, Required, NoRules)
    else if key == "role" then CheckString(key, None, v, StringSpec(true, false, false, Some(RoleNames)), NoRules)
    else if key == "phoneNumber" then CheckString(key, None, v, Nullable, PhoneRules)
    else if key == "address" then CheckString(key, None, v, Nullable, NoRules)
    else []
  }

  /** `createUserSchema.validate(body, { abortEarly: false }).error.details`. */
  function CreateUserDetails(b: Body, isEmail: string -> bool): (r: seq<Detail>)
    ensures r == [] <==> ValidCreateUser(b, isEmail)
    ensures forall k :: k in CreateUserKeys ==> (Reports(r, k) <==> !CreateUserFieldOk(b, k, isEmail))
  {
    var check := k => CreateUserField(b, k, isEmail);
    var r := Collect(CreateUserKeys, check);
    forall k | k in CreateUserKeys ensures Reports(r, k) <==> !CreateUserFieldOk(b, k, isEmail) {
      CollectReportsEachFailingKey(CreateUserKeys, check, k);
    }
    r
  }

  /** The key order of `updateUserSchema`: no `role`, nothing required. */
  const UpdateUserKeys: seq<string> := ["email", "password", "firstName", "lastName", "phoneNumber", "address"]

  predicate UpdateUserFieldOk(b: Body, key: string, isEmail: string -> bool) {
    var v := Get(b, key);
    if key == "email" then v.Missing? || (NonEmptyString(v) && isEmail(v.s))
    else if key == "password" then v.Missing? || (v.Str? && StrongPassword(v.s))
    else if key == "firstName" || key == "lastName" then v.Missing? || NonEmptyString(v)
    else if key == "phoneNumber" then NullOr(v, PhoneShaped)
    else if key == "address" then NullOr(v, s => s != "")
    else true
  }

  /** A body `updateUserSchema` accepts: every key optional, a present
      password under the same policy, and any `role` key let through as an
      unknown key. */
  predicate ValidUpdateUser(b: Body, isEmail: string -> bool) {
    forall k :: k in UpdateUserKeys ==> UpdateUserFieldOk(b, k, isEmail)
  }

  function UpdateUserField(b: Body, key: string, isEmail: string -> bool): (r: seq<Detail>)
    ensures r == [] <==> UpdateUserFieldOk(b, key, isEmail)
    ensures forall d :: d in r ==> d.key == key
  {
    var v := Get(b, key);
    if key == "email" then CheckString(key, None, v, Optional, EmailRules(isEmail))
    else if key == "password" then CheckString(key, None, v, Optional, PasswordRules)
    else if key == "firstName" || key == "lastName" then CheckString(key, None, v, Optional, NoRules)
    else if key == "phoneNumber" then CheckString(key, None, v, Nullable, PhoneRules)
    else if key == "address" then CheckString(key, None, v, Nullable, NoRules)
    else []
  }

  function UpdateUserDetails(b: Body, isEmail: string -> bool): (r: seq<Detail>)
    ensures r == [] <==> ValidUpdateUser(b, isEmail)
    ensures forall k :: k in UpdateUserKeys ==> (Reports(r, k) <==> !UpdateUserFieldOk(b, k, isEmail))
  {
    var check := k => UpdateUserField(b, k, isEmail);
    var r := Collect(UpdateUserKeys, check);
    forall k | k in UpdateUserKeys ensures Reports(r, k) <==> !UpdateUserFieldOk(b, k, isEmail) {
      CollectReportsEachFailingKey(UpdateUserKeys, check, k);
    }
    r
  }

  const LoginKeys: seq<string> := ["email", "password"]

  /** A body `loginSchema` accepts: a syntactically valid email and any
      non-empty password, with no strength policy. */
  predicate ValidLogin(b: Body, isEmail: string -> bool) {
    && NonEmptyString(Get(b, "email")) && isEmail(Get(b, "email").s)
    && NonEmptyString(Get(b, "password"))
  }

  function LoginField(b: Body, key: string, isEmail: string -> bool): (r: seq<Detail>)
    ensures forall d :: d in r ==> d.key == key
  {
    var v := Get(b, key);
    if key == "email" then CheckString(key, None, v, Required, EmailRules(isEmail))
    else if key == "password" then CheckString(key, None, v, Required, NoRules)
    else []
  }

  function LoginDetails(b: Body, isEmail: string -> bool): (r: seq<Detail>)
    ensures r == [] <==> ValidLogin(b, isEmail)
  {
    var check := k => LoginField(b, k, isEmail);
    var r := Collect(LoginKeys, check);
    assert r == [] <==> check("email") == [] && check("password") == [] by {
      assert LoginKeys[0] == "email" && LoginKeys[1] == "password";
    }
    r
  }

  const ChangePasswordKeys: seq<string> := ["currentPassword", "newPassword"]

  /** A body `changePasswordSchema` accepts: any non-empty current password
      and a new password under the policy. */
  predicate ValidChangePassword(b: Body) {
    NonEmptyString(Get(b, "currentPassword"))
    && Get(b, "newPassword").Str? && StrongPassword(Get(b, "newPassword").s)
  }

  function ChangePasswordField(b: Body, key: string): (r: seq<Detail>)
    ensures forall d :: d in r ==> d.key == key
  {
    var v := Get(b, key);
    if key == "currentPassword" then CheckString(key, None, v, Required, NoRules)
    else if key == "newPassword" then CheckString(key, None, v, Required, PasswordRules)
    else []
  }

  function ChangePasswordDetails(b: Body): (r: seq<Detail>)
    ensures r == [] <==> ValidChangePassword(b)
  {
    var check := k => ChangePasswordField(b, k);
    var r := Collect(ChangePasswordKeys, check);
    assert r == [] <==> check("currentPassword") == [] && check("newPassword") == [] by {
      assert ChangePasswordKeys[0] == "currentPassword" && ChangePasswordKeys[1] == "newPassword";
    }
    r
  }

  /** The three password-checking schemas apply one policy: a password
      accepted by any of them is accepted by the others. */
  lemma SamePolicyEverywhere(b: Body, isEmail: string -> bool, p: string)
    ensures CreateUserFieldOk(b["password" := Str(p)], "password", isEmail)
        <==> UpdateUserFieldOk(b["password" := Str(p)], "password", isEmail)
    ensures UpdateUserFieldOk(b["password" := Str(p)], "password", isEmail)
        <==> (var c := b["newPassword" := Str(p)]; Get(c, "newPassword").Str? && StrongPassword(Get(c, "newPassword").s))
  {
  }

  /** `loginSchema` does not apply the policy: a weak password still logs in. */
  lemma LoginHasNoPolicy(isEmail: string -> bool, email: string)
    requires email != "" && isEmail(email)
    ensures var b := map["email" := Str(email), "password" := Str("a")];
      ValidLogin(b, isEmail) && !StrongPassword("a")
  {
  }

  /** The custom messages of `createUserSchema`, which `updateUserSchema`
      and `loginSchema` repeat for the keys they share; other details keep
      Joi's built-in text, represented by `Joi.DefaultMessage`. */
  const UserTexts: seq<MessageEntry> := [
    MessageEntry("email", "string.email", "L'adresse email n'est pas valide"),
    MessageEntry("email", "any.required", "L'adresse email est requise"),
    MessageEntry("password", "string.min", "Le mot de passe doit contenir au moins 8 caractères"),
    MessageEntry("password", "string.pattern.base", "Le mot de passe doit contenir au moins une majuscule, une minuscule, un chiffre et un caractère spécial"),
    MessageEntry("password", "any.required", "Le mot de passe est requis"),
    MessageEntry("firstName", "any.required", "Le prénom est requis"),
    MessageEntry("lastName", "any.required", "Le nom est requis"),
    MessageEntry("role", "any.only", "Le rôle doit être l'un des suivants : admin, teacher, student, parent"),
    MessageEntry("role", "any.required", "Le rôle est requis"),
    MessageEntry("phoneNumber", "string.pattern.base", "Le numéro de téléphone n'est pas valide")]

  function UserMessage(d: Detail): string {
    CustomMessage(UserTexts, d)
  }

  /** A detail about a key of `createUserSchema` that the table names gets the
      first text listed for its key and code; a detail about any other key gets
      Joi's own text. */
  lemma UserMessageTable(d: Detail)
    ensures (forall k :: 0 <= k < |UserTexts| ==> UserTexts[k].key != d.key) ==> UserMessage(d) == DefaultMessage(d)
    ensures forall k :: FirstFor(UserTexts, k, d) ==> UserMessage(d) == UserTexts[k].text
  {
  }

  /** A body without `role` is told so in French. */
  lemma MissingRoleMessage()
    ensures UserMessage(Detail("role", None, "any.required")) == "Le rôle est requis"
  {
    assert UserTexts[8] == MessageEntry("role", "any.required", "Le rôle est requis");
    assert FirstFor(UserTexts, 8, Detail("role", None, "any.required"));
  }

  /** The custom messages of `changePasswordSchema`. */
  const ChangePasswordTexts: seq<MessageEntry> := [
    MessageEntry("currentPassword", "any.required", "Le mot de passe actuel est requis"),
    MessageEntry("newPassword", "string.min", "Le nouveau mot de passe doit contenir au moins 8 caractères"),
    MessageEntry("newPassword", "string.pattern.base", "Le nouveau mot de passe doit contenir au moins une majuscule, une minuscule, un chiffre et un caractère spécial"),
    MessageEntry("newPassword", "any.required", "Le nouveau mot de passe est requis")]

  function ChangePasswordMessage(d: Detail): string {
    CustomMessage(ChangePasswordTexts, d)
  }

  /** A detail about a key of `changePasswordSchema` that the table names gets
      the first text listed for its key and code; a detail about any other key gets
      Joi's own text. */
  lemma ChangePasswordMessageTable(d: Detail)
    ensures (forall k :: 0 <= k < |ChangePasswordTexts| ==> ChangePasswordTexts[k].key != d.key) ==> ChangePasswordMessage(d) == DefaultMessage(d)
    ensures forall k :: FirstFor(ChangePasswordTexts, k, d) ==> ChangePasswordMessage(d) == ChangePasswordTexts[k].text
  {
  }

}

=== FILE: validator.dfy ===
/** The validation middleware of backend/src/middleware/validator.js:
    `validate`, `validateQuery` and `validateParams` run a schema over one
    part of the request and turn its details into a single 400 error. */
module Validator {
  import opened Common
  import opened Joi
  import Text
  import UserValidation
  import DocumentValidation

  /** The schemas the routes hand to the middleware. */
  datatype Schema = DocumentSchema | CreateUserSchema | UpdateUserSchema | LoginSchema | ChangePasswordSchema

  /** What each schema accepts, stated by its own predicate. */
  predicate Accepts(schema: Schema, b: Body, isEmail: string -> bool) {
    match schema
    case DocumentSchema => DocumentValidation.ValidDocumentBody(b)
    case CreateUserSchema => UserValidation.ValidCreateUser(b, isEmail)
    case UpdateUserSchema => UserValidation.ValidUpdateUser(b, isEmail)
    case LoginSchema => UserValidation.ValidLogin(b, isEmail)
    case ChangePasswordSchema => UserValidation.ValidChangePassword(b)
  }

  /** `schema.validate(b, { abortEarly: false }).error.details`, empty when
      there is no error. */
  function Details(schema: Schema, b: Body, isEmail: string -> bool): (r: seq<Detail>)
    ensures r == [] <==> Accepts(schema, b, isEmail)
  {
    match schema
    case DocumentSchema => DocumentValidation.DocumentDetails(b)
    case CreateUserSchema => UserValidation.CreateUserDetails(b, isEmail)
    case UpdateUserSchema => UserValidation.UpdateUserDetails(b, isEmail)
    case LoginSchema => UserValidation.LoginDetails(b, isEmail)
    case ChangePasswordSchema => UserValidation.ChangePasswordDetails(b)
  }

  /** `detail.message` under each schema's `.messages(...)`. The user,
      update and login schemas share their custom texts key by key. */
  function Message(schema: Schema, d: Detail): string {
    match schema
    case DocumentSchema => DocumentValidation.DocumentMessage(d)
    case ChangePasswordSchema => UserValidation.ChangePasswordMessage(d)
    case _ => UserValidation.UserMessage(d)
  }

  /** Which texts each schema's details carry: the document texts, the
      password-change texts, or the user texts the create, update and login
      schemas share. */
  lemma MessageBySchema(schema: Schema, d: Detail)
    ensures schema == DocumentSchema ==> Message(schema, d) == DocumentValidation.DocumentMessage(d)
    ensures schema == ChangePasswordSchema ==> Message(schema, d) == UserValidation.ChangePasswordMessage(d)
    ensures schema in {CreateUserSchema, UpdateUserSchema, LoginSchema} ==>
              Message(schema, d) == Message(CreateUserSchema, d) == UserValidation.UserMessage(d)
  {
  }

  /** `details.map(detail => detail.message)`. */
  function Messages(schema: Schema, ds: seq<Detail>): (r: seq<string>)
    ensures |r| == |ds|
    ensures forall i :: 0 <= i < |ds| ==> r[i] == Message(schema, ds[i])
  {
    if |ds| == 0 then [] else [Message(schema, ds[0])] + Messages(schema, ds[1..])
  }

  /** The part of the request a middleware reads. */
  datatype Source = FromBody | FromQuery | FromParams

  datatype Request = Request(body: Body, query: Body, params: Body)

  function Field(req: Request, source: Source): Body {
    match source
    case FromBody => req.body
    case FromQuery => req.query
    case FromParams => req.params
  }

  /** What the middleware does: `next()`, or `next(err)`. The request itself
      is never written: only `error` is read from the validation result, so
      Joi's defaults and stripping do not reach the handler. */
  datatype Verdict = Next | NextWith(failure: Failure)

  /** The shared body of the three middlewares, on the part they read. */
  function Check(schema: Schema, b: Body, isEmail: string -> bool): (v: Verdict)
    ensures v == Next <==> Accepts(schema, b, isEmail)
    ensures v.NextWith? ==> v.failure.AppError? && v.failure.status == 400
    ensures v.NextWith? ==> forall d :: d in Details(schema, b, isEmail) ==>
              Text.Contains(v.failure.message, Message(schema, d))
  {
    var ds := Details(schema, b, isEmail);
    if ds == [] then Next
    else
      var parts := Messages(schema, ds);
      var text := Text.Join(parts, ", ");
      forall d | d in ds ensures Text.Contains(text, Message(schema, d)) {
        var k :| 0 <= k < |ds| && ds[k] == d;
        Text.JoinContainsEach(parts, ", ", k);
      }
      NextWith(AppError(400, text))
  }

  /** `validate(schema)`. */
  function Validate(schema: Schema, req: Request, isEmail: string -> bool): Verdict {
    Check(schema, Field(req, FromBody), isEmail)
  }

  /** `validateQuery(schema)`. */
  function ValidateQuery(schema: Schema, req: Request, isEmail: string -> bool): Verdict {
    Check(schema, Field(req, FromQuery), isEmail)
  }

  /** `validateParams(schema)`. */
  function ValidateParams(schema: Schema, req: Request, isEmail: string -> bool): Verdict {
    Check(schema, Field(req, FromParams), isEmail)
  }

  /** The three middlewares are one function of the part they read: moving
      the query or the parameters into the body gives the same verdict. */
  lemma SourcesAgree(schema: Schema, req: Request, isEmail: string -> bool, q: Body, p: Body)
    ensures ValidateQuery(schema, req, isEmail) == Validate(schema, req.(body := req.query), isEmail)
    ensures ValidateParams(schema, req, isEmail) == Validate(schema, req.(body := req.params), isEmail)
    ensures Validate(schema, req.(query := q, params := p), isEmail) == Validate(schema, req, isEmail)
  {
    assert Field(req, FromQuery) == Field(req.(body := req.query), FromBody);
    assert Field(req, FromParams) == Field(req.(body := req.params), FromBody);
    assert Field(req.(query := q, params := p), FromBody) == Field(req, FromBody);
  }

  /** The error carries every message, in the schema's order, separated by
      `", "`; a single failing check yields its message alone. */
  lemma ErrorMessageIsJoin(schema: Schema, req: Request, isEmail: string -> bool)
    requires !Accepts(schema, req.body, isEmail)
    ensures Validate(schema, req, isEmail)
         == NextWith(AppError(400, Text.Join(Messages(schema, Details(schema, req.body, isEmail)), ", ")))
    ensures |Details(schema, req.body, isEmail)| == 1 ==>
              Validate(schema, req, isEmail).failure.message == Message(schema, Details(schema, req.body, isEmail)[0])
  {
  }

  /** With `abortEarly: false` no failing key is hidden by an earlier one:
      for a document body, the error names every key whose rule fails. */
  lemma EveryFailingDocumentKeyReported(req: Request, isEmail: string -> bool, key: string)
    requires key in DocumentValidation.DocumentKeys
    requires !DocumentValidation.DocumentFieldOk(req.body, key)
    ensures Validate(DocumentSchema, req, isEmail).NextWith?
    ensures exists d :: d in Details(DocumentSchema, req.body, isEmail) && d.key == key
              && Text.Contains(Validate(DocumentSchema, req, isEmail).failure.message, Message(DocumentSchema, d))
  {
    var ds := Details(DocumentSchema, req.body, isEmail);
    assert Reports(ds, key);
    var d :| d in ds && d.key == key;
    assert Text.Contains(Validate(DocumentSchema, req, isEmail).failure.message, Message(DocumentSchema, d));
  }

  /** The same for a user-creation body. */
  lemma EveryFailingCreateUserKeyReported(req: Request, isEmail: string -> bool, key: string)
    requires key in UserValidation.CreateUserKeys
    requires !UserValidation.CreateUserFieldOk(req.body, key, isEmail)
    ensures Validate(CreateUserSchema, req, isEmail).NextWith?
    ensures exists d :: d in Details(CreateUserSchema, req.body, isEmail) && d.key == key
              && Text.Contains(Validate(CreateUserSchema, req, isEmail).failure.message, Message(CreateUserSchema, d))
  {
    var ds := Details(CreateUserSchema, req.body, isEmail);
    assert Reports(ds, key);
    var d :| d in ds && d.key == key;
    assert Text.Contains(Validate(CreateUserSchema, req, isEmail).failure.message, Message(CreateUserSchema, d));
  }
}
